=== FILE: README.md ===
# Portfolio teaching programs: a Dafny model

This project models the logic of the teaching programs in the `projetos/`
folders of the portfolio repository. Each program gets one module. Clocks,
random numbers, hashing, prompts and confirm dialogs become parameters.
Every operation is a pure function: it takes the old state and returns the
new one.

- **LoginManager.** The login lockout state machine. It keeps a user table,
  a failure counter per user name and a lockout timestamp per user name.
  Three failures lock a user out. The lockout expires lazily, once strictly
  more than 120 000 ms have passed.
- **LogLine** and **LogReport.** The log analyzer. LogLine is the parser for
  the line `[timestamp] [type] [ip] [user] message` and the matching writer.
  LogReport holds the five reports over the parsed lines:
  - the counts per type;
  - the first five failures;
  - suspicious IPs;
  - attack detection;
  - problematic users.
- **PasswordValidator.** The safe simulator's password strength score, its
  pattern penalties, the three-level band and the tips.
- **FormValidator.** The form validator's checks for email, password and
  confirmation, its HTML-escaping sanitiser and its submit decision.
- **BruteForce.** The brute-force simulator:
  - the character set;
  - the base-|charset| encoding of an attempt number (`indexToPassword`);
  - the random target;
  - when the enumeration stops.
- **HexDigest**, **PasswordEntry** and **PasswordManager.** The password
  manager:
  - the lowercase hex encoding of a digest;
  - the entry record;
  - add, search and delete over the list;
  - the CSV export layout.
- **TaskUser**, **TaskRecord** and **TaskManager.** The task manager. An
  admin gate protects the commands that change tasks. The task id counter
  only grows. Users see their own tasks. The menu dispatches on the typed
  choice.
- **TodoApp.** The TODO app: add, toggle, delete, edit, filter, sort,
  statistics, clear completed and clear all.
- **FakeApi.** The in-memory fake REST API. It holds the user and post
  store, a router over the typed URL and the displayed status rule.
- **PasswordGenerator.** The password generator: the character set the four
  check boxes select, the group count, the generation rule and the entropy
  label.

The shared modules are:
- **Wrappers:** `Option`.
- **Text:** Java and JavaScript `trim`, ASCII lower case, substring search,
  split and join.
- **Seqs:** find first, and an order-keeping filter.
- **CharGroups:** the letter, digit and symbol groups shared by the brute-force
  simulator and the password generator, and the facts that they are distinct.
- **Sorting:** a stable insertion sort standing for `Array.prototype.sort`
  and `List.sort`.

Two facts about the log analyzer's code:
1. Its "failed" count is the `FALHA` tag alone. `BLOQUEADO` entries are
   counted on their own line and never as failures.
2. Its failure rate divides the failures by successes plus failures, with no
   guard for zero. The rate is floating point and is left out.

## Model

| member | source | states |
|---|---|---|
| LoginManager.IsLockedOut | projetos/1-login-system/LoginManager.java:116-131 | Locked exactly when a lockout time is recorded and at most 120 000 ms have passed; while locked nothing changes; on expiry both the lockout time and the failure counter of that user are cleared; other users are untouched and the state invariant is kept |
| LoginManager.IncrementFailedAttempts | projetos/1-login-system/LoginManager.java:100-111 | The user's counter grows by exactly one; reaching 3 records the lockout at `now`; below 3 the lockout entry is neither added nor removed; no other user changes |
| LoginManager.Login | projetos/1-login-system/LoginManager.java:65-94 | Blocked exactly when a lockout is active, and then nothing changes; unknown user and wrong password both count one failure; success exactly for a known user with a matching hash, and it removes the counter; three failures set the lockout time; the invariant is kept |
| LoginManager.Register | projetos/1-login-system/LoginManager.java:38-57 | Accepted exactly when the name is present and not blank, not already registered, and the password has at least 6 characters; a refusal changes nothing; success adds exactly one user, so the user count grows by one |
| LoginManager.UserCount | projetos/1-login-system/LoginManager.java:167-169 | One per registered user name; zero exactly when nobody is registered |
| LoginManager.InitialIsValid | projetos/1-login-system/LoginManager.java:24-29 | The empty manager satisfies the invariant: a lockout entry exists exactly for counters equal to 3 |
| LoginManager.RunKeepsValid | projetos/1-login-system/LoginManager.java:65-131 | Over any sequence of login calls the invariant holds and every counter stays in 0..3 |
| LoginManager.ThreeFailuresThenBlocked | projetos/1-login-system/LoginManager.java:65-111 | Three wrong passwords, then a fourth attempt within 120 000 ms of the third, give fail, fail, fail and then blocked, whatever the fourth password is |
| LoginManager.ExpiryIsStrict | projetos/1-login-system/LoginManager.java:116-131 | Exactly 120 000 ms after the lockout the user is still blocked; one millisecond later the attempt is judged again, starting from a cleared counter |
| LogLine.Rest | projetos/8-log-analyzer/LogAnalyzer.java:78 | The message group `.*` takes the longest prefix that holds no line terminator; the whole rest when it has none |
| LogLine.FormatIsBracketed | projetos/8-log-analyzer/LogAnalyzer.java:268-269 | The sample-log writer's line is the four fields, each in brackets and followed by a space, then the message |
| LogLine.ParseFormat | projetos/8-log-analyzer/LogAnalyzer.java:76-92 | Round trip: a written line whose fields contain no `]` and no line terminator parses back to the same entry |
| LogLine.FieldsIffShape | projetos/8-log-analyzer/LogAnalyzer.java:77-79 | The bracket matcher succeeds from a start position exactly when the text there has the four-field shape |
| LogLine.FindIffShape | projetos/8-log-analyzer/LogAnalyzer.java:77-91 | Searching from a position finds an entry exactly when the shape starts at some later position, as the regex `find` lets a match start anywhere |
| LogLine.ParseIffShape | projetos/8-log-analyzer/LogAnalyzer.java:76-92 | A line parses exactly when some suffix of it has the four-bracket shape; otherwise it gives null |
| LogLine.Parse | projetos/8-log-analyzer/LogAnalyzer.java:76-92 | A parsed message never holds a line terminator, since the message group `.*` stops at one |
| LogLine.Format | projetos/8-log-analyzer/LogAnalyzer.java:268-269 | The written line is the five fields plus twelve characters of brackets and spaces; it opens with `[` and ends with the message (ParseFormat reads it back) |
| LogLine.LoadLogs | projetos/8-log-analyzer/LogAnalyzer.java:52-62 | Lines that do not parse are skipped: never more entries than lines, none when no line parses, one per line when all parse |
| LogLine.LoadLogsAppend | projetos/8-log-analyzer/LogAnalyzer.java:52-62 | Loading two files one after the other gives the entries of the first, then those of the second: a line that does not parse is skipped without disturbing the rest |
| LogLine.LoadLogsOne | projetos/8-log-analyzer/LogAnalyzer.java:52-62 | A single line gives its entry when it parses and nothing otherwise |
| LogLine.LoadFormatted | projetos/8-log-analyzer/LogAnalyzer.java:268-269 | Loading the lines written for well-formed entries gives back exactly those entries, in order |
| LogReport.CountTag | projetos/8-log-analyzer/LogAnalyzer.java:123-133 | A tag's count is the number of entries whose tag equals it exactly (its multiplicity among the entries' tags), never more than the entry count |
| LogReport.CountTagAppend | projetos/8-log-analyzer/LogAnalyzer.java:123-133 | Counting over two logs one after the other adds the two counts |
| LogReport.CountTagOne | projetos/8-log-analyzer/LogAnalyzer.java:123-133 | A single entry counts 1 toward its own tag and 0 toward any other |
| LogReport.DistinctTagsBounded | projetos/8-log-analyzer/LogAnalyzer.java:122-136 | The counts of three different tags add up to at most the total, since other tags count only toward the total |
| LogReport.GeneralStats | projetos/8-log-analyzer/LogAnalyzer.java:122-143 | The total is the entry count; the success, failure and blocked counts are the counts of exactly the `SUCESSO`, `FALHA` and `BLOQUEADO` tags; they sum to at most the total, and to exactly the total when every tag is one of the three |
| LogReport.AllTaggedSum | projetos/8-log-analyzer/LogAnalyzer.java:122-136 | When every entry carries one of the three tags, the three counts sum to the total |
| LogReport.FailedEntries | projetos/8-log-analyzer/LogAnalyzer.java:150-152 | The failure entries: as many as the `FALHA` count, each tagged `FALHA` and taken from the log |
| LogReport.FailedEntriesAppend | projetos/8-log-analyzer/LogAnalyzer.java:150-156 | Failures are listed in input order: the failures of a concatenation are those of each part, in turn |
| LogReport.LastFailures | projetos/8-log-analyzer/LogAnalyzer.java:148-158 | The shown failures are the first min(5, count) failures, in input order, without re-sorting |
| LogReport.Keys | projetos/8-log-analyzer/LogAnalyzer.java:164-170 | The grouping keys occur once each and are exactly the keys with a non-zero count |
| LogReport.Tally | projetos/8-log-analyzer/LogAnalyzer.java:164-170 | One pair per key with a positive count, carrying that key's exact count, and no key twice |
| LogReport.Above | projetos/8-log-analyzer/LogAnalyzer.java:174 | Keeps exactly the pairs whose count is strictly above the threshold |
| LogReport.SortDescending | projetos/8-log-analyzer/LogAnalyzer.java:175 | A permutation of the pairs in non-increasing count order that keeps keys distinct |
| LogReport.SuspiciousIps | projetos/8-log-analyzer/LogAnalyzer.java:163-184 | Exactly the IPs whose failure-plus-blocked count is above 3, each once with its count, in non-increasing count order |
| LogReport.NoSuspiciousIff | projetos/8-log-analyzer/LogAnalyzer.java:180-182 | The "none" message appears exactly when no IP's failure-plus-blocked count is above 3 |
| LogReport.AttackIps | projetos/8-log-analyzer/LogAnalyzer.java:189-217 | Exactly the IPs with more than 5 `FALHA` entries, blocked entries not counted, each once with its count |
| LogReport.AttackDetected | projetos/8-log-analyzer/LogAnalyzer.java:203-206 | An attack is flagged exactly when some IP has more than 5 failures, and exactly when the attack list is not empty |
| LogReport.FailuresWithinFailuresAndBlocked | projetos/8-log-analyzer/LogAnalyzer.java:166-170 | For any key, the failure count is at most the failure-plus-blocked count |
| LogReport.AttackIpsAreSuspicious | projetos/8-log-analyzer/LogAnalyzer.java:189-209 | Every IP flagged as an attack is also listed as suspicious |
| LogReport.ProblematicUsers | projetos/8-log-analyzer/LogAnalyzer.java:222-241 | At most 5 users, each with more than 2 failures and its exact count, in non-increasing order; an omitted user with more than 2 failures is only left out because 5 users with at least as many are shown |
| LogReport.TopOfSorted | projetos/8-log-analyzer/LogAnalyzer.java:233-236 | Cutting a sorted list to its first 5 keeps the order and distinct keys, and every pair dropped has a count no larger than each one kept |
| LogReport.Analyze | projetos/8-log-analyzer/LogAnalyzer.java:97-118 | The report's statistics are the total and the exact count of each of the three tags; the recent failures are the first min(5, failures) failure entries in log order; the suspicious IPs are exactly those with more than 3 failures plus blocks, each once with that count, in non-increasing order; the attacking IPs are exactly those with more than 5 failures, each once with that count, and each also suspicious; an attack is reported exactly when that list is not empty; at most 5 problematic users, each once with its failure count above 2, in non-increasing order, and a user above 2 is left out only when 5 users with at least as many failures are shown |
| PasswordValidator.LengthPoints | projetos/2-safe-simulator/PasswordValidator.java:45-47 | Length earns one point for each of the thresholds 8, 12 and 16 that it reaches |
| PasswordValidator.RawScore | projetos/2-safe-simulator/PasswordValidator.java:44-59 | The score before penalties is at most 7, and at most 4 for a password shorter than 8 |
| PasswordValidator.RawScoreCountsClasses | projetos/2-safe-simulator/PasswordValidator.java:44-59 | The score before penalties is the length points plus one point per character class present: 4 less the number of class tips the password would get |
| PasswordValidator.IsSequential | projetos/2-safe-simulator/PasswordValidator.java:103-112 | True exactly when some three consecutive characters have codes c, c+1, c+2 |
| PasswordValidator.Score | projetos/2-safe-simulator/PasswordValidator.java:44-64 | The final score lies in -2..7, is at most 4 for short passwords, at most 5 with an obvious pattern and at least 0 without one |
| PasswordValidator.EachPatternCostsTwo | projetos/2-safe-simulator/PasswordValidator.java:62-64 | Each of the three patterns (one repeated character, a common sequence, letters then digits in sequence) takes exactly 2 points off; without a pattern nothing is taken off |
| PasswordValidator.HasObviousPatterns | projetos/2-safe-simulator/PasswordValidator.java:79-97 | Each of the three pattern rules needs at least three characters, so a shorter password is never penalised |
| PasswordValidator.Band | projetos/2-safe-simulator/PasswordValidator.java:66-73 | Score up to 2 is weak, 3 to 4 medium, 5 or more strong |
| PasswordValidator.Validate | projetos/2-safe-simulator/PasswordValidator.java:36-74 | A null or empty password is weak; any other is the band of its score |
| PasswordValidator.ShortNeverStrong | projetos/2-safe-simulator/PasswordValidator.java:45-73 | A password shorter than 8 characters is never rated strong |
| PasswordValidator.CommonSequencePenalty | projetos/2-safe-simulator/PasswordValidator.java:62-89 | Containing "123", "abc", "qwerty" or "password" marks an obvious pattern and costs exactly 2 points |
| PasswordValidator.RepetitionIsWholeString | projetos/2-safe-simulator/PasswordValidator.java:81-83 | The repetition rule matches the whole string: "aaa" counts, "aaab" does not |
| PasswordValidator.Unmet | projetos/2-safe-simulator/PasswordValidator.java:117-134 | Exactly the criteria the password fails, keeping the criteria's order |
| PasswordValidator.Lines | projetos/2-safe-simulator/PasswordValidator.java:121-133 | A non-empty list of tips starts with a bullet line |
| PasswordValidator.GetTips | projetos/2-safe-simulator/PasswordValidator.java:117-137 | The "strong password" message exactly when the length is at least 8 and all four character classes occur; otherwise one tip line per unmet criterion |
| PasswordValidator.AllCriteriaMet | projetos/2-safe-simulator/PasswordValidator.java:117-136 | No criterion is unmet exactly when the length is at least 8 and every character class occurs |
| PasswordValidator.CriteriaOrdered | projetos/2-safe-simulator/PasswordValidator.java:120-134 | The criteria are checked in a fixed order: length, upper case, lower case, digit, symbol |
| PasswordValidator.TipsInOrder | projetos/2-safe-simulator/PasswordValidator.java:120-134 | The tips always follow that fixed order |
| PasswordValidator.StrongTipsNeverWeak | projetos/2-safe-simulator/PasswordValidator.java:36-137 | A password the tips call strong is never rated weak |
| FormValidator.StripTags | projetos/4-form-validator/script.js:130 | Removing tags never adds characters, is the identity when the text has no `<` or no `>`, and leaves no complete tag behind |
| FormValidator.StripKeepsPlainPrefix | projetos/4-form-validator/script.js:130 | Text before the first `<` is kept as it is, followed by the stripped rest |
| FormValidator.StripKeepsFirst | projetos/4-form-validator/script.js:130 | Any leading run of characters other than `<` is kept in place |
| FormValidator.StripOneTag | projetos/4-form-validator/script.js:130 | A tag `<...>` with no `>` inside is removed, whatever follows it |
| FormValidator.ReplaceAll | projetos/4-form-validator/script.js:134-138 | Text without the replaced character comes back unchanged |
| FormValidator.ReplaceAllChars | projetos/4-form-validator/script.js:134-138 | Every character of the result is either a kept character other than the one replaced or part of the replacement |
| FormValidator.ReplaceAllAppend | projetos/4-form-validator/script.js:134-138 | Replacing all occurrences works piecewise over a concatenation |
| FormValidator.Escape | projetos/4-form-validator/script.js:133-138 | The escaped text has no `<`, `>`, `"` or `'`, and text without the five special characters is unchanged |
| FormValidator.EscapeChainedAppend | projetos/4-form-validator/script.js:133-138 | The chain of five replacements works piecewise over a concatenation |
| FormValidator.ChainedIsSinglePass | projetos/4-form-validator/script.js:133-138 | Because `&` is replaced first, the five chained replacements equal one pass that escapes each character once; no entity is escaped twice |
| FormValidator.EscapeRoundTrip | projetos/4-form-validator/script.js:133-138 | Decoding the five entities recovers the text exactly |
| FormValidator.Sanitize | projetos/4-form-validator/script.js:128-141 | The sanitised text has no `<`, `>`, `"` or `'`, and text without the five special characters comes back unchanged |
| FormValidator.ValidateEmail | projetos/4-form-validator/script.js:34-62 | The trimmed email is rejected as required when empty, then as malformed when it does not fit `local@domain.tld` without spaces or `@`, then as too long above 254 characters; accepted otherwise |
| FormValidator.PasswordErrors | projetos/4-form-validator/script.js:73-91 | A rule is listed exactly when the password breaks it, in the fixed order of the checks |
| FormValidator.RulesInRankOrder | projetos/4-form-validator/script.js:85-91 | The seven rules are declared in their check order |
| FormValidator.AllRulesListed | projetos/4-form-validator/script.js:73-81 | Every rule is among the seven checked |
| FormValidator.ValidatePassword | projetos/4-form-validator/script.js:68-100 | Valid exactly when every rule holds; a valid password has at least 8 characters, no whitespace and none of `<>&"'` |
| FormValidator.ValidateConfirm | projetos/4-form-validator/script.js:105-122 | Fails on empty input, fails on a mismatch, succeeds exactly when non-empty and equal to the password |
| FormValidator.HandleSubmit | projetos/4-form-validator/script.js:146-157 | The form is sent exactly when all three validators pass; all three always run; the email field shows the sanitised value when sanitising changed the input, and otherwise keeps the input as typed |
| FormValidator.SubmittedPasswordIsClean | projetos/4-form-validator/script.js:146-157 | A sent form's password holds no whitespace and none of `<>&"'` |
| BruteForce.GetCharset | projetos/5-brute-force-simulator/script.js:42-50 | The 52 ASCII letters first, then the 10 digits when numbers are on, then the 29 symbols when symbols are on |
| BruteForce.CharsetDistinct | projetos/5-brute-force-simulator/script.js:42-50 | No character occurs twice in the character set, for every choice of the two options |
| BruteForce.Encode | projetos/5-brute-force-simulator/script.js:172-182 | The encoding has exactly the requested length and uses only characters of the set |
| BruteForce.IndexToPassword | projetos/5-brute-force-simulator/script.js:172-182 | The loop computes the positional base-\|charset\| encoding, most significant digit first |
| BruteForce.DecodeEncode | projetos/5-brute-force-simulator/script.js:172-182 | Over a set without repeats, decoding the encoding of an index below base^length recovers the index |
| BruteForce.EncodeDecode | projetos/5-brute-force-simulator/script.js:172-182 | Every string over the set is the encoding of its decoded value, which is below base^length |
| BruteForce.EncodeInjective | projetos/5-brute-force-simulator/script.js:144-159 | Over a set without repeats, different indices below base^length give different passwords |
| BruteForce.EncodeWraps | projetos/5-brute-force-simulator/script.js:176-179 | Indices wrap: index i encodes like i mod base^length |
| BruteForce.EncodeZero | projetos/5-brute-force-simulator/script.js:176-179 | Index 0 is the first character of the set repeated |
| BruteForce.GenerateRandomPassword | projetos/5-brute-force-simulator/script.js:106-112 | The random target has the requested length and uses only characters of the set |
| BruteForce.RunBruteForce | projetos/5-brute-force-simulator/script.js:117-166 | Stops at the first matching attempt or after base^length attempts; a target over the same set and length is always found within its decoded value plus one attempts |
| HexDigest.Unsigned | projetos/3-password-manager/PasswordManager.java:223 | `b & 0xff` is the byte's value modulo 256, in 0..255 |
| HexDigest.ToHexString | projetos/3-password-manager/PasswordManager.java:223 | `Integer.toHexString` gives lowercase hex digits; one digit exactly below 16, at most two below 256 |
| HexDigest.ByteHex | projetos/3-password-manager/PasswordManager.java:223-225 | Each byte becomes exactly two hex digits, high nibble first, zero-padded |
| HexDigest.ByteRoundTrip | projetos/3-password-manager/PasswordManager.java:223-225 | Parsing the two digits of a byte gives the byte back |
| HexDigest.Hex | projetos/3-password-manager/PasswordManager.java:221-227 | The encoding has two hex digits per byte |
| HexDigest.HexString | projetos/3-password-manager/PasswordManager.java:221-227 | The StringBuilder loop computes that encoding |
| HexDigest.Sha256Length | projetos/3-password-manager/PasswordManager.java:219-227 | A 32-byte SHA-256 digest gives 64 characters |
| HexDigest.HexRoundTrip | projetos/3-password-manager/PasswordManager.java:220-227 | Decoding the hex text gives the digest bytes back |
| PasswordEntry.HashPassword | projetos/3-password-manager/PasswordManager.java:217-231 | The stored hash is hex text, twice the digest's length, that decodes to the digest of the password |
| PasswordEntry.NewEntry | projetos/3-password-manager/PasswordEntry.java:18-24 | Service, user name and times are stored as given, and the password only as its hash |
| PasswordEntry.NoPlainText | projetos/3-password-manager/PasswordEntry.java:18-24 | Two passwords with the same digest give identical entries, so the plaintext is not stored |
| PasswordEntry.SetPassword | projetos/3-password-manager/PasswordEntry.java:47-50 | Changes only the hash and the modification time; service, user name and creation time stay |
| PasswordEntry.ShowHidesHash | projetos/3-password-manager/PasswordEntry.java:52-57 | The shown text does not depend on the hash or the modification time |
| PasswordEntry.ShowSurvivesSetPassword | projetos/3-password-manager/PasswordEntry.java:47-57 | Changing the password does not change the shown text |
| PasswordEntry.Show | projetos/3-password-manager/PasswordEntry.java:53-57 | The text shown contains the service and the user name |
| PasswordManager.AddPassword | projetos/3-password-manager/PasswordManager.java:95-111 | Appends exactly one entry, with trimmed service and user name and the hashed password, and keeps the earlier entries |
| PasswordManager.Normalise | projetos/3-password-manager/PasswordManager.java:131 | The query as searched has no upper-case letter and is no longer than typed |
| PasswordManager.Search | projetos/3-password-manager/PasswordManager.java:129-148 | Exactly the entries whose lowercased service contains the trimmed, lowercased query |
| PasswordManager.SearchAppend | projetos/3-password-manager/PasswordManager.java:133-138 | Results keep list order: a longer list gives the old results, then the new ones |
| PasswordManager.BlankSearchListsAll | projetos/3-password-manager/PasswordManager.java:131-138 | A blank query lists every entry |
| PasswordManager.SearchIgnoresQueryCase | projetos/3-password-manager/PasswordManager.java:131-138 | Lowercasing the query first does not change the results |
| PasswordManager.Delete | projetos/3-password-manager/PasswordManager.java:150-167 | A number n in 1..size removes only the n-th entry and keeps the rest in order; any other input, or an empty list, leaves the list as it was |
| PasswordManager.DeleteRemovesOne | projetos/3-password-manager/PasswordManager.java:157-160 | Deleting loses exactly the chosen entry, and nothing else is lost or duplicated |
| PasswordManager.CsvRows | projetos/3-password-manager/PasswordManager.java:173-182 | A header, then one row per entry in list order |
| PasswordManager.Terminated | projetos/3-password-manager/PasswordManager.java:174-182 | Each row is written followed by a line break |
| PasswordManager.ExportCsv | projetos/3-password-manager/PasswordManager.java:169-182 | The export opens with the header line and ends with a line break |
| PasswordManager.CsvReadsBack | projetos/3-password-manager/PasswordManager.java:169-188 | With fields free of commas and line breaks, the file splits back into the header, one line per entry and a final empty text, and each data line splits into service, user name and date |
| PasswordManager.CommaInServiceShiftsColumns | projetos/3-password-manager/PasswordManager.java:178-181 | Fields are not quoted: a comma in a service name splits the line into four fields |
| TaskUser.AdminIsExact | projetos/9-task-manager/User.java:19-21 | Admin exactly when the role is exactly "ADMIN": "admin", "USER" and a null role are not admin |
| TaskRecord.NewTask | projetos/9-task-manager/Task.java:12-19 | A new task keeps its id, title, description and assignee, with status "TODO" and priority "MEDIUM" |
| TaskRecord.Apply | projetos/9-task-manager/Task.java:26-29 | Setting the status changes only the status, setting the priority only the priority; any string is accepted |
| TaskRecord.FixedFieldsNeverChange | projetos/9-task-manager/Task.java:5-29 | No sequence of setter calls changes id, title, description or assignee |
| TaskRecord.LastStatusWins | projetos/9-task-manager/Task.java:26 | After any changes, the last status set is the status |
| TaskRecord.SettersCommute | projetos/9-task-manager/Task.java:26-29 | Setting status and priority gives the same task in either order |
| TaskManager.UserExists | projetos/9-task-manager/TaskManager.java:349-351 | True exactly when some user has that id |
| TaskManager.FindTask | projetos/9-task-manager/TaskManager.java:345-347 | The position of the first task with that id, or none exactly when no task has it |
| TaskManager.SelectUser | projetos/9-task-manager/TaskManager.java:79-99 | A choice in 1..the number of users picks that user; anything else picks none |
| TaskManager.Start | projetos/9-task-manager/TaskManager.java:36-56 | A login choice in 1..3 starts a valid session with the three seed users, no tasks and the counter at 1 |
| TaskManager.CreateTask | projetos/9-task-manager/TaskManager.java:152-176 | Only an admin creates, and only for an existing assignee; the task gets the counter as id and the counter grows by exactly one; every refusal changes nothing |
| TaskManager.ViewAllTasks | projetos/9-task-manager/TaskManager.java:181-197 | Only an admin sees the list, and then the whole list |
| TaskManager.ViewMyTasks | projetos/9-task-manager/TaskManager.java:202-216 | Exactly the tasks assigned to the current user |
| TaskManager.MyTasksInIdOrder | projetos/9-task-manager/TaskManager.java:202-216 | The user's tasks come in strictly increasing id order |
| TaskManager.EditTask | projetos/9-task-manager/TaskManager.java:221-248 | The edit succeeds exactly when the current user is an admin, an id was read and a task has that id; otherwise nothing changes; on success only that task's status and priority change |
| TaskManager.UpdateTaskStatus | projetos/9-task-manager/TaskManager.java:253-274 | The status changes only when the task exists and is assigned to the current user; otherwise nothing changes |
| TaskManager.DeleteTask | projetos/9-task-manager/TaskManager.java:279-299 | Only an admin deletes; an unknown id changes nothing; otherwise exactly that task is removed |
| TaskManager.DeleteRemovesExactlyThatId | projetos/9-task-manager/TaskManager.java:287-295 | An admin's delete leaves exactly the tasks with other ids, in order |
| TaskManager.AssignTask | projetos/9-task-manager/TaskManager.java:304-332 | Never changes the state, even on success; success needs an admin, an existing task and an existing user |
| TaskManager.HandleMenuChoice | projetos/9-task-manager/TaskManager.java:127-147 | Quits exactly on "6" for an admin and "3" for a user; any other item picked belongs to the right menu |
| TaskManager.MenuStopsOnlyOnExit | projetos/9-task-manager/TaskManager.java:127-147 | The session keeps running on every typed line except the exit choice |
| TaskManager.Perform | projetos/9-task-manager/TaskManager.java:127-182 | Every menu command keeps the session's users and current user and the state invariant; viewing all tasks changes nothing and succeeds only for an admin |
| TaskManager.RunKeepsValid | projetos/9-task-manager/TaskManager.java:152-176 | Over any command sequence, task ids stay strictly increasing in list order and below the counter, every assignee exists, and the users and the logged-in user stay |
| TaskManager.UserCommandBounded | projetos/9-task-manager/TaskManager.java:336-343 | For a non-admin, one command adds and removes no task, keeps the counter, every priority and every fixed field, and changes a status only on a task assigned to that user |
| TaskManager.UserSessionBounded | projetos/9-task-manager/TaskManager.java:336-343 | The same holds over a whole non-admin session |
| TodoApp.AddTask | projetos/10-todo-app/script.js:67-102 | Blank text is refused as empty and text longer than 200 after trimming as too long, both leaving the list unchanged; otherwise one not-completed task with the escaped trimmed text is appended |
| TodoApp.Find | projetos/10-todo-app/script.js:117 | The position of the first task with that id, or none exactly when no task has it |
| TodoApp.ToggleTask | projetos/10-todo-app/script.js:116-124 | Flips `completed` of the first task with that id only and stamps its update time; an unknown id changes nothing |
| TodoApp.ToggleTwice | projetos/10-todo-app/script.js:116-124 | Toggling twice gives every task back, up to its modification stamp |
| TodoApp.DeleteTask | projetos/10-todo-app/script.js:129-135 | A confirmed delete keeps exactly the tasks with other ids; a declined one changes nothing |
| TodoApp.DeleteUnknownId | projetos/10-todo-app/script.js:129-135 | Deleting an id no task has changes nothing |
| TodoApp.DeleteAppend | projetos/10-todo-app/script.js:129-135 | Delete keeps the relative order of the rest: it works piecewise over a concatenation |
| TodoApp.EditTask | projetos/10-todo-app/script.js:140-151 | A non-blank answer for a known id replaces that task's text with the escaped trimmed answer; a cancelled or blank answer, or an unknown id, changes nothing |
| TodoApp.EditAcceptsTooLong | projetos/10-todo-app/script.js:140-151 | Editing accepts a text that adding would refuse as longer than 200 characters |
| TodoApp.FilterTasks | projetos/10-todo-app/script.js:156-171 | "ativas" keeps the open tasks, "completas" the completed ones, a priority name the tasks of that priority; an unknown filter returns every task; with FilterTasksAppend and FilterTasksOne the view keeps list order |
| TodoApp.FilterTasksAppend | projetos/10-todo-app/script.js:156-171 | For a known view, filtering two lists one after the other gives the view of the first, then that of the second |
| TodoApp.FilterTasksOne | projetos/10-todo-app/script.js:156-171 | A single task is in "ativas" exactly when open, in "completas" exactly when completed, in a priority view exactly when it has that priority, and always in any other view, "todas" included |
| TodoApp.ActiveCompletedPartition | projetos/10-todo-app/script.js:158-161 | The active and completed views together hold every task exactly once |
| TodoApp.SortTasks | projetos/10-todo-app/script.js:176-196 | A permutation of the input, ordered by date, by priority rank alta < media < baixa, or by the collation key as chosen; an unknown choice keeps the order |
| TodoApp.SortByPriorityStable | projetos/10-todo-app/script.js:186-189 | Tasks of equal priority keep their relative order |
| TodoApp.SortByNewestStable | projetos/10-todo-app/script.js:180-182 | Tasks created at the same time keep their relative order |
| TodoApp.UpdateStats | projetos/10-todo-app/script.js:201-216 | Total is the task count, completed and active are the sizes of the two views and add up to it, open high-priority tasks are at most the active ones, and the percentage is 0 for no tasks and otherwise the completed share rounded half up, in 0..100 |
| TodoApp.HighPriorityIsOpenAltaView | projetos/10-todo-app/script.js:205 | The high-priority count is exactly the number of open tasks in the "alta" view |
| TodoApp.RoundedShare | projetos/10-todo-app/script.js:213 | The rounded percentage lies in 0..100 and is within half a point of the exact share |
| TodoApp.ClearCompleted | projetos/10-todo-app/script.js:221-227 | A confirmed clear keeps exactly the open tasks; a declined one changes nothing |
| TodoApp.ClearCompletedIsActiveView | projetos/10-todo-app/script.js:221-227 | After a confirmed clear the list equals the "ativas" view, in the same order, and no completed task remains |
| TodoApp.ClearCompletedAppend | projetos/10-todo-app/script.js:221-227 | Clearing two lists one after the other keeps the open tasks of the first, then those of the second |
| TodoApp.ClearCompletedOne | projetos/10-todo-app/script.js:221-227 | A single task survives a confirmed clear exactly when it is open |
| TodoApp.ClearAll | projetos/10-todo-app/script.js:232-240 | The list is emptied only when both confirmations are given; otherwise it is unchanged |
| FakeApi.SeedWellFormed | projetos/7-fake-api/script.js:7-12 | In the seed data each user's id is its position plus one and emails are distinct |
| FakeApi.GetUsers | projetos/7-fake-api/script.js:32-39 | Succeeds with the whole user list |
| FakeApi.GetPosts | projetos/7-fake-api/script.js:107-115 | Succeeds with the whole post list |
| FakeApi.GetUserById | projetos/7-fake-api/script.js:44-62 | 404 exactly when no user has that id; otherwise that user |
| FakeApi.UserByPosition | projetos/7-fake-api/script.js:47-61 | In a well-formed store, id n is found exactly when it is in 1..the user count, and it is the n-th user |
| FakeApi.CreateUser | projetos/7-fake-api/script.js:67-102 | 400 exactly when name or email is missing, 409 exactly when the email is taken, both leaving the store unchanged; otherwise appends one user with the next id and role "user", and answers 201 |
| FakeApi.CreateUserKeepsWellFormed | projetos/7-fake-api/script.js:79-94 | Creating users keeps ids equal to position plus one and emails distinct |
| FakeApi.CreatedUserIsFound | projetos/7-fake-api/script.js:87-94 | A newly created user is then found by its id |
| FakeApi.Search | projetos/7-fake-api/script.js:120-141 | 400 exactly for a missing query; otherwise exactly the posts whose lowercased title contains the lowercased query, in order, with `results` equal to their count |
| FakeApi.SearchIgnoresCase | projetos/7-fake-api/script.js:131-133 | Lowercasing the query does not change the matches |
| FakeApi.SearchAppend | projetos/7-fake-api/script.js:120-141 | For a non-empty query the matches among two post lists are the matches of the first, then those of the second, so the results keep post order |
| FakeApi.SearchOnePost | projetos/7-fake-api/script.js:120-141 | A single post is a result exactly when its lowercased title contains the lowercased query |
| FakeApi.RequestUrl | projetos/7-fake-api/script.js:209 | An empty URL field means `/api/users`; a typed one is used as is |
| FakeApi.TakeUntil | projetos/7-fake-api/script.js:224-226 | The longest prefix without a stop character; the next character, if any, is a stop |
| FakeApi.PathOf | projetos/7-fake-api/script.js:224-226 | The path is a prefix of the URL with no `?` and no `#`, and it stops only at one of them or at the end |
| FakeApi.SearchOf | projetos/7-fake-api/script.js:224-226 | The query string holds no `#`; when the character after the path is `?` it is the text after that `?` up to the first `#` or the end; otherwise it is empty |
| FakeApi.FirstValue | projetos/7-fake-api/script.js:254 | A value is found only for a key without `=`, and it comes from the first pair that names the key (`key=value`, or a bare `key` for the empty value); none only when no pair names the key |
| FakeApi.QueryParam | projetos/7-fake-api/script.js:254 | Among the `&`-separated pairs of the query, the value of the first pair that names the key; none when no pair names it |
| FakeApi.QueryParamSingle | projetos/7-fake-api/script.js:254 | The query `key=value` gives back `value` |
| FakeApi.DecimalValue | projetos/7-fake-api/script.js:47 | The units digit of the number is the last digit of the text, and a text of n digits reads below 10^n |
| FakeApi.DecimalAppend | projetos/7-fake-api/script.js:47 | Reading digits positionally: the value of a + b is the value of a shifted by |b| decimal places plus the value of b |
| FakeApi.DecimalLeadingZero | projetos/7-fake-api/script.js:47 | A leading zero does not change the number, so `/api/users/007` asks for user 7 |
| FakeApi.RouteOf | projetos/7-fake-api/script.js:228-263 | `/api/users/<digits>` goes to the user lookup for any method; `/api/users` lists on GET and creates on POST; `/api/posts` and `/api/search` for any method; anything else is not found |
| FakeApi.RouteRequest | projetos/7-fake-api/script.js:223-264 | Only the create route changes the store, and it answers as `createUser` on the request's name and email; the list routes answer the users and the posts; the search route answers as `searchPosts` on the `q` parameter; the id route answers as the lookup does; an unmatched route answers 404 |
| FakeApi.RouteKeepsWellFormed | projetos/7-fake-api/script.js:239-245 | Any request keeps the store well formed |
| FakeApi.CreateRouteNeverMissing | projetos/7-fake-api/script.js:241-244 | The default name and email mean a POST to `/api/users` never answers 400 |
| FakeApi.IdRouteIgnoresMethod | projetos/7-fake-api/script.js:234-237 | On a user-id path the method does not matter, and the store is not changed |
| FakeApi.HttpStatus | projetos/7-fake-api/script.js:271 | A non-zero status is shown as is; otherwise 200 on success and 400 on failure |
| FakeApi.ShownStatuses | projetos/7-fake-api/script.js:271 | Every routed request shows one of 200, 201, 400, 404 and 409 |
| PasswordGenerator.GetCharset | projetos/6-password-generator/script.js:74-86 | The checked groups as consecutive blocks in the order upper case, lower case, digits, symbols, each block exactly its group's characters (empty when unchecked); empty exactly when no box is checked; a character is in it exactly when a checked group offers it |
| CharGroups.GroupsSpellTheirClasses | projetos/6-password-generator/script.js:77-79 | The letter and digit groups hold exactly the characters of their class |
| PasswordGenerator.CharsetDistinct | projetos/6-password-generator/script.js:74-86 | The set never repeats a character |
| PasswordGenerator.CountCharsetTypes | projetos/6-password-generator/script.js:132-139 | The count is in 0..4, 0 exactly when the set is empty, 4 exactly when every box is checked |
| PasswordGenerator.CountIsGroupsOffered | projetos/6-password-generator/script.js:132-139 | The count equals the number of character classes the set draws from |
| PasswordGenerator.Generate | projetos/6-password-generator/script.js:50-69 | Aborts exactly when no box is checked; otherwise the password has the requested length and each character comes from a checked group |
| PasswordGenerator.EntropyBand | projetos/6-password-generator/script.js:153-165 | Below 32 weak, below 64 medium, below 96 strong, otherwise very strong |
| PasswordGenerator.BandMonotone | projetos/6-password-generator/script.js:153-165 | More entropy never earns a weaker label |
| PasswordGenerator.BarWidth | projetos/6-password-generator/script.js:149 | The bar is the share of 128 bits in percent, capped at exactly 100 from 128 bits on |
| Text.Trim | projetos/10-todo-app/script.js:69 | The trimmed text occurs inside the original with only white space before and after it, neither starts nor ends with white space, and is empty exactly when the original is all white space |
| Sorting.SortBy | projetos/10-todo-app/script.js:176-196 | The result is sorted by the key and is a permutation of the input |
| Sorting.SortByStable | projetos/10-todo-app/script.js:176-196 | Elements with equal keys keep their input order, as `Array.prototype.sort` guarantees |
| Sorting.SortByDistinct | projetos/8-log-analyzer/LogAnalyzer.java:175 | Sorting keeps keys that were distinct distinct |

## Left out

- Console menus, `Scanner` prompts, printing and the command-line programs (`LoginSystem.java`, `SafeSimulator.java`, the `run` and `show*` methods): these are input and output glue. The typed answers are parameters.
- Files and storage are not modelled:
  - the login log file;
  - opening the analyzer's log file and its error paths;
  - the random sample-log generator;
  - Java serialization of the password list;
  - writing the CSV file;
  - `localStorage`, JSON import and export.
  Only the line layouts and the parsing are modelled.
- SHA-256 and Base64 are foreign library calls. The digest, and the login system's password hash, are uninterpreted function parameters. The login `User` class wraps that hash and is not modelled further.
- `Math.random`, `Date.now()`, `LocalDateTime.now()` and `System.currentTimeMillis()` are not modelled. Their values are parameters: a sequence of reals in [0, 1) and integer clock readings.
- Floating point is not modelled:
  - the log analyzer's failure rate (a NaN with no success or failure events);
  - `calculateEntropy`, `Math.log2` and `Math.pow`, the combination counts, crack time and `formatTime`;
  - `toFixed` and `toLocaleString` output.
  The entropy is an input to `PasswordGenerator.EntropyBand` and `PasswordGenerator.BarWidth`, and is taken as an exact real.
- TodoApp.UpdateStats: the percentage is rounded in exact arithmetic. `Math.round` on the double `completed / total * 100` can land on the other side of a half, for example 29 of 200 gives 14 in the browser and 15 here.
- TodoApp.PriorityRank: a priority other than alta, media or baixa ranks after baixa. In the source the comparator yields NaN for it, which leaves the order to the engine.
- The DOM `sanitizeInput` of the TODO app is a parameter `escape`, since it is the browser's HTML serialisation. `localeCompare` with the pt-BR collation is a parameter `collate`, a key function.
- Lower case is ASCII-only. `toLowerCase` in Java and JavaScript also maps non-ASCII letters.
- String length counts characters, not UTF-16 code units.
- Java `int` overflow of ids and counters is not modelled, and neither is JavaScript number precision above 2^53. Integers are unbounded.
- `String.getBytes()` uses the platform charset. The digest parameter is applied to the string directly.
- FakeApi.RouteOf: `new URL` is modelled as splitting at the first `?` or `#`. There is no percent-decoding, no `+` decoding, no dot-segment removal and no host or scheme parsing. `URLSearchParams.get` returns the first pair named by the key. A typed URL that `new URL` rejects (`:abc`, whose port is not a number) throws in the page, which then shows an error object instead of a response; the model routes such text like any other path and answers 404.
- The fake API's random delays, the `async` plumbing and `displayError`'s rendering are not modelled. The delays decide nothing about the answer; `displayError` is reached only through the rejected URLs above.
- The password entry's date formatting and the CSV date text are parameters. They are `toString` of a `LocalDateTime`.
- HashMap iteration order is not modelled. It decides tie order in the sorted reports and the order of the attack list. The model groups keys in first-occurrence order and sorts stably; the contracts state membership, counts and non-increasing order only.
- The duplicate `showWelcome` in `TaskManager.java` (lines 101 and 353) is a compile defect in console code.
- The following user-interface pieces are not modelled:
  - the copy button and clipboard;
  - event listeners and HTML rendering;
  - the brute-force animation loop;
  - the root `script.js` (menu toggle and scroll observer).

=== FILE: brute_force.dfy ===
/**
 * The brute-force simulator: the charset, the random target, the
 * index-to-password encoder and the enumeration loop. An attempt number is
 * turned into a password by writing it in base |charset|, most significant digit
 * first, padded with `charset[0]` to the configured length. The simulator's
 * timing, progress display and animation frames are not part of this model.
 */
module BruteForce {
  import opened Text
  import opened Seqs
  import opened CharGroups

  const Letters: string := LowerLetters + UpperLetters

  /** `getCharset`: letters, then digits if enabled, then symbols if enabled. */
  function GetCharset(includeNumbers: bool, includeSymbols: bool): (r: string)
    ensures |r| == 52 + (if includeNumbers then 10 else 0) + (if includeSymbols then 29 else 0)
    ensures r[..52] == Letters
    ensures includeNumbers ==> r[52..62] == Digits
    ensures includeSymbols ==> r[|r| - 29..] == SymbolChars
  {
    var withDigits := if includeNumbers then Letters + Digits else Letters;
    if includeSymbols then withDigits + SymbolChars else withDigits
  }

  /**
   * The charset never repeats a character, so the enumeration meets each
   * password once and a target over it is found exactly at its own index.
   */
  lemma CharsetDistinct(includeNumbers: bool, includeSymbols: bool)
    ensures Distinct(GetCharset(includeNumbers, includeSymbols))
  {
    GroupsDistinct();
    GroupsSpellTheirClasses();
    SymbolsAreNotAlphanumeric();
    DistinctConcat(LowerLetters, UpperLetters);
    var withDigits := if includeNumbers then Letters + Digits else Letters;
    if includeNumbers {
      DistinctConcat(Letters, Digits);
    }
    if includeSymbols {
      DistinctConcat(withDigits, SymbolChars);
    }
  }

  function Pow(b: nat, n: nat): (p: nat)
    ensures b > 0 ==> p > 0
  {
    if n == 0 then 1 else b * Pow(b, n - 1)
  }

  /**
   * What `indexToPassword` computes: the last character is the lowest base-|charset|
   * digit of `index`, and the rest encodes `index / base` one position shorter.
   */
  function Encode(index: nat, charset: string, len: nat): (r: string)
    requires |charset| > 0
    ensures |r| == len && Over(r, charset)
    decreases len
  {
    if len == 0 then []
    else
      var init := Encode(index / |charset|, charset, len - 1);
      var c := charset[index % |charset|];
      OverSnoc(init, c, charset);
      init + [c]
  }

  lemma OverSnoc(s: string, c: char, alphabet: string)
    requires Over(s, alphabet) && c in alphabet
    ensures Over(s + [c], alphabet)
  {
    assert forall i :: 0 <= i < |s| ==> (s + [c])[i] == s[i];
  }

  /** `indexToPassword`: the source's loop, prepending one digit per iteration. */
  method IndexToPassword(index: nat, charset: string, len: nat) returns (password: string)
    requires |charset| > 0
    ensures password == Encode(index, charset, len)
  {
    ghost var whole := Encode(index, charset, len);
    password := "";
    var rest: nat := index;
    var digits := len;
    while digits > 0
      invariant whole == Encode(rest, charset, digits) + password
    {
      EncodeStep(whole, rest, charset, digits, password);
      password := [charset[rest % |charset|]] + password;
      rest := rest / |charset|;
      digits := digits - 1;
    }
  }

  /** One iteration of the loop: the lowest digit moves from the encoding to the front of the suffix. */
  lemma EncodeStep(whole: string, rest: nat, charset: string, digits: nat, suffix: string)
    requires |charset| > 0 && digits > 0
    requires whole == Encode(rest, charset, digits) + suffix
    ensures whole == Encode(rest / |charset|, charset, digits - 1) + ([charset[rest % |charset|]] + suffix)
  {
  }

  lemma IndexOfDistinct(s: string, k: nat)
    requires Distinct(s) && k < |s|
    ensures IndexOf(s, s[k]) == k
  {
  }

  /** The inverse reading: a password over `charset` as a base-|charset| number. */
  function Decode(s: string, charset: string): (n: nat)
    requires Over(s, charset)
  {
    if s == [] then 0
    else Decode(s[..|s| - 1], charset) * |charset| + IndexOf(charset, s[|s| - 1])
  }

  lemma DivModUnique(i: int, b: int, q: int, r: int)
    requires b > 0 && 0 <= r < b && i == q * b + r
    ensures i / b == q && i % b == r
  {
    var k := q - i / b;
    assert k * b == i % b - r;
  }

  /** Decoding an encoding gives the index back whenever it fits in `len` digits. */
  lemma {:induction false} DecodeEncode(index: nat, charset: string, len: nat)
    requires |charset| > 0 && Distinct(charset) && index < Pow(|charset|, len)
    ensures Decode(Encode(index, charset, len), charset) == index
    decreases len
  {
    if len > 0 {
      var b := |charset|;
      var s := Encode(index, charset, len);
      DivModUnique(index, b, index / b, index % b);
      QuotientBound(index, b, Pow(b, len - 1));
      DecodeEncode(index / b, charset, len - 1);
      assert s[..|s| - 1] == Encode(index / b, charset, len - 1);
      IndexOfDistinct(charset, index % b);
    }
  }

  /** Encoding a decoded password gives it back, and its number fits in `|s|` digits. */
  lemma {:induction false} EncodeDecode(s: string, charset: string)
    requires |charset| > 0 && Over(s, charset)
    ensures Decode(s, charset) < Pow(|charset|, |s|)
    ensures Encode(Decode(s, charset), charset, |s|) == s
  {
    if s != [] {
      var b := |charset|;
      var init := s[..|s| - 1];
      var q := Decode(init, charset);
      var d := IndexOf(charset, s[|s| - 1]);
      EncodeDecode(init, charset);
      var n := Decode(s, charset);
      assert n == q * b + d;
      DivModUnique(n, b, q, d);
      DigitsBound(q, d, b, Pow(b, |s| - 1));
      assert Encode(n, charset, |s|) == Encode(q, charset, |s| - 1) + [charset[d]];
      assert s == init + [s[|s| - 1]];
    }
  }

  /** `i < m * b` bounds the quotient by `m`. */
  lemma QuotientBound(i: nat, b: nat, m: nat)
    requires b > 0 && i < m * b
    ensures i / b < m
  {
    DivModUnique(i, b, i / b, i % b);
    if i / b >= m {
      MulMono(m, i / b, b);
    }
  }

  /** One more digit multiplies the bound by the base. */
  lemma DigitsBound(q: nat, d: nat, b: nat, p: nat)
    requires d < b && q < p
    ensures q * b + d < p * b
  {
    MulMono(q + 1, p, b);
  }

  lemma MulMono(x: nat, y: nat, b: nat)
    requires x <= y
    ensures x * b <= y * b
  {
    var k := y - x;
    assert y * b == x * b + k * b;
  }

  /** Two indices below base^len never give the same password. */
  lemma EncodeInjective(i: nat, j: nat, charset: string, len: nat)
    requires |charset| > 0 && Distinct(charset)
    requires i < Pow(|charset|, len) && j < Pow(|charset|, len)
    ensures i != j ==> Encode(i, charset, len) != Encode(j, charset, len)
  {
    DecodeEncode(i, charset, len);
    DecodeEncode(j, charset, len);
  }

  lemma ModOfMod(i: nat, b: nat, m: nat)
    requires b > 0 && m > 0
    ensures (i % (b * m)) % b == i % b
    ensures (i % (b * m)) / b == (i / b) % m
  {
    var q := i / (b * m);
    var r := i % (b * m);
    DivModUnique(i, b * m, q, r);
    DivModUnique(r, b, r / b, r % b);
    assert q * (b * m) == (q * m) * b;
    assert i == (q * m + r / b) * b + r % b;
    DivModUnique(i, b, q * m + r / b, r % b);
    assert r < m * b;
    QuotientBound(r, b, m);
    DivModUnique(i / b, m, q, r / b);
  }

  /** Indices wrap: only the index modulo base^len matters. */
  lemma {:induction false} EncodeWraps(index: nat, charset: string, len: nat)
    requires |charset| > 0
    ensures Encode(index, charset, len) == Encode(index % Pow(|charset|, len), charset, len)
    decreases len
  {
    if len > 0 {
      var b := |charset|;
      var m := Pow(b, len - 1);
      ModOfMod(index, b, m);
      EncodeWraps(index / b, charset, len - 1);
    }
  }

  /** The first attempt is the first charset character repeated. */
  lemma {:induction false} EncodeZero(charset: string, len: nat)
    requires |charset| > 0
    ensures forall i :: 0 <= i < len ==> Encode(0, charset, len)[i] == charset[0]
  {
    if len > 0 {
      EncodeZero(charset, len - 1);
    }
  }

  /**
   * `generateRandomPassword`: character `i` is `charset[floor(randoms[i] * |charset|)]`,
   * with `randoms` standing for the successive values of `Math.random()`.
   */
  function GenerateRandomPassword(charset: string, len: nat, randoms: seq<real>): (r: string)
    requires |charset| > 0 && |randoms| >= len
    requires forall i :: 0 <= i < |randoms| ==> 0.0 <= randoms[i] < 1.0
    ensures |r| == len && Over(r, charset)
  {
    if len == 0 then []
    else
      var k := (randoms[len - 1] * |charset| as real).Floor;
      FloorBelow(randoms[len - 1], |charset|);
      GenerateRandomPassword(charset, len - 1, randoms[..len - 1]) + [charset[k]]
  }

  /** `Math.floor(x * n)` for `0 <= x < 1` is a valid index below `n`. */
  lemma FloorBelow(x: real, n: nat)
    requires 0.0 <= x < 1.0 && n > 0
    ensures 0 <= (x * n as real).Floor < n
  {
    assert 0.0 <= x * n as real;
    assert n as real - x * n as real == (1.0 - x) * n as real;
    assert (1.0 - x) * n as real > 0.0;
  }

  /**
   * `runBruteForce`: attempt number `n` (from 1) tries the password of index
   * `n - 1`; the run stops at the target or once base^len attempts were made.
   */
  method RunBruteForce(target: string, charset: string, len: nat) returns (found: bool, attempts: nat)
    requires |charset| > 0
    ensures 1 <= attempts <= Pow(|charset|, len)
    ensures forall k :: 0 <= k < attempts - 1 ==> Encode(k, charset, len) != target
    ensures found <==> Encode(attempts - 1, charset, len) == target
    ensures !found ==> attempts == Pow(|charset|, len)
    ensures |target| == len && Over(target, charset) ==> found && attempts <= Decode(target, charset) + 1
    ensures |target| == len && Over(target, charset) && Distinct(charset) ==>
              attempts == Decode(target, charset) + 1
  {
    var total := Pow(|charset|, len);
    attempts := 0;
    found := false;
    while true
      invariant attempts < total
      invariant forall k :: 0 <= k < attempts ==> Encode(k, charset, len) != target
      decreases total - attempts
    {
      attempts := attempts + 1;
      var attempt := IndexToPassword(attempts - 1, charset, len);
      if attempt == target {
        found := true;
        break;
      }
      if attempts >= total {
        break;
      }
    }
    if |target| == len && Over(target, charset) {
      FirstHit(target, charset, found, attempts);
    }
  }

  /** A password over the charset is met no later than its own index, and exactly there when the charset repeats nothing. */
  lemma FirstHit(target: string, charset: string, found: bool, attempts: nat)
    requires |charset| > 0 && Over(target, charset) && attempts >= 1
    requires forall k :: 0 <= k < attempts - 1 ==> Encode(k, charset, |target|) != target
    requires found <==> Encode(attempts - 1, charset, |target|) == target
    requires !found ==> attempts == Pow(|charset|, |target|)
    ensures found && attempts <= Decode(target, charset) + 1
    ensures Distinct(charset) ==> attempts == Decode(target, charset) + 1
  {
    var d := Decode(target, charset);
    EncodeDecode(target, charset);
    if !found || attempts > d + 1 {
      assert false;
    } else if Distinct(charset) {
      EncodeInjective(attempts - 1, d, charset, |target|);
    }
  }
}

=== FILE: char_groups.dfy ===
/**
 * Facts about the character groups the password programs draw from: each group
 * spells exactly its character class, and no group repeats a character.
 */
module CharGroups {
  import opened Text

  /** Each group holds exactly the characters of its class. */
  lemma GroupsSpellTheirClasses()
    ensures forall c :: c in UpperLetters <==> IsUpper(c)
    ensures forall c :: c in LowerLetters <==> IsLower(c)
    ensures forall c :: c in Digits <==> IsDigit(c)
  {
    UpperSpelled();
    LowerSpelled();
    DigitsSpelled();
  }

  lemma UpperSpelled()
    ensures forall c :: c in UpperLetters <==> IsUpper(c)
  {
    Consecutive(UpperLetters);
  }

  lemma LowerSpelled()
    ensures forall c :: c in LowerLetters <==> IsLower(c)
  {
    Consecutive(LowerLetters);
  }

  lemma DigitsSpelled()
    ensures forall c :: c in Digits <==> IsDigit(c)
  {
    Consecutive(Digits);
  }

  /** A string of consecutive character codes holds exactly the characters of its range. */
  lemma Consecutive(s: string)
    requires |s| > 0 && forall k :: 0 < k < |s| ==> s[k] as int == s[k - 1] as int + 1
    ensures forall c :: c in s <==> s[0] <= c && c as int <= s[0] as int + |s| - 1
  {
    forall k | 0 <= k < |s| ensures s[k] as int == s[0] as int + k {
      ConsecutiveStep(s, k);
    }
    forall c | s[0] <= c && c as int <= s[0] as int + |s| - 1 ensures c in s {
      assert s[c as int - s[0] as int] == c;
    }
  }

  lemma {:induction false} ConsecutiveStep(s: string, k: nat)
    requires forall i :: 0 < i < |s| ==> s[i] as int == s[i - 1] as int + 1
    requires k < |s|
    ensures s[k] as int == s[0] as int + k
  {
    if k > 0 {
      ConsecutiveStep(s, k - 1);
    }
  }

  /** No symbol is a letter or a digit. */
  lemma SymbolsAreNotAlphanumeric()
    ensures forall c :: c in SymbolChars ==> !IsUpper(c) && !IsLower(c) && !IsDigit(c)
  {
  }

  lemma GroupsDistinct()
    ensures Distinct(UpperLetters) && Distinct(LowerLetters) && Distinct(Digits) && Distinct(SymbolChars)
  {
    Ascending(UpperLetters);
    Ascending(LowerLetters);
    Ascending(Digits);
    SymbolCharsDistinct();
  }

  /** A string whose characters strictly ascend repeats none of them. */
  lemma Ascending(s: string)
    requires forall i :: 0 < i < |s| ==> s[i - 1] < s[i]
    ensures Distinct(s)
  {
    forall i, j | 0 <= i < j < |s| ensures s[i] < s[j] {
      AscendingStep(s, i, j);
    }
  }

  lemma {:induction false} AscendingStep(s: string, i: nat, j: nat)
    requires forall k :: 0 < k < |s| ==> s[k - 1] < s[k]
    requires i < j < |s|
    ensures s[i] < s[j]
    decreases j - i
  {
    if i + 1 < j {
      AscendingStep(s, i + 1, j);
    }
  }

  /** The symbol group in three pieces, so that its distinctness is checked piece by piece. */
  const SymbolsFirst: string := "!@#$%^&*()"
  const SymbolsMiddle: string := "_+-=[]{};\\"
  const SymbolsLast: string := "':\",./<>?"

  lemma SymbolCharsDistinct()
    ensures Distinct(SymbolChars)
  {
    SymbolPieces();
    FirstPiecesDistinct();
    LastPieceDistinct();
    FirstPiecesApart();
    LastPieceApart();
    DistinctConcat(SymbolsFirst, SymbolsMiddle);
    DistinctConcat(SymbolsFirst + SymbolsMiddle, SymbolsLast);
  }

  lemma SymbolPieces()
    ensures SymbolChars == SymbolsFirst + SymbolsMiddle + SymbolsLast
  {
  }

  lemma FirstPiecesDistinct()
    ensures Distinct(SymbolsFirst) && Distinct(SymbolsMiddle)
  {
  }

  lemma LastPieceDistinct()
    ensures Distinct(SymbolsLast)
  {
  }

  lemma FirstPiecesApart()
    ensures forall c :: c in SymbolsFirst ==> c !in SymbolsMiddle
  {
  }

  lemma LastPieceApart()
    ensures forall c :: c in SymbolsFirst + SymbolsMiddle ==> c !in SymbolsLast
  {
  }

  /** Two repetition-free strings with no character in common concatenate to one. */
  lemma DistinctConcat(a: string, b: string)
    requires Distinct(a) && Distinct(b)
    requires forall c :: c in a ==> c !in b
    ensures Distinct(a + b)
  {
    forall i, j | 0 <= i < j < |a + b| ensures (a + b)[i] != (a + b)[j] {
      if i < |a| && |a| <= j {
        assert (a + b)[i] in a && (a + b)[j] == b[j - |a|];
      }
    }
  }
}

=== FILE: fake_api.dfy ===
/**
 * The in-memory REST simulator: a user and post store, the five endpoints, the
 * router that picks one from the method and URL, and the HTTP status the page
 * shows. Delays, timestamps and the page itself are not modelled; the answers to
 * the two `prompt`s of the create route are parameters.
 *
 * A JavaScript value that `!x` treats as missing (`null`, `undefined`, `""`) is
 * the empty string here.
 */
module FakeApi {
  import opened Wrappers
  import opened Text
  import opened Seqs

  datatype ApiUser = ApiUser(id: int, name: string, email: string, role: string)
  datatype Post = Post(id: int, userId: int, title: string, content: string)
  datatype Database = Database(users: seq<ApiUser>, posts: seq<Post>)

  /** The data the page starts with. */
  const Seed: Database := Database(
    [ ApiUser(1, "Junior Silva", "junior@email.com", "admin"),
      ApiUser(2, "Ana Costa", "ana@email.com", "user"),
      ApiUser(3, "Carlos Santos", "carlos@email.com", "user") ],
    [ Post(1, 1, "Segurança em Aplicações Web", "..."),
      Post(2, 2, "JavaScript Avançado", "..."),
      Post(3, 1, "Hash e Criptografia", "...") ])

  /** What a response carries besides `success` and `status`. */
  datatype Payload =
    | UserList(users: seq<ApiUser>)
    | OneUser(user: ApiUser)
    | Created(message: string, created: ApiUser)
    | PostList(posts: seq<Post>)
    | Found(query: string, results: nat, matches: seq<Post>)
    | Failure(error: string)

  datatype Response = Response(success: bool, status: Option<int>, payload: Payload)

  /** The result of a request: the response and the store afterwards. */
  datatype Exchange = Exchange(db: Database, response: Response)

  function Error(status: int, message: string): Response {
    Response(false, Some(status), Failure(message))
  }

  // ----- the store's invariant -----

  /** Each user's id is its position plus one, and no two users share an email. */
  predicate WellFormed(db: Database) {
    && (forall i :: 0 <= i < |db.users| ==> db.users[i].id == i + 1)
    && (forall i, j :: 0 <= i < j < |db.users| ==> db.users[i].email != db.users[j].email)
  }

  lemma SeedWellFormed()
    ensures WellFormed(Seed)
  {
  }

  predicate EmailTaken(db: Database, email: string) {
    exists i :: 0 <= i < |db.users| && db.users[i].email == email
  }

  // ----- endpoints -----

  /** `GET /api/users`: every user, in store order. */
  function GetUsers(db: Database): (r: Response)
    ensures r.success && r.status.None? && r.payload == UserList(db.users)
  {
    Response(true, None, UserList(db.users))
  }

  /** `GET /api/posts`: every post, in store order. */
  function GetPosts(db: Database): (r: Response)
    ensures r.success && r.status.None? && r.payload == PostList(db.posts)
  {
    Response(true, None, PostList(db.posts))
  }

  /** `GET /api/users/:id`: the first user with that id, or 404. */
  function GetUserById(db: Database, id: int): (r: Response)
    ensures r == Error(404, "Usuário não encontrado") <==> forall i :: 0 <= i < |db.users| ==> db.users[i].id != id
    ensures r.success ==> r.status.None? && r.payload.OneUser? && r.payload.user in db.users && r.payload.user.id == id
  {
    match FindFirst((u: ApiUser) => u.id == id, db.users)
    case None => Error(404, "Usuário não encontrado")
    case Some(i) => Response(true, None, OneUser(db.users[i]))
  }

  /** In a well-formed store, id `n` is found exactly for positions 1..count, and it is user `n`. */
  lemma UserByPosition(db: Database, n: int)
    requires WellFormed(db)
    ensures GetUserById(db, n).success <==> 1 <= n <= |db.users|
    ensures 1 <= n <= |db.users| ==> GetUserById(db, n).payload == OneUser(db.users[n - 1])
  {
    if 1 <= n <= |db.users| {
      assert db.users[n - 1].id == n;
    }
  }

  /**
   * `POST /api/users`: 400 when name or email is missing, 409 when the email is
   * already used, otherwise a new plain user numbered one past the count.
   */
  function CreateUser(db: Database, name: string, email: string): (x: Exchange)
    ensures x.response == Error(400, "Nome e email são obrigatórios") <==> name == "" || email == ""
    ensures x.response == Error(409, "Email já cadastrado") <==> name != "" && email != "" && EmailTaken(db, email)
    ensures !x.response.success ==> x.db == db
    ensures x.response.success <==> name != "" && email != "" && !EmailTaken(db, email)
    ensures x.response.success ==>
              var u := ApiUser(|db.users| + 1, name, email, "user");
              && x.db == db.(users := db.users + [u])
              && x.response == Response(true, Some(201), Created("Usuário criado", u))
  {
    if name == "" || email == "" then
      Exchange(db, Error(400, "Nome e email são obrigatórios"))
    else if EmailTaken(db, email) then
      Exchange(db, Error(409, "Email já cadastrado"))
    else
      var u := ApiUser(|db.users| + 1, name, email, "user");
      Exchange(db.(users := db.users + [u]), Response(true, Some(201), Created("Usuário criado", u)))
  }

  /** Creating users keeps ids equal to positions and emails distinct. */
  lemma CreateUserKeepsWellFormed(db: Database, name: string, email: string)
    requires WellFormed(db)
    ensures WellFormed(CreateUser(db, name, email).db)
  {
  }

  /** A user just created is the one `GET /api/users/:id` returns for its id. */
  lemma CreatedUserIsFound(db: Database, name: string, email: string)
    requires WellFormed(db)
    requires CreateUser(db, name, email).response.success
    ensures var x := CreateUser(db, name, email);
            GetUserById(x.db, |db.users| + 1).payload == OneUser(x.response.payload.created)
  {
    CreateUserKeepsWellFormed(db, name, email);
    UserByPosition(CreateUser(db, name, email).db, |db.users| + 1);
  }

  predicate TitleMatches(lowered: string, p: Post) {
    Contains(Lower(p.title), lowered)
  }

  /**
   * `GET /api/search?q=`: 400 without a query; otherwise the posts whose
   * lower-cased title contains the lower-cased query, in store order, and their count.
   */
  function Search(db: Database, query: string): (r: Response)
    ensures r == Error(400, "Query é obrigatório") <==> query == ""
    ensures query != "" ==>
              && r.success && r.status.None? && r.payload.Found?
              && r.payload.query == query && r.payload.results == |r.payload.matches|
              && |r.payload.matches| <= |db.posts|
              && forall p :: p in r.payload.matches <==> p in db.posts && Contains(Lower(p.title), Lower(query))
  {
    if query == "" then Error(400, "Query é obrigatório")
    else
      var q := Lower(query);
      FilterMembers(p => TitleMatches(q, p), db.posts);
      var matches := Filter(p => TitleMatches(q, p), db.posts);
      Response(true, None, Found(query, |matches|, matches))
  }

  /** Searching a longer post list searches each part: the matches keep the store order. */
  lemma SearchAppend(users: seq<ApiUser>, a: seq<Post>, b: seq<Post>, query: string)
    requires query != ""
    ensures Search(Database(users, a + b), query).payload.matches
            == Search(Database(users, a), query).payload.matches + Search(Database(users, b), query).payload.matches
  {
    FilterAppend(p => TitleMatches(Lower(query), p), a, b);
  }

  /** A single post is a match exactly when its lower-cased title contains the lower-cased query. */
  lemma SearchOnePost(users: seq<ApiUser>, post: Post, query: string)
    requires query != ""
    ensures Search(Database(users, [post]), query).payload.matches
            == if Contains(Lower(post.title), Lower(query)) then [post] else []
  {
    FilterOne(p => TitleMatches(Lower(query), p), post);
  }

  /** Upper and lower case in the query find the same posts. */
  lemma SearchIgnoresCase(db: Database, query: string)
    requires query != ""
    ensures Search(db, Lower(query)).payload.matches == Search(db, query).payload.matches
  {
    assert Lower(Lower(query)) == Lower(query);
  }

  // ----- routing -----

  /** The URL the page sends: the typed text, or `/api/users` when the field is empty. */
  function RequestUrl(typed: string): (url: string)
    ensures typed != "" ==> url == typed
    ensures url != ""
  {
    if typed == "" then "/api/users" else typed
  }

  /** The longest prefix of `s` holding none of the characters of `stops`. */
  function TakeUntil(s: string, stops: string): (r: string)
    ensures |r| <= |s| && r == s[..|r|]
    ensures forall i :: 0 <= i < |r| ==> r[i] !in stops
    ensures |r| < |s| ==> s[|r|] in stops
  {
    if s == [] || s[0] in stops then [] else [s[0]] + TakeUntil(s[1..], stops)
  }

  /** The path of a URL: everything before the first `?` or `#`. */
  function PathOf(url: string): (path: string)
    ensures |path| <= |url| && path == url[..|path|]
    ensures forall i :: 0 <= i < |path| ==> path[i] != '?' && path[i] != '#'
    ensures |path| < |url| ==> url[|path|] == '?' || url[|path|] == '#'
  {
    TakeUntil(url, "?#")
  }

  /** The query string of a URL: after the `?` that ends the path, up to any `#`. */
  function SearchOf(url: string): (search: string)
    ensures search != [] ==> exists i :: OccursAt(url, "?" + search, i)
    ensures forall k :: 0 <= k < |search| ==> search[k] != '#'
    ensures var i := |PathOf(url)|;
            && i <= |url| && (forall k :: 0 <= k < i ==> url[k] != '?' && url[k] != '#')
            && (i < |url| && url[i] == '?' ==>
                  OccursAt(url, "?" + search, i) && (i + 1 + |search| == |url| || url[i + 1 + |search|] == '#'))
            && (!(i < |url| && url[i] == '?') ==> search == [])
  {
    var path := PathOf(url);
    var rest := url[|path|..];
    if rest != [] && rest[0] == '?' then
      var search := TakeUntil(rest[1..], "#");
      QueryAfterMark(url, |path|, search);
      search
    else []
  }

  /** A `?` at `i` followed by `search`, which runs to the end or to a `#`. */
  lemma QueryAfterMark(url: string, i: nat, search: string)
    requires i < |url| && url[i] == '?'
    requires |search| <= |url[i + 1..]| && search == url[i + 1..][..|search|]
    requires |search| < |url[i + 1..]| ==> url[i + 1..][|search|] in "#"
    ensures OccursAt(url, "?" + search, i)
    ensures i + 1 + |search| == |url| || url[i + 1 + |search|] == '#'
  {
    assert url[i..i + 1 + |search|] == "?" + search;
  }

  /**
   * `new URLSearchParams(search).get(key)`: the value of the first `&`-separated
   * pair whose name is `key`; a pair without `=` has the empty value.
   */
  function QueryParam(search: string, key: string): (r: Option<string>)
    ensures r.Some? ==> '=' !in key
    ensures r.Some? ==> exists i :: 0 <= i < |Split(search, '&')| && Names(Split(search, '&')[i], key, r.value)
                                    && forall j, v :: 0 <= j < i ==> !Names(Split(search, '&')[j], key, v)
    ensures r.None? ==> forall i, v :: 0 <= i < |Split(search, '&')| && '=' !in key ==> !Names(Split(search, '&')[i], key, v)
  {
    FirstValue(Split(search, '&'), key)
  }

  /** The pair `key=value` (or a bare `key` for the empty value). */
  predicate Names(pair: string, key: string, value: string) {
    pair == key + "=" + value || (pair == key && value == "" && '=' !in key)
  }

  function FirstValue(pairs: seq<string>, key: string): (r: Option<string>)
    ensures r.Some? ==> '=' !in key
    ensures r.Some? ==> exists i :: 0 <= i < |pairs| && Names(pairs[i], key, r.value)
                                    && forall j, v :: 0 <= j < i ==> !Names(pairs[j], key, v)
    ensures r.None? ==> forall i, v :: 0 <= i < |pairs| && '=' !in key ==> !Names(pairs[i], key, v)
    decreases |pairs|
  {
    if pairs == [] then None
    else
      var pair := pairs[0];
      if '=' in pair && pair[..IndexOf(pair, '=')] == key then
        var at := IndexOf(pair, '=');
        assert pair == key + "=" + pair[at + 1..];
        Some(pair[at + 1..])
      else if '=' !in pair && pair == key then Some("")
      else
        var r := FirstValue(pairs[1..], key);
        assert forall v :: '=' !in key ==> !Names(pair, key, v) by {
          forall v | '=' !in key && pair == key + "=" + v
            ensures false
          {
            NameEndsAtFirstEquals(pair, key, v);
          }
        }
        assert forall i :: 1 <= i < |pairs| ==> pairs[i] == pairs[1..][i - 1];
        if r.Some? then
          FirstNamedLater(pairs, key, r.value);
          r
        else
          r
  }

  /** When the first pair does not name `key`, the first pair that does is found among the rest. */
  lemma FirstNamedLater(pairs: seq<string>, key: string, value: string)
    requires |pairs| > 0 && '=' !in key
    requires forall v :: !Names(pairs[0], key, v)
    requires exists i :: 0 <= i < |pairs| - 1 && Names(pairs[1..][i], key, value)
                         && forall j, v :: 0 <= j < i ==> !Names(pairs[1..][j], key, v)
    ensures exists i :: 0 <= i < |pairs| && Names(pairs[i], key, value)
                        && forall j, v :: 0 <= j < i ==> !Names(pairs[j], key, v)
  {
    var i :| 0 <= i < |pairs| - 1 && Names(pairs[1..][i], key, value)
             && forall j, v :: 0 <= j < i ==> !Names(pairs[1..][j], key, v);
    assert pairs[i + 1] == pairs[1..][i];
    forall j, v | 0 <= j < i + 1
      ensures !Names(pairs[j], key, v)
    {
      if j > 0 {
        assert pairs[j] == pairs[1..][j - 1];
      }
    }
  }

  /** In `key=value` with no `=` in `key`, the first `=` is the one after the key. */
  lemma NameEndsAtFirstEquals(pair: string, key: string, value: string)
    requires '=' !in key && pair == key + "=" + value
    ensures '=' in pair && pair[..IndexOf(pair, '=')] == key
  {
    assert pair[|key|] == '=';
  }

  /** A query holding the single pair `key=value` gives back `value`. */
  lemma QueryParamSingle(key: string, value: string)
    requires '=' !in key && '&' !in key && '&' !in value
    ensures QueryParam(key + "=" + value, key) == Some(value)
  {
    var pair := key + "=" + value;
    assert '&' !in pair by {
      assert forall i :: 0 <= i < |pair| ==> pair[i] == '=' || pair[i] in key || pair[i] in value;
    }
    assert Split(pair, '&') == [pair];
    assert Names(pair, key, value);
  }

  const UsersPath: string := "/api/users"

  /** A non-empty run of ASCII digits (`\d+`). */
  predicate AllDigits(s: string) {
    |s| > 0 && forall i :: 0 <= i < |s| ==> IsDigit(s[i])
  }

  /** The path has the form `/api/users/<digits>`. */
  predicate IsUserPath(path: string) {
    |path| > |UsersPath| + 1 && path[..|UsersPath| + 1] == UsersPath + "/" && AllDigits(path[|UsersPath| + 1..])
  }

  /** The number a run of decimal digits spells (`parseInt`). */
  function DecimalValue(ds: string): (n: nat)
    requires forall i :: 0 <= i < |ds| ==> IsDigit(ds[i])
    ensures |ds| > 0 ==> n % 10 == ds[|ds| - 1] as int - '0' as int
    ensures n < Pow10(|ds|)
    decreases |ds|
  {
    if ds == [] then 0
    else
      assert IsDigit(ds[|ds| - 1]);
      10 * DecimalValue(ds[..|ds| - 1]) + (ds[|ds| - 1] as int - '0' as int)
  }

  function Pow10(n: nat): (p: nat)
    ensures p >= 1
  {
    if n == 0 then 1 else 10 * Pow10(n - 1)
  }

  /** Positional notation: the digits of `a` count `|b|` places higher than those of `b`. */
  lemma {:induction false} DecimalAppend(a: string, b: string)
    requires forall i :: 0 <= i < |a| ==> IsDigit(a[i])
    requires forall i :: 0 <= i < |b| ==> IsDigit(b[i])
    ensures DecimalValue(a + b) == DecimalValue(a) * Pow10(|b|) + DecimalValue(b)
    decreases |b|
  {
    if b == [] {
      assert a + b == a;
    } else {
      var init := b[..|b| - 1];
      var d := b[|b| - 1] as int - '0' as int;
      assert (a + b)[..|a + b| - 1] == a + init;
      assert (a + b)[|a + b| - 1] == b[|b| - 1];
      DecimalAppend(a, init);
      assert Pow10(|b|) == 10 * Pow10(|init|);
      ShiftDigit(DecimalValue(a), Pow10(|init|), DecimalValue(init), d);
    }
  }

  /** One more digit multiplies what is already read by ten. */
  lemma ShiftDigit(x: int, p: int, v: int, d: int)
    ensures 10 * (x * p + v) + d == x * (10 * p) + (10 * v + d)
  {
    assert 10 * (x * p) == x * (10 * p);
  }

  /** `parseInt` ignores leading zeros: `/api/users/007` asks for user 7. */
  lemma {:induction false} DecimalLeadingZero(ds: string)
    requires forall i :: 0 <= i < |ds| ==> IsDigit(ds[i])
    ensures DecimalValue("0" + ds) == DecimalValue(ds)
    decreases |ds|
  {
    if ds != [] {
      var init := ds[..|ds| - 1];
      assert ("0" + ds)[..|ds|] == "0" + init;
      DecimalLeadingZero(init);
    }
  }

  /** Which endpoint answers a request. */
  datatype Route = ListUsers | UserById(id: nat) | CreateUserRoute | ListPosts | SearchPosts(query: string) | NotFound

  /**
   * `routeRequest`'s choice, tried in source order: the id route takes any method,
   * `/api/users` only GET and POST, and posts and search take any method.
   */
  function RouteOf(verb: string, url: string): (route: Route)
    ensures var path := PathOf(url);
            && (route.UserById? <==> IsUserPath(path))
            && (route == ListUsers <==> path == UsersPath && verb == "GET")
            && (route == CreateUserRoute <==> path == UsersPath && verb == "POST")
            && (route == ListPosts <==> path == "/api/posts")
            && (route.SearchPosts? <==> path == "/api/search")
            && (route == NotFound <==>
                  && !IsUserPath(path) && path != "/api/posts" && path != "/api/search"
                  && !(path == UsersPath && (verb == "GET" || verb == "POST")))
  {
    var path := PathOf(url);
    if path == UsersPath && verb == "GET" then ListUsers
    else if IsUserPath(path) then UserById(DecimalValue(path[|UsersPath| + 1..]))
    else if path == UsersPath && verb == "POST" then CreateUserRoute
    else if path == "/api/posts" then ListPosts
    else if path == "/api/search" then SearchPosts(QueryParam(SearchOf(url), "q").GetOr(""))
    else NotFound
  }

  /**
   * `routeRequest`: the chosen endpoint's answer. `nameAnswer` and `emailAnswer`
   * are what the two prompts of the create route returned.
   */
  function RouteRequest(db: Database, verb: string, url: string, nameAnswer: string, emailAnswer: string): (x: Exchange)
    ensures RouteOf(verb, url) != CreateUserRoute ==> x.db == db
    ensures RouteOf(verb, url) == NotFound ==> x.response == Error(404, "Endpoint não encontrado")
    ensures RouteOf(verb, url).UserById? ==> x.response == GetUserById(db, RouteOf(verb, url).id)
    ensures RouteOf(verb, url) == ListUsers ==> x.response == GetUsers(db)
    ensures RouteOf(verb, url) == ListPosts ==> x.response == GetPosts(db)
    ensures RouteOf(verb, url).SearchPosts? ==> x.response == Search(db, RouteOf(verb, url).query)
    ensures RouteOf(verb, url) == CreateUserRoute ==>
              x == CreateUser(db, if nameAnswer == "" then "Novo Usuário" else nameAnswer,
                              if emailAnswer == "" then "novo@email.com" else emailAnswer)
  {
    match RouteOf(verb, url)
    case ListUsers => Exchange(db, GetUsers(db))
    case UserById(id) => Exchange(db, GetUserById(db, id))
    case CreateUserRoute =>
      CreateUser(db, if nameAnswer == "" then "Novo Usuário" else nameAnswer,
                 if emailAnswer == "" then "novo@email.com" else emailAnswer)
    case ListPosts => Exchange(db, GetPosts(db))
    case SearchPosts(q) => Exchange(db, Search(db, q))
    case NotFound => Exchange(db, Error(404, "Endpoint não encontrado"))
  }

  /** Routing never breaks the store's invariant. */
  lemma RouteKeepsWellFormed(db: Database, verb: string, url: string, nameAnswer: string, emailAnswer: string)
    requires WellFormed(db)
    ensures WellFormed(RouteRequest(db, verb, url, nameAnswer, emailAnswer).db)
  {
    if RouteOf(verb, url) == CreateUserRoute {
      CreateUserKeepsWellFormed(db, if nameAnswer == "" then "Novo Usuário" else nameAnswer,
                                if emailAnswer == "" then "novo@email.com" else emailAnswer);
    }
  }

  /** The create route never answers 400: blank prompts fall back to the default name and email. */
  lemma CreateRouteNeverMissing(db: Database, url: string, nameAnswer: string, emailAnswer: string)
    requires RouteOf("POST", url) == CreateUserRoute
    ensures RouteRequest(db, "POST", url, nameAnswer, emailAnswer).response.status != Some(400)
  {
  }

  /** Any method on `/api/users/<digits>` reads that user; a `DELETE` on it deletes nothing. */
  lemma IdRouteIgnoresMethod(db: Database, verb: string, url: string)
    requires IsUserPath(PathOf(url))
    ensures RouteOf(verb, url) == RouteOf("GET", url)
    ensures RouteRequest(db, verb, url, "", "").db == db
  {
  }

  // ----- displayResponse -----

  /** The status the page shows: the response's own, else 200 on success and 400 on failure. */
  function HttpStatus(r: Response): (status: int)
    ensures r.status.Some? && r.status.value != 0 ==> status == r.status.value
    ensures r.status.None? || r.status.value == 0 ==> (status == 200 <==> r.success) && (status == 400 <==> !r.success)
  {
    if r.status.Some? && r.status.value != 0 then r.status.value
    else if r.success then 200 else 400
  }

  /** Every request shows one of 200, 201, 400, 404 or 409. */
  lemma ShownStatuses(db: Database, verb: string, url: string, nameAnswer: string, emailAnswer: string)
    ensures HttpStatus(RouteRequest(db, verb, url, nameAnswer, emailAnswer).response) in {200, 201, 400, 404, 409}
  {
  }
}

=== FILE: form_validator.dfy ===
/**
 * The secure form validator: e-mail, password and confirmation checks, the
 * input sanitiser, and the submit decision. The DOM is reduced to the three
 * field values; the only write a validator makes is the e-mail field, which is
 * replaced by its sanitised form when sanitising changes it.
 */
module FormValidator {
  import opened Wrappers
  import opened Text
  import opened Seqs

  // ----- sanitizeInput -----

  /** No `<` is followed, anywhere later, by a `>`. */
  predicate NoTag(s: string) {
    forall i, j :: 0 <= i < j < |s| ==> !(s[i] == '<' && s[j] == '>')
  }

  /**
   * `replace(/<[^>]*>/g, '')`: scanning left to right, a `<` that has a `>`
   * somewhere after it is removed together with everything up to the first such
   * `>`; any other character is kept.
   */
  function StripTags(s: string): (r: string)
    ensures |r| <= |s|
    ensures forall x :: x in r ==> x in s
    ensures '<' !in s ==> r == s
    ensures '>' !in s ==> r == s
    ensures NoTag(r)
    decreases |s|
  {
    if s == [] then []
    else if s[0] == '<' && '>' in s then StripTags(s[IndexOf(s, '>') + 1..])
    else
      var rest := StripTags(s[1..]);
      assert s[0] == '<' ==> '>' !in rest;
      [s[0]] + rest
  }

  /** Text before the first `<` is kept as it is. */
  lemma StripKeepsPlainPrefix(a: string, b: string)
    requires '<' !in a
    ensures StripTags(a + b) == a + StripTags(b)
  {
    var s := a + b;
    assert forall i :: 0 <= i < |a| ==> s[i] == a[i];
    assert s[..|a|] == a && s[|a|..] == b;
    StripKeepsFirst(s, |a|);
  }

  /** Stripping keeps the first `k` characters when none of them is `<`. */
  lemma {:induction false} StripKeepsFirst(s: string, k: nat)
    requires k <= |s| && forall i :: 0 <= i < k ==> s[i] != '<'
    ensures StripTags(s) == s[..k] + StripTags(s[k..])
    decreases k
  {
    if k == 0 {
      assert s[..k] == [] && s[k..] == s;
    } else {
      StripKeepsFirst(s[1..], k - 1);
      StripKeepsStep(s, k);
    }
  }

  /** The step of `StripKeepsFirst`: a kept first character joins the kept prefix of the rest. */
  lemma StripKeepsStep(s: string, k: nat)
    requires 0 < k <= |s| && s[0] != '<'
    requires StripTags(s[1..]) == s[1..][..k - 1] + StripTags(s[1..][k - 1..])
    ensures StripTags(s) == s[..k] + StripTags(s[k..])
  {
    var t := s[1..];
    assert s == [s[0]] + t;
    StripPlainHead(s[0], t);
    SplitAfterHead(s, k, StripTags(s[k..]));
  }

  /** A character other than `<` is kept, and stripping goes on after it. */
  lemma StripPlainHead(c: char, t: string)
    requires c != '<'
    ensures StripTags([c] + t) == [c] + StripTags(t)
  {
    assert ([c] + t)[1..] == t;
  }

  /** A tag, from `<` to the first `>`, is removed whole, whatever it holds. */
  lemma StripOneTag(t: string, u: string)
    requires '>' !in t
    ensures StripTags("<" + t + ">" + u) == StripTags(u)
  {
    var s := "<" + t + ">" + u;
    assert s[|t| + 1] == '>';
    assert s[..|t| + 1] == "<" + t;
    assert IndexOf(s, '>') == |t| + 1;
    assert s[|t| + 2..] == u;
  }

  /** `replace(/c/g, rep)`. */
  function ReplaceAll(s: string, c: char, rep: string): (r: string)
    ensures c !in s ==> r == s
  {
    if s == [] then [] else (if s[0] == c then rep else [s[0]]) + ReplaceAll(s[1..], c, rep)
  }

  /** Every character of the result is a kept character other than `c`, or comes from `rep`. */
  lemma {:induction false} ReplaceAllChars(s: string, c: char, rep: string)
    ensures forall x :: x in ReplaceAll(s, c, rep) ==> (x in s && x != c) || x in rep
  {
    if s != [] {
      ReplaceAllChars(s[1..], c, rep);
    }
  }

  lemma {:induction false} ReplaceAllAppend(a: string, b: string, c: char, rep: string)
    ensures ReplaceAll(a + b, c, rep) == ReplaceAll(a, c, rep) + ReplaceAll(b, c, rep)
  {
    if a == [] {
      assert a + b == b;
    } else {
      assert (a + b)[1..] == a[1..] + b;
      ReplaceAllAppend(a[1..], b, c, rep);
    }
  }

  /** The five escapes, applied one after the other with `&` first, as the source chains them. */
  function EscapeChained(s: string): string {
    var s1 := ReplaceAll(s, '&', "&amp;");
    var s2 := ReplaceAll(s1, '<', "&lt;");
    var s3 := ReplaceAll(s2, '>', "&gt;");
    var s4 := ReplaceAll(s3, '"', "&quot;");
    ReplaceAll(s4, '\'', "&#x27;")
  }

  /** The characters the sanitiser escapes. */
  const Special: string := "&<>\"'"

  /** What one character becomes: its entity if it is special, itself otherwise. */
  function Entity(c: char): string {
    if c == '&' then "&amp;"
    else if c == '<' then "&lt;"
    else if c == '>' then "&gt;"
    else if c == '"' then "&quot;"
    else if c == '\'' then "&#x27;"
    else [c]
  }

  /** A single left-to-right pass that replaces each character by its entity. */
  function Escape(s: string): (r: string)
    ensures forall x :: x in r ==> x !in "<>\"'"
    ensures (forall i :: 0 <= i < |s| ==> s[i] !in Special) ==> r == s
  {
    if s == [] then []
    else
      EntityIsPlain(s[0]);
      assert s[0] !in Special ==> Entity(s[0]) == [s[0]];
      Entity(s[0]) + Escape(s[1..])
  }

  /** Replacing in a one-character text. */
  lemma ReplaceOne(x: char, c: char, rep: string)
    ensures ReplaceAll([x], c, rep) == if x == c then rep else [x]
  {
    assert [x][1..] == [];
  }

  /**
   * One character through the chain: a special character becomes its entity,
   * which no later step touches; any other character is left alone.
   */
  lemma ChainedOneChar(c: char)
    ensures EscapeChained([c]) == Entity(c)
  {
    if c in Special {
      ChainedSpecial(c);
    } else {
      ReplaceOne(c, '&', "&amp;");
      ReplaceOne(c, '<', "&lt;");
      ReplaceOne(c, '>', "&gt;");
      ReplaceOne(c, '"', "&quot;");
      ReplaceOne(c, '\'', "&#x27;");
    }
  }

  lemma ChainedSpecial(c: char)
    requires c in Special
    ensures EscapeChained([c]) == Entity(c)
  {
    var e := Entity(c);
    EntityIsPlain(c);
    Untouched(e, '<', "&lt;");
    Untouched(e, '>', "&gt;");
    Untouched(e, '"', "&quot;");
    Untouched(e, '\'', "&#x27;");
    ReplaceOne(c, '&', "&amp;");
    ReplaceOne(c, '<', "&lt;");
    ReplaceOne(c, '>', "&gt;");
    ReplaceOne(c, '"', "&quot;");
    ReplaceOne(c, '\'', "&#x27;");
  }

  /** An entity holds none of `<`, `>`, `"` and `'`. */
  lemma EntityIsPlain(c: char)
    ensures forall i :: 0 <= i < |Entity(c)| ==> Entity(c)[i] !in "<>\"'"
  {
  }

  /** A text without `c` is left as it is. */
  lemma Untouched(s: string, c: char, rep: string)
    requires forall i :: 0 <= i < |s| ==> s[i] != c
    ensures ReplaceAll(s, c, rep) == s
  {
  }

  lemma {:induction false} EscapeChainedAppend(a: string, b: string)
    ensures EscapeChained(a + b) == EscapeChained(a) + EscapeChained(b)
  {
    var a1, b1 := ReplaceAll(a, '&', "&amp;"), ReplaceAll(b, '&', "&amp;");
    ReplaceAllAppend(a, b, '&', "&amp;");
    var a2, b2 := ReplaceAll(a1, '<', "&lt;"), ReplaceAll(b1, '<', "&lt;");
    ReplaceAllAppend(a1, b1, '<', "&lt;");
    var a3, b3 := ReplaceAll(a2, '>', "&gt;"), ReplaceAll(b2, '>', "&gt;");
    ReplaceAllAppend(a2, b2, '>', "&gt;");
    var a4, b4 := ReplaceAll(a3, '"', "&quot;"), ReplaceAll(b3, '"', "&quot;");
    ReplaceAllAppend(a3, b3, '"', "&quot;");
    ReplaceAllAppend(a4, b4, '\'', "&#x27;");
  }

  /**
   * Escaping `&` first means the later steps never touch an entity an earlier
   * step inserted: the chain is the single pass.
   */
  lemma {:induction false} ChainedIsSinglePass(s: string)
    ensures EscapeChained(s) == Escape(s)
  {
    if s != [] {
      assert s == [s[0]] + s[1..];
      EscapeChainedAppend([s[0]], s[1..]);
      ChainedOneChar(s[0]);
      ChainedIsSinglePass(s[1..]);
    }
  }

  /** `sanitizeInput`. */
  function Sanitize(s: string): (r: string)
    ensures forall x :: x in r ==> x !in "<>\"'"
    ensures (forall i :: 0 <= i < |s| ==> s[i] !in Special) ==> r == s
  {
    var t := StripTags(s);
    ChainedIsSinglePass(t);
    EscapeChained(t)
  }

  /** Reads the five entities back; any other character stands for itself. */
  function Unescape(s: string): string
    decreases |s|
  {
    if s == [] then []
    else if |s| >= 5 && s[..5] == "&amp;" then "&" + Unescape(s[5..])
    else if |s| >= 4 && s[..4] == "&lt;" then "<" + Unescape(s[4..])
    else if |s| >= 4 && s[..4] == "&gt;" then ">" + Unescape(s[4..])
    else if |s| >= 6 && s[..6] == "&quot;" then "\"" + Unescape(s[6..])
    else if |s| >= 6 && s[..6] == "&#x27;" then "'" + Unescape(s[6..])
    else [s[0]] + Unescape(s[1..])
  }

  lemma UnescapeEntity(c: char, t: string)
    ensures Unescape(Entity(c) + t) == [c] + Unescape(t)
  {
    if c == '&' {
      UnescapeAmp(t);
    } else if c == '<' {
      UnescapeLt(t);
    } else if c == '>' {
      UnescapeGt(t);
    } else if c == '"' {
      UnescapeQuot(t);
    } else if c == '\'' {
      UnescapeApos(t);
    } else {
      var s := [c] + t;
      assert s[0] == c && s[1..] == t;
    }
  }

  /*
   * One lemma per entity: the tests in `Unescape` are told apart by the
   * entity's second character, and each lemma pins which test fires.
   */
  lemma UnescapeAmp(t: string)
    ensures Unescape("&amp;" + t) == "&" + Unescape(t)
  {
    var s := "&amp;" + t;
    assert s[..5] == "&amp;" && s[5..] == t;
  }

  lemma UnescapeLt(t: string)
    ensures Unescape("&lt;" + t) == "<" + Unescape(t)
  {
    var s := "&lt;" + t;
    assert s[1] == 'l' && s[..4] == "&lt;" && s[4..] == t;
  }

  lemma UnescapeGt(t: string)
    ensures Unescape("&gt;" + t) == ">" + Unescape(t)
  {
    var s := "&gt;" + t;
    assert s[1] == 'g' && s[..4] == "&gt;" && s[4..] == t;
  }

  lemma UnescapeQuot(t: string)
    ensures Unescape("&quot;" + t) == "\"" + Unescape(t)
  {
    var s := "&quot;" + t;
    assert s[1] == 'q' && s[..6] == "&quot;" && s[6..] == t;
  }

  lemma UnescapeApos(t: string)
    ensures Unescape("&#x27;" + t) == "'" + Unescape(t)
  {
    var s := "&#x27;" + t;
    assert s[1] == '#' && s[..6] == "&#x27;" && s[6..] == t;
  }

  /** No information is lost by the escaping step: unescaping gives the input back. */
  lemma {:induction false} EscapeRoundTrip(s: string)
    ensures Unescape(Escape(s)) == s
  {
    if s != [] {
      UnescapeEntity(s[0], Escape(s[1..]));
      EscapeRoundTrip(s[1..]);
    }
  }

  // ----- validateEmail -----

  /**
   * `^[^\s@]+@[^\s@]+\.[^\s@]+$` with its `@` at `a` and the separating `.` at
   * `d`: at least one character before the `@`, between it and the `.`, and after
   * the `.`; no whitespace anywhere and no other `@`.
   */
  predicate EmailAt(s: string, a: int, d: int) {
    0 < a && a + 1 < d && d + 1 < |s| && s[a] == '@' && s[d] == '.'
    && forall i :: 0 <= i < |s| ==> !IsJsSpace(s[i]) && (s[i] == '@' ==> i == a)
  }

  predicate EmailPattern(s: string) {
    exists a, d :: 0 <= a < |s| && 0 <= d < |s| && EmailAt(s, a, d)
  }

  const MaxEmailLength := 254

  datatype EmailError = EmailRequired | EmailInvalid | EmailTooLong

  /** The outcome of one e-mail check and the field value it leaves behind. */
  datatype EmailCheck = EmailCheck(error: Option<EmailError>, field: string)

  /** `validateEmail`: on the trimmed value, emptiness, then the pattern, then the length. */
  function ValidateEmail(input: string): (r: EmailCheck)
    ensures var e := Trim(Js, input);
      && (r.error == Some(EmailRequired) <==> AllSpace(Js, input))
      && (r.error == Some(EmailInvalid) <==> e != [] && !EmailPattern(e))
      && (r.error == Some(EmailTooLong) <==> EmailPattern(e) && |e| > MaxEmailLength)
      && (r.error.None? <==> EmailPattern(e) && |e| <= MaxEmailLength)
    ensures var e := Trim(Js, input);
      && (Sanitize(e) == e ==> r.field == input)
      && (Sanitize(e) != e ==> r.field == Sanitize(e))
  {
    var e := Trim(Js, input);
    var sanitized := Sanitize(e);
    var field := if sanitized != e then sanitized else input;
    if e == [] then EmailCheck(Some(EmailRequired), field)
    else if !EmailPattern(e) then EmailCheck(Some(EmailInvalid), field)
    else if |e| > MaxEmailLength then EmailCheck(Some(EmailTooLong), field)
    else EmailCheck(None, field)
  }

  // ----- validatePassword -----

  /** The seven checks, in the order their messages are listed. */
  datatype PasswordRule =
    | MinLength | HasUpper | HasLower | HasNumber | HasSymbol | NoSpaces | NoDangerousChars

  function Rank(rule: PasswordRule): int {
    match rule
    case MinLength => 0
    case HasUpper => 1
    case HasLower => 2
    case HasNumber => 3
    case HasSymbol => 4
    case NoSpaces => 5
    case NoDangerousChars => 6
  }

  const Rules: seq<PasswordRule> := [MinLength, HasUpper, HasLower, HasNumber, HasSymbol, NoSpaces, NoDangerousChars]

  /** A regular expression `test`: some character of `s` satisfies `p`. */
  predicate AnyChar(s: string, p: char -> bool) {
    exists i :: 0 <= i < |s| && p(s[i])
  }

  predicate Passes(pw: string, rule: PasswordRule) {
    match rule
    case MinLength => |pw| >= 8
    case HasUpper => AnyChar(pw, IsUpper)
    case HasLower => AnyChar(pw, IsLower)
    case HasNumber => AnyChar(pw, IsDigit)
    case HasSymbol => AnyChar(pw, c => c in Symbols)
    case NoSpaces => !AnyChar(pw, IsJsSpace)
    case NoDangerousChars => !AnyChar(pw, c => c in Special)
  }

  /** The failed checks, listed in the fixed order of the checks. */
  function PasswordErrors(pw: string): (errs: seq<PasswordRule>)
    ensures forall rule :: rule in errs <==> !Passes(pw, rule)
    ensures IncreasingBy(Rank, errs)
  {
    var fails := rule => !Passes(pw, rule);
    var errs := Filter(fails, Rules);
    assert forall rule :: rule in errs <==> fails(rule) by {
      FilterMembers(fails, Rules);
      AllRulesListed();
    }
    assert IncreasingBy(Rank, errs) by {
      RulesInRankOrder();
      FilterIncreasing(fails, Rank, Rules);
    }
    errs
  }

  /** Each check sits at the position given by its rank. */
  lemma RulesInRankOrder()
    ensures IncreasingBy(Rank, Rules)
  {
    assert forall i :: 0 <= i < |Rules| ==> Rank(Rules[i]) == i;
  }

  lemma AllRulesListed()
    ensures forall rule :: rule in Rules
  {
    forall rule ensures rule in Rules {
      match rule
      case MinLength => assert Rules[0] == rule;
      case HasUpper => assert Rules[1] == rule;
      case HasLower => assert Rules[2] == rule;
      case HasNumber => assert Rules[3] == rule;
      case HasSymbol => assert Rules[4] == rule;
      case NoSpaces => assert Rules[5] == rule;
      case NoDangerousChars => assert Rules[6] == rule;
    }
  }

  /** `validatePassword`: valid exactly when no check fails. */
  function ValidatePassword(pw: string): (ok: bool)
    ensures ok <==> forall rule :: Passes(pw, rule)
    ensures ok ==> |pw| >= 8 && forall i :: 0 <= i < |pw| ==> pw[i] !in Special && !IsJsSpace(pw[i])
  {
    var errs := PasswordErrors(pw);
    if errs == [] then
      assert Passes(pw, MinLength) && Passes(pw, NoSpaces) && Passes(pw, NoDangerousChars);
      true
    else
      assert errs[0] in errs;
      false
  }

  // ----- validateConfirmPassword -----

  datatype ConfirmError = ConfirmRequired | Mismatch

  function ValidateConfirm(pw: string, confirm: string): (r: Option<ConfirmError>)
    ensures r == Some(ConfirmRequired) <==> confirm == []
    ensures r == Some(Mismatch) <==> confirm != [] && confirm != pw
    ensures r.None? <==> confirm != [] && confirm == pw
  {
    if confirm == [] then Some(ConfirmRequired)
    else if pw != confirm then Some(Mismatch)
    else None
  }

  // ----- handleSubmit -----

  datatype Form = Form(email: string, password: string, confirm: string)

  datatype Submission = Submission(success: bool, after: Form)

  /**
   * `handleSubmit`: the three validators all run (so the e-mail field is
   * rewritten even when another check fails) and the form is accepted only
   * when all three pass.
   */
  function HandleSubmit(f: Form): (r: Submission)
    ensures r.success <==>
              && EmailPattern(Trim(Js, f.email)) && |Trim(Js, f.email)| <= MaxEmailLength
              && (forall rule :: Passes(f.password, rule))
              && f.confirm != [] && f.confirm == f.password
    ensures r.after == f.(email := ValidateEmail(f.email).field)
  {
    var emailCheck := ValidateEmail(f.email);
    var passwordOk := ValidatePassword(f.password);
    var confirmCheck := ValidateConfirm(f.password, f.confirm);
    Submission(emailCheck.error.None? && passwordOk && confirmCheck.None?, f.(email := emailCheck.field))
  }

  /** An accepted form never carries a dangerous character or a space in its password. */
  lemma SubmittedPasswordIsClean(f: Form)
    ensures HandleSubmit(f).success ==>
              forall i :: 0 <= i < |f.password| ==> f.password[i] !in Special && !IsJsSpace(f.password[i])
  {
    var pw := f.password;
    if HandleSubmit(f).success {
      assert forall rule :: Passes(pw, rule);
      assert ValidatePassword(pw);
    }
  }
}

=== FILE: hex_digest.dfy ===
/**
 * The hex encoding at the end of the password manager's `hashPassword`: each
 * digest byte (a signed Java `byte`) is masked with `0xff`, written with
 * `Integer.toHexString`, and padded to two digits with a leading `0`. The digest
 * itself (SHA-256 over the password's platform-default bytes) is a parameter.
 */
module HexDigest {

  /** A Java `byte`. */
  type JavaByte = b: int | -128 <= b < 128

  /** `0xff & b`: the byte's two's-complement bits read as an unsigned number. */
  function Unsigned(b: JavaByte): (n: nat)
    ensures n < 256
    ensures n % 256 == b % 256
  {
    if b < 0 then b + 256 else b
  }

  /** The lower-case digit for a value below 16. */
  function HexDigit(v: nat): (c: char)
    requires v < 16
    ensures IsHexDigit(c)
  {
    if v < 10 then ('0' as int + v) as char else ('a' as int + v - 10) as char
  }

  predicate IsHexDigit(c: char) {
    '0' <= c <= '9' || 'a' <= c <= 'f'
  }

  /** `Integer.toHexString` of a non-negative value: lower-case digits, no leading zeros. */
  function ToHexString(n: nat): (r: string)
    ensures |r| >= 1
    ensures n < 16 <==> |r| == 1
    ensures n < 256 ==> |r| <= 2
    ensures forall i :: 0 <= i < |r| ==> IsHexDigit(r[i])
  {
    if n < 16 then [HexDigit(n)] else ToHexString(n / 16) + [HexDigit(n % 16)]
  }

  /** One byte's two digits: `toHexString`, with a `0` in front when it gave only one. */
  function ByteHex(b: JavaByte): (r: string)
    ensures |r| == 2
    ensures r[0] == HexDigit(Unsigned(b) / 16) && r[1] == HexDigit(Unsigned(b) % 16)
  {
    var hex := ToHexString(Unsigned(b));
    assert Unsigned(b) >= 16 ==> hex == ToHexString(Unsigned(b) / 16) + [HexDigit(Unsigned(b) % 16)];
    if |hex| == 1 then "0" + hex else hex
  }

  /** The whole digest as text: two digits per byte, in order. */
  function Hex(bytes: seq<JavaByte>): (r: string)
    ensures |r| == 2 * |bytes|
    ensures forall i :: 0 <= i < |r| ==> IsHexDigit(r[i])
  {
    if bytes == [] then [] else ByteHex(bytes[0]) + Hex(bytes[1..])
  }

  /** The source's loop over the digest, appending to a builder. */
  method HexString(bytes: seq<JavaByte>) returns (r: string)
    ensures r == Hex(bytes)
  {
    r := "";
    var i := 0;
    while i < |bytes|
      invariant 0 <= i <= |bytes|
      invariant r + Hex(bytes[i..]) == Hex(bytes)
    {
      var piece := ByteHex(bytes[i]);
      assert Hex(bytes[i..]) == piece + Hex(bytes[i + 1..]) by {
        assert bytes[i..][0] == bytes[i] && bytes[i..][1..] == bytes[i + 1..];
      }
      assert (r + piece) + Hex(bytes[i + 1..]) == r + (piece + Hex(bytes[i + 1..]));
      r := r + piece;
      i := i + 1;
    }
    assert bytes[i..] == [];
  }

  /** A SHA-256 digest (32 bytes) gives 64 hex digits. */
  lemma Sha256Length(bytes: seq<JavaByte>)
    requires |bytes| == 32
    ensures |Hex(bytes)| == 64
  {
  }

  function DigitValue(c: char): (v: nat)
    requires IsHexDigit(c)
    ensures v < 16 && HexDigit(v) == c
  {
    if c <= '9' then c as int - '0' as int else c as int - 'a' as int + 10
  }

  /** Reads two hex digits back as a signed byte. */
  function ParseByte(hi: char, lo: char): JavaByte
    requires IsHexDigit(hi) && IsHexDigit(lo)
  {
    var n := DigitValue(hi) * 16 + DigitValue(lo);
    if n >= 128 then n - 256 else n
  }

  /** Reads a hex string of even length back into bytes. */
  function Unhex(s: string): seq<JavaByte>
    requires |s| % 2 == 0 && forall i :: 0 <= i < |s| ==> IsHexDigit(s[i])
  {
    if s == [] then [] else [ParseByte(s[0], s[1])] + Unhex(s[2..])
  }

  lemma DigitValueOf(v: nat)
    requires v < 16
    ensures DigitValue(HexDigit(v)) == v
  {
  }

  lemma ByteRoundTrip(b: JavaByte)
    ensures ParseByte(ByteHex(b)[0], ByteHex(b)[1]) == b
  {
    var n := Unsigned(b);
    DigitValueOf(n / 16);
    DigitValueOf(n % 16);
  }

  /** Nothing is lost: the digits decode to the digest's bytes. */
  lemma {:induction false} HexRoundTrip(bytes: seq<JavaByte>)
    ensures Unhex(Hex(bytes)) == bytes
  {
    if bytes != [] {
      var h := Hex(bytes);
      assert h[..2] == ByteHex(bytes[0]) && h[2..] == Hex(bytes[1..]);
      ByteRoundTrip(bytes[0]);
      HexRoundTrip(bytes[1..]);
    }
  }
}

=== FILE: log_line.dfy ===
/**
 * The log analyzer's line format and its parser. A line is written as
 * `[ts] [tipo] [ip] [user] msg` and read back with the pattern
 * `\[(.*?)\]\s\[(.*?)\]\s\[(.*?)\]\s\[(.*?)\]\s(.*)` searched with `find`.
 * `Fields` and `Lazy` follow the matcher's backtracking order: each lazy group
 * tries its shortest content first and grows one character at a time.
 */
module LogLine {
  import opened Wrappers
  import opened Text

  datatype LogEntry = LogEntry(timestamp: string, tipo: string, ip: string, usuario: string, mensagem: string)

  /** The characters Java's `\s` matches. */
  predicate IsRegexSpace(c: char) {
    c == ' ' || c == '\t' || c == '\n' || c == '\U{000B}' || c == '\U{000C}' || c == '\r'
  }

  /** What the greedy `(.*)` takes: the longest prefix without a line terminator. */
  function Rest(t: string): (r: string)
    ensures |r| <= |t| && r == t[..|r|] && NoLineTerminator(r)
    ensures NoLineTerminator(t) ==> r == t
  {
    if t == [] || IsLineTerminator(t[0]) then [] else [t[0]] + Rest(t[1..])
  }

  /**
   * Matches `k` bracketed groups and then the message at the start of `t`;
   * on success the groups' contents, followed by the message.
   */
  function Fields(t: string, k: nat): (r: Option<seq<string>>)
    ensures r.Some? ==> |r.value| == k + 1
    ensures r.Some? ==> NoLineTerminator(r.value[k])
    decreases k, 1, 0
  {
    if k == 0 then Some([Rest(t)])
    else if |t| > 0 && t[0] == '[' then Lazy(t[1..], 0, k)
    else None
  }

  /**
   * The lazy group `(.*?)` holding `u[..j]` so far, followed by `\]\s` and the
   * remaining `k - 1` groups: first try to close it here, else grow it by one character.
   */
  function Lazy(u: string, j: nat, k: nat): (r: Option<seq<string>>)
    requires 1 <= k && j <= |u|
    ensures r.Some? ==> |r.value| == k + 1
    ensures r.Some? ==> NoLineTerminator(r.value[k])
    decreases k, 0, |u| - j
  {
    if j + 1 >= |u| then None
    else if u[j] == ']' && IsRegexSpace(u[j + 1]) && Fields(u[j + 2..], k - 1).Some? then
      Some([u[..j]] + Fields(u[j + 2..], k - 1).value)
    else if IsLineTerminator(u[j]) then None
    else Lazy(u, j + 1, k)
  }

  /** `find` from position `p` on: the first start position where the whole pattern matches. */
  function FindFrom(s: string, p: nat): (r: Option<LogEntry>)
    requires p <= |s|
    ensures r.Some? ==> NoLineTerminator(r.value.mensagem)
    decreases |s| - p
  {
    match Fields(s[p..], 4)
    case Some(g) => Some(LogEntry(g[0], g[1], g[2], g[3], g[4]))
    case None => if p == |s| then None else FindFrom(s, p + 1)
  }

  /**
   * `parseLogLine`: `None` is the source's `null`. The message group stops at
   * the first line terminator, so a parsed message never holds one.
   */
  function Parse(line: string): (r: Option<LogEntry>)
    ensures r.Some? ==> NoLineTerminator(r.value.mensagem)
  {
    FindFrom(line, 0)
  }

  /** The line the sample-log writer prints for one entry (without the line break). */
  function Format(e: LogEntry): (line: string)
    ensures |line| == |e.timestamp| + |e.tipo| + |e.ip| + |e.usuario| + |e.mensagem| + 12
    ensures line[0] == '[' && line[|line| - |e.mensagem|..] == e.mensagem
  {
    "[" + e.timestamp + "] [" + e.tipo + "] [" + e.ip + "] [" + e.usuario + "] " + e.mensagem
  }

  /** A bracketed field the format can carry: no `]` and no line terminator. */
  predicate FieldOk(f: string) {
    NoLineTerminator(f) && forall i :: 0 <= i < |f| ==> f[i] != ']'
  }

  predicate WellFormed(e: LogEntry) {
    && FieldOk(e.timestamp) && FieldOk(e.tipo) && FieldOk(e.ip) && FieldOk(e.usuario)
    && NoLineTerminator(e.mensagem)
  }

  /** `fs` bracketed, each followed by one space, then the message. */
  function Bracketed(fs: seq<string>, msg: string): string {
    if fs == [] then msg else "[" + fs[0] + "] " + Bracketed(fs[1..], msg)
  }

  lemma FormatIsBracketed(e: LogEntry)
    ensures Format(e) == Bracketed([e.timestamp, e.tipo, e.ip, e.usuario], e.mensagem)
  {
    var m := e.mensagem;
    var b3 := Bracketed([e.usuario], m);
    assert b3 == "[" + e.usuario + "] " + m by {
      assert [e.usuario][1..] == [];
      assert Bracketed([], m) == m;
    }
    var b2 := Bracketed([e.ip, e.usuario], m);
    assert b2 == "[" + e.ip + "] " + b3 by {
      assert [e.ip, e.usuario][1..] == [e.usuario];
    }
    var b1 := Bracketed([e.tipo, e.ip, e.usuario], m);
    assert b1 == "[" + e.tipo + "] " + b2 by {
      assert [e.tipo, e.ip, e.usuario][1..] == [e.ip, e.usuario];
    }
    var b0 := Bracketed([e.timestamp, e.tipo, e.ip, e.usuario], m);
    assert b0 == "[" + e.timestamp + "] " + b1 by {
      assert [e.timestamp, e.tipo, e.ip, e.usuario][1..] == [e.tipo, e.ip, e.usuario];
    }
  }

  /** A group whose content has no `]` is closed at the first `] `. */
  lemma {:induction false} LazyOverField(f: string, rest: string, j: nat, k: nat)
    requires 1 <= k && j <= |f| && FieldOk(f) && Fields(rest, k - 1).Some?
    ensures Lazy(f + "] " + rest, j, k) == Some([f] + Fields(rest, k - 1).value)
    decreases |f| - j
  {
    var u := f + "] " + rest;
    if j < |f| {
      assert u[j] == f[j];
      LazyOverField(f, rest, j + 1, k);
    } else {
      assert u[..j] == f;
      assert u[j + 2..] == rest;
    }
  }

  lemma {:induction false} FieldsOfBracketed(fs: seq<string>, msg: string)
    requires forall i :: 0 <= i < |fs| ==> FieldOk(fs[i])
    requires NoLineTerminator(msg)
    ensures Fields(Bracketed(fs, msg), |fs|) == Some(fs + [msg])
    decreases |fs|
  {
    if fs == [] {
      assert Bracketed(fs, msg) == msg;
      assert Fields(msg, 0) == Some([msg]);
      assert fs + [msg] == [msg];
    } else {
      FieldsOfBracketed(fs[1..], msg);
      var rest := Bracketed(fs[1..], msg);
      var t := Bracketed(fs, msg);
      assert t == "[" + (fs[0] + "] " + rest);
      assert t[0] == '[';
      assert t[1..] == fs[0] + "] " + rest;
      LazyOverField(fs[0], rest, 0, |fs|);
      assert Fields(t, |fs|) == Lazy(t[1..], 0, |fs|);
      assert [fs[0]] + (fs[1..] + [msg]) == fs + [msg];
    }
  }

  /** Round trip: a well-formed entry, formatted, parses back to itself. */
  lemma ParseFormat(e: LogEntry)
    requires WellFormed(e)
    ensures Parse(Format(e)) == Some(e)
  {
    FormatIsBracketed(e);
    var fs := [e.timestamp, e.tipo, e.ip, e.usuario];
    FieldsOfBracketed(fs, e.mensagem);
    assert Format(e)[0..] == Format(e);
  }

  /**
   * The shape the pattern demands at the start of `t`: `k` groups `[..]`, each
   * followed by one `\s` character, with no line terminator inside a group.
   */
  ghost predicate Shape(t: string, k: nat)
    decreases k, 2
  {
    if k == 0 then true
    else |t| > 0 && t[0] == '[' && CloseAt(t[1..], 0, k)
  }

  /** Some `]` at or after `j` closes a group of `u` and leaves the shape of the other `k - 1`. */
  ghost predicate CloseAt(u: string, j: nat, k: nat)
    requires 1 <= k
    decreases k, 1
  {
    exists q :: j <= q && q + 1 < |u| && Closes(u, j, q, k)
  }

  ghost predicate Closes(u: string, j: nat, q: nat, k: nat)
    requires 1 <= k && j <= q && q + 1 < |u|
    decreases k, 0
  {
    && u[q] == ']' && IsRegexSpace(u[q + 1]) && NoLineTerminator(u[j..q])
    && Shape(u[q + 2..], k - 1)
  }

  lemma CloseAtWitness(u: string, j: nat, k: nat)
    requires 1 <= k && CloseAt(u, j, k)
    ensures exists q :: j <= q && q + 1 < |u| && Closes(u, j, q, k)
  {
  }

  /** The matcher succeeds exactly on the shape: backtracking misses no candidate. */
  lemma {:induction false} FieldsIffShape(t: string, k: nat)
    ensures Fields(t, k).Some? <==> Shape(t, k)
    decreases k, 1, 0
  {
    if k > 0 && |t| > 0 && t[0] == '[' {
      LazyIffClose(t[1..], 0, k);
    }
  }

  lemma {:induction false} LazyIffClose(u: string, j: nat, k: nat)
    requires 1 <= k && j <= |u|
    ensures Lazy(u, j, k).Some? <==> CloseAt(u, j, k)
    decreases k, 0, |u| - j
  {
    if j + 1 >= |u| {
    } else {
      FieldsIffShape(u[j + 2..], k - 1);
      if u[j] == ']' && IsRegexSpace(u[j + 1]) && Fields(u[j + 2..], k - 1).Some? {
        assert Closes(u, j, j, k);
      } else if IsLineTerminator(u[j]) {
        NoCloseAcrossTerminator(u, j, k);
      } else {
        assert !Closes(u, j, j, k);
        LazyIffClose(u, j + 1, k);
        CloseLater(u, j, k);
      }
    }
  }

  /** A group cannot hold a line terminator, so none closes once one is reached. */
  lemma NoCloseAcrossTerminator(u: string, j: nat, k: nat)
    requires 1 <= k && j + 1 < |u| && IsLineTerminator(u[j])
    ensures !CloseAt(u, j, k)
  {
    forall q | j <= q && q + 1 < |u|
      ensures !Closes(u, j, q, k)
    {
      if q > j {
        assert u[j..q][0] == u[j];
      }
    }
  }

  /** When the group cannot close at `j` and `u[j]` may be inside it, it closes from `j` exactly when it closes from `j + 1`. */
  lemma CloseLater(u: string, j: nat, k: nat)
    requires 1 <= k && j + 1 < |u| && !IsLineTerminator(u[j]) && !Closes(u, j, j, k)
    ensures CloseAt(u, j, k) <==> CloseAt(u, j + 1, k)
  {
    if CloseAt(u, j, k) {
      CloseAtWitness(u, j, k);
      var q :| j <= q && q + 1 < |u| && Closes(u, j, q, k);
      assert q > j;
      assert u[j + 1..q] == u[j..q][1..];
      assert Closes(u, j + 1, q, k);
    }
    if CloseAt(u, j + 1, k) {
      var q :| j + 1 <= q && q + 1 < |u| && Closes(u, j + 1, q, k);
      assert u[j..q] == [u[j]] + u[j + 1..q];
      assert Closes(u, j, q, k);
    }
  }

  /** `find` succeeds iff the shape occurs starting at some position of the line. */
  lemma {:induction false} FindIffShape(s: string, p: nat)
    requires p <= |s|
    ensures FindFrom(s, p).Some? <==> exists q :: p <= q <= |s| && Shape(s[q..], 4)
    decreases |s| - p
  {
    FieldsIffShape(s[p..], 4);
    if Shape(s[p..], 4) {
      assert FindFrom(s, p).Some?;
      assert p <= p <= |s| && Shape(s[p..], 4);
    } else if p < |s| {
      assert FindFrom(s, p) == FindFrom(s, p + 1);
      FindIffShape(s, p + 1);
      ShapeLater(s, p);
    } else {
      assert FindFrom(s, p).None?;
    }
  }

  /** Without the shape at `p`, it occurs from `p` on exactly when it occurs from `p + 1` on. */
  lemma ShapeLater(s: string, p: nat)
    requires p < |s| && !Shape(s[p..], 4)
    ensures (exists q :: p <= q <= |s| && Shape(s[q..], 4)) <==> (exists q :: p + 1 <= q <= |s| && Shape(s[q..], 4))
  {
    if exists q :: p <= q <= |s| && Shape(s[q..], 4) {
      var q :| p <= q <= |s| && Shape(s[q..], 4);
      assert p + 1 <= q;
    }
  }

  /**
   * A line is skipped (parses to `None`) exactly when no position starts four
   * bracketed groups each followed by one whitespace character.
   */
  lemma ParseIffShape(line: string)
    ensures Parse(line).Some? <==> exists q :: 0 <= q <= |line| && Shape(line[q..], 4)
  {
    FindIffShape(line, 0);
  }

  /** The skip rule of `loadLogs`: the parsed entries of the lines that parse, in file order. */
  function LoadLogs(lines: seq<string>): (r: seq<LogEntry>)
    ensures |r| <= |lines|
    ensures (forall i :: 0 <= i < |lines| ==> Parse(lines[i]).None?) ==> r == []
    ensures (forall i :: 0 <= i < |lines| ==> Parse(lines[i]).Some?) ==> |r| == |lines|
  {
    if lines == [] then []
    else
      var rest := LoadLogs(lines[1..]);
      match Parse(lines[0])
      case Some(e) => [e] + rest
      case None => rest
  }

  /** Loading reads a file part by part: a bad line is skipped and reading goes on after it. */
  lemma {:induction false} LoadLogsAppend(a: seq<string>, b: seq<string>)
    ensures LoadLogs(a + b) == LoadLogs(a) + LoadLogs(b)
  {
    if a == [] {
      assert a + b == b;
    } else {
      assert (a + b)[0] == a[0] && (a + b)[1..] == a[1..] + b;
      LoadLogsAppend(a[1..], b);
    }
  }

  /** A single line gives its entry when it parses and nothing otherwise. */
  lemma LoadLogsOne(line: string)
    ensures LoadLogs([line]) == if Parse(line).Some? then [Parse(line).value] else []
  {
    assert [line][1..] == [];
  }

  /** A file written by the sample-log writer loads back to exactly its entries. */
  lemma {:induction false} LoadFormatted(es: seq<LogEntry>)
    requires forall i :: 0 <= i < |es| ==> WellFormed(es[i])
    ensures LoadLogs(seq(|es|, i requires 0 <= i < |es| => Format(es[i]))) == es
  {
    var lines := seq(|es|, i requires 0 <= i < |es| => Format(es[i]));
    if es != [] {
      ParseFormat(es[0]);
      LoadFormatted(es[1..]);
      assert lines[1..] == seq(|es[1..]|, i requires 0 <= i < |es[1..]| => Format(es[1..][i]));
      assert es == [es[0]] + es[1..];
    }
  }
}

=== FILE: log_report.dfy ===
/**
 * The log analyzer's report over the loaded entries: general counts, the first
 * failures, suspicious IPs, brute-force detection and users with repeated failures.
 * The per-key counts the source keeps in hash maps are modelled as a list of
 * key/count pairs in order of first occurrence; since the hash map's iteration
 * order is unspecified, contracts fix only which pairs are listed, their counts,
 * and the non-increasing order where the source sorts.
 */
module LogReport {
  import opened LogLine
  import opened Seqs
  import opened Sorting

  const Success: string := "SUCESSO"
  const Failure: string := "FALHA"
  const Blocked: string := "BLOQUEADO"

  /** The type of every entry, in input order. */
  function Tags(logs: seq<LogEntry>): (r: seq<string>)
    ensures |r| == |logs| && forall i :: 0 <= i < |logs| ==> r[i] == logs[i].tipo
  {
    seq(|logs|, i requires 0 <= i < |logs| => logs[i].tipo)
  }

  /** The entries of `logs` whose type is exactly `tag`. */
  function CountTag(logs: seq<LogEntry>, tag: string): (n: nat)
    ensures n <= |logs|
    ensures n == multiset(Tags(logs))[tag]
  {
    if logs == [] then 0
    else
      assert Tags(logs) == Tags(logs[..|logs| - 1]) + [logs[|logs| - 1].tipo];
      CountTag(logs[..|logs| - 1], tag) + (if logs[|logs| - 1].tipo == tag then 1 else 0)
  }

  /** Counting a concatenation counts each part. */
  lemma CountTagAppend(a: seq<LogEntry>, b: seq<LogEntry>, tag: string)
    ensures CountTag(a + b, tag) == CountTag(a, tag) + CountTag(b, tag)
  {
    assert Tags(a + b) == Tags(a) + Tags(b);
  }

  /** One entry counts exactly when its type is the tag. */
  lemma CountTagOne(e: LogEntry, tag: string)
    ensures CountTag([e], tag) == if e.tipo == tag then 1 else 0
  {
    assert Tags([e]) == [e.tipo];
  }

  lemma {:induction false} DistinctTagsBounded(logs: seq<LogEntry>, a: string, b: string, c: string)
    requires a != b && b != c && a != c
    ensures CountTag(logs, a) + CountTag(logs, b) + CountTag(logs, c) <= |logs|
  {
    if logs != [] {
      DistinctTagsBounded(logs[..|logs| - 1], a, b, c);
    }
  }

  datatype Stats = Stats(total: nat, successes: nat, failures: nat, blocked: nat)

  /**
   * `showGeneralStats`: exact-tag counts; entries with any other type count
   * only toward the total, so the three counts never exceed it.
   */
  function GeneralStats(logs: seq<LogEntry>): (r: Stats)
    ensures r.total == |logs|
    ensures r.successes == CountTag(logs, Success)
    ensures r.failures == CountTag(logs, Failure)
    ensures r.blocked == CountTag(logs, Blocked)
    ensures r.successes + r.failures + r.blocked <= r.total
    ensures (forall i :: 0 <= i < |logs| ==> logs[i].tipo in {Success, Failure, Blocked}) ==>
              r.successes + r.failures + r.blocked == r.total
  {
    DistinctTagsBounded(logs, Success, Failure, Blocked);
    AllTaggedSum(logs);
    Stats(|logs|, CountTag(logs, Success), CountTag(logs, Failure), CountTag(logs, Blocked))
  }

  lemma {:induction false} AllTaggedSum(logs: seq<LogEntry>)
    ensures (forall i :: 0 <= i < |logs| ==> logs[i].tipo in {Success, Failure, Blocked}) ==>
              CountTag(logs, Success) + CountTag(logs, Failure) + CountTag(logs, Blocked) == |logs|
  {
    if logs != [] {
      AllTaggedSum(logs[..|logs| - 1]);
    }
  }

  /** The `FALHA` entries, in input order. */
  function FailedEntries(logs: seq<LogEntry>): (r: seq<LogEntry>)
    ensures |r| == CountTag(logs, Failure)
    ensures forall i :: 0 <= i < |r| ==> r[i].tipo == Failure && r[i] in logs
  {
    if logs == [] then []
    else
      var init := FailedEntries(logs[..|logs| - 1]);
      var last := logs[|logs| - 1];
      if last.tipo == Failure then init + [last] else init
  }

  /** Filtering distributes over concatenation: the input order is kept. */
  lemma {:induction false} FailedEntriesAppend(a: seq<LogEntry>, b: seq<LogEntry>)
    ensures FailedEntries(a + b) == FailedEntries(a) + FailedEntries(b)
    decreases |b|
  {
    if b == [] {
      assert a + b == a;
    } else {
      assert (a + b)[..|a + b| - 1] == a + b[..|b| - 1];
      FailedEntriesAppend(a, b[..|b| - 1]);
    }
  }

  function Min(a: int, b: int): int { if a <= b then a else b }

  const ShownFailures := 5

  /** `showFailedLogins`: the first (not the latest) five `FALHA` entries, in input order. */
  function LastFailures(logs: seq<LogEntry>): (r: seq<LogEntry>)
    ensures |r| == Min(ShownFailures, CountTag(logs, Failure))
    ensures r == FailedEntries(logs)[..|r|]
    ensures forall i :: 0 <= i < |r| ==> r[i].tipo == Failure
  {
    var fs := FailedEntries(logs);
    fs[..Min(ShownFailures, |fs|)]
  }

  /** Which entries a per-key count takes in. */
  datatype Selection = FailuresOnly | FailuresAndBlocked

  /** The key a per-key count groups by. */
  datatype Grouping = ByIp | ByUser

  predicate Selected(e: LogEntry, sel: Selection) {
    e.tipo == Failure || (sel == FailuresAndBlocked && e.tipo == Blocked)
  }

  function KeyOf(e: LogEntry, g: Grouping): string {
    match g
    case ByIp => e.ip
    case ByUser => e.usuario
  }

  /** How many selected entries have key `k`: the value the source's map holds for `k`. */
  function Count(logs: seq<LogEntry>, sel: Selection, g: Grouping, k: string): nat {
    if logs == [] then 0
    else
      var last := logs[|logs| - 1];
      Count(logs[..|logs| - 1], sel, g, k) + (if Selected(last, sel) && KeyOf(last, g) == k then 1 else 0)
  }

  /** The keys present in the source's map, in order of first occurrence. */
  function Keys(logs: seq<LogEntry>, sel: Selection, g: Grouping): (r: seq<string>)
    ensures forall i, j :: 0 <= i < j < |r| ==> r[i] != r[j]
    ensures forall k :: k in r <==> Count(logs, sel, g, k) > 0
  {
    if logs == [] then []
    else
      var ks := Keys(logs[..|logs| - 1], sel, g);
      var last := logs[|logs| - 1];
      if Selected(last, sel) && KeyOf(last, g) !in ks then ks + [KeyOf(last, g)] else ks
  }

  datatype KeyCount = KeyCount(key: string, count: nat)

  predicate DistinctKeys(t: seq<KeyCount>) {
    forall i, j :: 0 <= i < j < |t| ==> t[i].key != t[j].key
  }

  predicate NonIncreasing(t: seq<KeyCount>) {
    forall i, j :: 0 <= i < j < |t| ==> t[i].count >= t[j].count
  }

  /** The entries of the source's map: every key with a positive count, once. */
  function Tally(logs: seq<LogEntry>, sel: Selection, g: Grouping): (r: seq<KeyCount>)
    ensures DistinctKeys(r)
    ensures forall x :: x in r <==> x.count == Count(logs, sel, g, x.key) > 0
  {
    var ks := Keys(logs, sel, g);
    var r := seq(|ks|, i requires 0 <= i < |ks| => KeyCount(ks[i], Count(logs, sel, g, ks[i])));
    assert forall x: KeyCount :: x.count == Count(logs, sel, g, x.key) > 0 ==> x == r[IndexOf(ks, x.key)];
    r
  }

  /** The pairs whose count is strictly above `n`, in their original order. */
  function Above(t: seq<KeyCount>, n: nat): (r: seq<KeyCount>)
    ensures forall x :: x in r <==> x in t && x.count > n
    ensures DistinctKeys(t) ==> DistinctKeys(r)
    ensures |r| <= |t|
  {
    if t == [] then []
    else
      var rest := Above(t[1..], n);
      if t[0].count > n then [t[0]] + rest else rest
  }

  /** The sort key: ascending in it is descending in the count. */
  function NegatedCount(x: KeyCount): int {
    -(x.count as int)
  }

  function PairKey(x: KeyCount): string {
    x.key
  }

  /** The source's sort by descending count, as a stable sort on the negated count. */
  function SortDescending(t: seq<KeyCount>): (r: seq<KeyCount>)
    ensures NonIncreasing(r)
    ensures multiset(r) == multiset(t)
    ensures forall y :: y in r <==> y in t
    ensures DistinctKeys(t) ==> DistinctKeys(r)
  {
    SortDescendingDistinct(t);
    var r := SortBy(NegatedCount, t);
    assert forall y :: y in r <==> y in multiset(r);
    assert forall y :: y in t <==> y in multiset(t);
    r
  }

  lemma SortDescendingDistinct(t: seq<KeyCount>)
    ensures DistinctKeys(t) ==> DistinctKeys(SortBy(NegatedCount, t))
  {
    if DistinctKeys(t) {
      assert DistinctBy(PairKey, t);
      SortByDistinct(NegatedCount, PairKey, t);
    }
  }

  const SuspiciousThreshold: nat := 3
  const AttackThreshold: nat := 5
  const ProblemThreshold: nat := 2
  const ShownUsers := 5

  /**
   * `showSuspiciousIPs`: the IPs with more than three `FALHA` or `BLOQUEADO`
   * entries, each once with its count, most frequent first.
   */
  function SuspiciousIps(logs: seq<LogEntry>): (r: seq<KeyCount>)
    ensures NonIncreasing(r) && DistinctKeys(r)
    ensures forall x :: x in r ==> x.count == Count(logs, FailuresAndBlocked, ByIp, x.key) > SuspiciousThreshold
    ensures forall ip :: Count(logs, FailuresAndBlocked, ByIp, ip) > SuspiciousThreshold ==>
              KeyCount(ip, Count(logs, FailuresAndBlocked, ByIp, ip)) in r
  {
    SortDescending(Above(Tally(logs, FailuresAndBlocked, ByIp), SuspiciousThreshold))
  }

  /** The "no suspicious IP" message is printed exactly when the list is empty. */
  lemma NoSuspiciousIff(logs: seq<LogEntry>)
    ensures SuspiciousIps(logs) == [] <==>
            forall ip :: Count(logs, FailuresAndBlocked, ByIp, ip) <= SuspiciousThreshold
  {
    var r := SuspiciousIps(logs);
    if r != [] {
      assert r[0] in r;
      assert Count(logs, FailuresAndBlocked, ByIp, r[0].key) > SuspiciousThreshold;
    }
  }

  /** `showAttackDetection`: the IPs with more than five `FALHA` entries (`BLOQUEADO` not counted). */
  function AttackIps(logs: seq<LogEntry>): (r: seq<KeyCount>)
    ensures DistinctKeys(r)
    ensures forall x :: x in r ==> x.count == Count(logs, FailuresOnly, ByIp, x.key) > AttackThreshold
    ensures forall ip :: Count(logs, FailuresOnly, ByIp, ip) > AttackThreshold ==>
              KeyCount(ip, Count(logs, FailuresOnly, ByIp, ip)) in r
  {
    Above(Tally(logs, FailuresOnly, ByIp), AttackThreshold)
  }

  /** The attack warning: some count in the map exceeds five. */
  function AttackDetected(logs: seq<LogEntry>): (b: bool)
    ensures b <==> exists ip :: Count(logs, FailuresOnly, ByIp, ip) > AttackThreshold
    ensures b <==> AttackIps(logs) != []
  {
    var r := AttackIps(logs);
    if r != [] then
      var ip := r[0].key;
      assert r[0] in r;
      assert Count(logs, FailuresOnly, ByIp, ip) > AttackThreshold;
      assert exists ip :: Count(logs, FailuresOnly, ByIp, ip) > AttackThreshold;
      true
    else
      assert forall ip :: KeyCount(ip, Count(logs, FailuresOnly, ByIp, ip)) !in r;
      false
  }

  lemma {:induction false} FailuresWithinFailuresAndBlocked(logs: seq<LogEntry>, g: Grouping, k: string)
    ensures Count(logs, FailuresOnly, g, k) <= Count(logs, FailuresAndBlocked, g, k)
  {
    if logs != [] {
      FailuresWithinFailuresAndBlocked(logs[..|logs| - 1], g, k);
    }
  }

  /** Every IP flagged as an attack is also listed as suspicious. */
  lemma AttackIpsAreSuspicious(logs: seq<LogEntry>, ip: string)
    requires exists c :: KeyCount(ip, c) in AttackIps(logs)
    ensures KeyCount(ip, Count(logs, FailuresAndBlocked, ByIp, ip)) in SuspiciousIps(logs)
  {
    FailuresWithinFailuresAndBlocked(logs, ByIp, ip);
  }

  /**
   * `showProblematicUsers`: users with more than two `FALHA` entries, most
   * frequent first, at most five; a qualifying user left out only when five are
   * shown, none with a smaller count.
   */
  /**
   * A user with more than two failures is missing from `t` only when `t` is
   * full and every user shown has at least as many failures.
   */
  ghost predicate OnlyOutranked(logs: seq<LogEntry>, t: seq<KeyCount>) {
    forall u :: Count(logs, FailuresOnly, ByUser, u) > ProblemThreshold &&
                KeyCount(u, Count(logs, FailuresOnly, ByUser, u)) !in t ==>
      |t| == ShownUsers && forall i :: 0 <= i < |t| ==> t[i].count >= Count(logs, FailuresOnly, ByUser, u)
  }

  function ProblematicUsers(logs: seq<LogEntry>): (r: seq<KeyCount>)
    ensures |r| <= ShownUsers
    ensures NonIncreasing(r) && DistinctKeys(r)
    ensures forall x :: x in r ==> x.count == Count(logs, FailuresOnly, ByUser, x.key) > ProblemThreshold
    ensures OnlyOutranked(logs, r)
  {
    var sorted := SortDescending(Above(Tally(logs, FailuresOnly, ByUser), ProblemThreshold));
    TopOfSorted(sorted, Min(ShownUsers, |sorted|));
    sorted[..Min(ShownUsers, |sorted|)]
  }

  /** A prefix of a non-increasing list: whatever is left out is no larger than what is kept. */
  lemma TopOfSorted(sorted: seq<KeyCount>, n: nat)
    requires NonIncreasing(sorted) && DistinctKeys(sorted) && n <= |sorted|
    requires n < |sorted| ==> n == ShownUsers
    ensures NonIncreasing(sorted[..n]) && DistinctKeys(sorted[..n])
    ensures forall x :: x in sorted[..n] ==> x in sorted
    ensures forall x :: x in sorted && x !in sorted[..n] ==>
              n == ShownUsers && forall i :: 0 <= i < n ==> sorted[..n][i].count >= x.count
  {
    forall x | x in sorted && x !in sorted[..n]
      ensures n == ShownUsers && forall i :: 0 <= i < n ==> sorted[..n][i].count >= x.count
    {
      var p :| 0 <= p < |sorted| && sorted[p] == x;
    }
  }

  /** The five sections of `analyzeAndReport`, in order (the failure-rate percentage aside). */
  datatype Report = Report(
    stats: Stats,
    lastFailures: seq<LogEntry>,
    suspiciousIps: seq<KeyCount>,
    attack: bool,
    attackIps: seq<KeyCount>,
    problematicUsers: seq<KeyCount>)

  function Analyze(logs: seq<LogEntry>): (r: Report)
    ensures r.stats.total == |logs|
    ensures |r.lastFailures| == Min(ShownFailures, r.stats.failures)
    ensures r.attack <==> r.attackIps != []
    ensures forall x :: x in r.attackIps ==>
              KeyCount(x.key, Count(logs, FailuresAndBlocked, ByIp, x.key)) in r.suspiciousIps
    ensures r.stats.successes == CountTag(logs, Success)
    ensures r.stats.failures == CountTag(logs, Failure)
    ensures r.stats.blocked == CountTag(logs, Blocked)
    ensures r.lastFailures == FailedEntries(logs)[..|r.lastFailures|]
    ensures NonIncreasing(r.suspiciousIps) && NonIncreasing(r.problematicUsers)
    ensures forall x :: x in r.suspiciousIps ==> x.count == Count(logs, FailuresAndBlocked, ByIp, x.key) > SuspiciousThreshold
    ensures forall ip :: Count(logs, FailuresAndBlocked, ByIp, ip) > SuspiciousThreshold ==>
              KeyCount(ip, Count(logs, FailuresAndBlocked, ByIp, ip)) in r.suspiciousIps
    ensures forall x :: x in r.attackIps ==> x.count == Count(logs, FailuresOnly, ByIp, x.key) > AttackThreshold
    ensures forall ip :: Count(logs, FailuresOnly, ByIp, ip) > AttackThreshold ==>
              KeyCount(ip, Count(logs, FailuresOnly, ByIp, ip)) in r.attackIps
    ensures forall x :: x in r.problematicUsers ==> x.count == Count(logs, FailuresOnly, ByUser, x.key) > ProblemThreshold
    ensures |r.problematicUsers| <= ShownUsers
    ensures OnlyOutranked(logs, r.problematicUsers)
    ensures DistinctKeys(r.suspiciousIps) && DistinctKeys(r.attackIps) && DistinctKeys(r.problematicUsers)
  {
    assert forall x :: x in AttackIps(logs) ==>
             KeyCount(x.key, Count(logs, FailuresAndBlocked, ByIp, x.key)) in SuspiciousIps(logs) by {
      forall x | x in AttackIps(logs)
        ensures KeyCount(x.key, Count(logs, FailuresAndBlocked, ByIp, x.key)) in SuspiciousIps(logs)
      {
        AttackIpsAreSuspicious(logs, x.key);
      }
    }
    Report(GeneralStats(logs), LastFailures(logs), SuspiciousIps(logs),
           AttackDetected(logs), AttackIps(logs), ProblematicUsers(logs))
  }
}

=== FILE: login_manager.dfy ===
/**
 * The login manager of the login system: a user table plus two per-username maps,
 * a failure counter and a lockout timestamp (milliseconds). The clock is the
 * parameter `now`; password hashing is the parameter `hash`.
 */
module LoginManager {
  import opened Wrappers
  import Text

  const MaxAttempts: int := 3
  /** Two minutes, in milliseconds. */
  const LockoutTime: int := 2 * 60 * 1000

  /** A registered user: the hash of the password is kept, never the password. */
  datatype Account = Account(username: string, email: string, passwordHash: string)

  datatype Manager = Manager(
    users: map<string, Account>,
    failedAttempts: map<string, int>,
    lockoutTimes: map<string, int>)

  const Initial := Manager(map[], map[], map[])

  /** `failedAttempts.getOrDefault(username, 0)`. */
  function Attempts(m: Manager, u: string): int {
    if u in m.failedAttempts then m.failedAttempts[u] else 0
  }

  /**
   * The state invariant: every counter lies in [1, MaxAttempts], and a lockout
   * entry is present exactly when the counter equals MaxAttempts.
   */
  ghost predicate Valid(m: Manager) {
    && (forall u :: u in m.failedAttempts ==> 1 <= m.failedAttempts[u] <= MaxAttempts)
    && (forall u :: u in m.lockoutTimes <==> Attempts(m, u) == MaxAttempts)
  }

  /** The lockout of `u` is in force at `now`: it has not yet lasted strictly more than LockoutTime. */
  predicate LockedAt(m: Manager, u: string, now: int) {
    u in m.lockoutTimes && now - m.lockoutTimes[u] <= LockoutTime
  }

  /** The state of every user other than `u` is the same in `m` and `m'`. */
  ghost predicate OthersUnchanged(m: Manager, m': Manager, u: string) {
    && m'.users == m.users
    && (forall v :: v != u ==> Attempts(m', v) == Attempts(m, v))
    && (forall v :: v != u ==> (v in m'.lockoutTimes <==> v in m.lockoutTimes))
    && (forall v :: v != u && v in m.lockoutTimes ==> m'.lockoutTimes[v] == m.lockoutTimes[v])
  }

  datatype LockCheck = LockCheck(locked: bool, after: Manager)

  /**
   * `isLockedOut`: a lockout ends lazily, on the first check made strictly more
   * than LockoutTime after it started; that check removes both the lockout and the counter.
   */
  function IsLockedOut(m: Manager, u: string, now: int): (r: LockCheck)
    ensures r.locked <==> LockedAt(m, u, now)
    ensures r.locked ==> r.after == m
    ensures !r.locked && u in m.lockoutTimes ==> u !in r.after.lockoutTimes && Attempts(r.after, u) == 0
    ensures u !in m.lockoutTimes ==> r.after == m
    ensures OthersUnchanged(m, r.after, u)
    ensures Valid(m) ==> Valid(r.after)
  {
    if u !in m.lockoutTimes then LockCheck(false, m)
    else if now - m.lockoutTimes[u] > LockoutTime then
      LockCheck(false, m.(lockoutTimes := m.lockoutTimes - {u}, failedAttempts := m.failedAttempts - {u}))
    else LockCheck(true, m)
  }

  /**
   * `incrementFailedAttempts`: the counter grows by exactly one, and reaching
   * MaxAttempts stamps the lockout with `now`.
   */
  function IncrementFailedAttempts(m: Manager, u: string, now: int): (m': Manager)
    ensures Attempts(m', u) == Attempts(m, u) + 1
    ensures Attempts(m', u) >= MaxAttempts ==> u in m'.lockoutTimes && m'.lockoutTimes[u] == now
    ensures Attempts(m', u) < MaxAttempts ==> (u in m'.lockoutTimes <==> u in m.lockoutTimes)
    ensures OthersUnchanged(m, m', u)
  {
    var attempts := Attempts(m, u) + 1;
    var m1 := m.(failedAttempts := m.failedAttempts[u := attempts]);
    if attempts >= MaxAttempts then m1.(lockoutTimes := m1.lockoutTimes[u := now]) else m1
  }

  datatype Outcome = Blocked | UnknownUser | WrongPassword | LoggedIn

  /** The result of `login`: what happened, and the state afterwards. */
  datatype Attempt = Attempt(outcome: Outcome, after: Manager) {
    /** The boolean `login` returns. */
    predicate Succeeded() { outcome == LoggedIn }
    predicate Failed() { outcome == UnknownUser || outcome == WrongPassword }
  }

  /** The failure count `u` starts from once an expired lockout has been cleared. */
  function CountBefore(m: Manager, u: string): int {
    if u in m.lockoutTimes then 0 else Attempts(m, u)
  }

  /**
   * `login`: a blocked attempt touches nothing; an unknown user or a wrong password
   * counts one failure; a correct password removes the counter.
   */
  function Login(m: Manager, u: string, password: string, now: int, hash: string -> string): (r: Attempt)
    ensures r.outcome == Blocked <==> LockedAt(m, u, now)
    ensures r.outcome == Blocked ==> r.after == m
    ensures r.outcome == UnknownUser <==> !LockedAt(m, u, now) && u !in m.users
    ensures r.Succeeded() <==> !LockedAt(m, u, now) && u in m.users && m.users[u].passwordHash == hash(password)
    ensures r.Succeeded() ==> u !in r.after.failedAttempts && u !in r.after.lockoutTimes
    ensures r.Failed() ==> Attempts(r.after, u) == CountBefore(m, u) + 1
    ensures r.Failed() && Attempts(r.after, u) >= MaxAttempts ==> u in r.after.lockoutTimes && r.after.lockoutTimes[u] == now
    ensures OthersUnchanged(m, r.after, u)
    ensures Valid(m) ==> Valid(r.after)
  {
    var check := IsLockedOut(m, u, now);
    var m1 := check.after;
    if check.locked then Attempt(Blocked, m)
    else if u !in m1.users then Attempt(UnknownUser, IncrementFailedAttempts(m1, u, now))
    else if m1.users[u].passwordHash == hash(password) then
      Attempt(LoggedIn, m1.(failedAttempts := m1.failedAttempts - {u}))
    else Attempt(WrongPassword, IncrementFailedAttempts(m1, u, now))
  }

  datatype Registration = Registration(ok: bool, after: Manager)

  /** `getUserCount`: one per registered username. */
  function UserCount(m: Manager): (n: nat)
    ensures n == |m.users.Keys|
    ensures n == 0 <==> m.users == map[]
  {
    |m.users|
  }

  /**
   * `register`: refuses a null or blank username, a username already taken and a
   * password shorter than 6; otherwise adds exactly one user holding the password's hash.
   */
  function Register(m: Manager, username: Option<string>, email: string, password: string, hash: string -> string): (r: Registration)
    ensures r.ok <==> username.Some? && !Text.AllSpace(Text.Java, username.value)
                      && username.value !in m.users && |password| >= 6
    ensures !r.ok ==> r.after == m
    ensures r.ok ==> r.after == m.(users := m.users[username.value := Account(username.value, email, hash(password))])
    ensures r.ok ==> UserCount(r.after) == UserCount(m) + 1
    ensures Valid(m) ==> Valid(r.after)
  {
    if username.None? || Text.Trim(Text.Java, username.value) == [] then Registration(false, m)
    else if username.value in m.users then Registration(false, m)
    else if |password| < 6 then Registration(false, m)
    else Registration(true, m.(users := m.users[username.value := Account(username.value, email, hash(password))]))
  }

  /** One call of `login`, with the clock reading it sees. */
  datatype Request = Request(username: string, password: string, now: int)

  /** The state after a sequence of `login` calls, in order. */
  function Run(m: Manager, rs: seq<Request>, hash: string -> string): Manager
    decreases |rs|
  {
    if rs == [] then m
    else Run(Login(m, rs[0].username, rs[0].password, rs[0].now, hash).after, rs[1..], hash)
  }

  /** Over any sequence of `login` calls from a valid state the invariant holds. */
  lemma {:induction false} RunKeepsValid(m: Manager, rs: seq<Request>, hash: string -> string)
    requires Valid(m)
    ensures Valid(Run(m, rs, hash))
    ensures forall u :: 0 <= Attempts(Run(m, rs, hash), u) <= MaxAttempts
    decreases |rs|
  {
    if rs != [] {
      var m1 := Login(m, rs[0].username, rs[0].password, rs[0].now, hash).after;
      RunKeepsValid(m1, rs[1..], hash);
    }
    var m' := Run(m, rs, hash);
    forall u ensures 0 <= Attempts(m', u) <= MaxAttempts {
    }
  }

  lemma InitialIsValid()
    ensures Valid(Initial)
  {
  }

  /** The password `p` does not log `u` in: `u` is unknown or `p` hashes to something else. */
  predicate Wrong(m: Manager, u: string, p: string, hash: string -> string) {
    u !in m.users || m.users[u].passwordHash != hash(p)
  }

  /**
   * Three failing attempts by a user with no failures on record, then a fourth
   * attempt at most LockoutTime after the third: false, false, false, blocked,
   * whatever the fourth password is.
   */
  lemma ThreeFailuresThenBlocked(m: Manager, u: string, p1: string, p2: string, p3: string, p4: string,
                                 t1: int, t2: int, t3: int, t4: int, hash: string -> string)
    requires Valid(m) && u !in m.failedAttempts
    requires Wrong(m, u, p1, hash) && Wrong(m, u, p2, hash) && Wrong(m, u, p3, hash)
    requires t4 - t3 <= LockoutTime
    ensures var a1 := Login(m, u, p1, t1, hash);
            var a2 := Login(a1.after, u, p2, t2, hash);
            var a3 := Login(a2.after, u, p3, t3, hash);
            var a4 := Login(a3.after, u, p4, t4, hash);
            a1.Failed() && a2.Failed() && a3.Failed() && a4.outcome == Blocked
  {
    var a1 := Login(m, u, p1, t1, hash);
    assert Attempts(a1.after, u) == 1;
    var a2 := Login(a1.after, u, p2, t2, hash);
    assert Attempts(a2.after, u) == 2;
    var a3 := Login(a2.after, u, p3, t3, hash);
    assert Attempts(a3.after, u) == 3;
  }

  /** At exactly LockoutTime after the lockout started the user is still blocked; one millisecond later not. */
  lemma ExpiryIsStrict(m: Manager, u: string, p: string, t: int, hash: string -> string)
    requires Valid(m) && u in m.lockoutTimes && m.lockoutTimes[u] == t
    ensures Login(m, u, p, t + LockoutTime, hash).outcome == Blocked
    ensures var a := Login(m, u, p, t + LockoutTime + 1, hash);
            a.outcome != Blocked && (a.Failed() ==> Attempts(a.after, u) == 1)
  {
  }
}

=== FILE: password_entry.dfy ===
/**
 * A password-manager entry. Service, user name and creation time are fixed when
 * the entry is built; only the stored hash and the modification time change.
 * The clock reading and the digest are parameters; the hash stored is the hex
 * text of the digest of the password.
 */
module PasswordEntry {
  import opened HexDigest
  import Text

  datatype Entry = Entry(service: string, username: string, passwordHash: string, createdAt: int, lastModified: int)

  /** `hashPassword`: the digest's bytes as two lower-case hex digits each. */
  function HashPassword(password: string, digest: string -> seq<JavaByte>): (h: string)
    ensures |h| == 2 * |digest(password)|
    ensures forall i :: 0 <= i < |h| ==> IsHexDigit(h[i])
    ensures Unhex(h) == digest(password)
  {
    HexRoundTrip(digest(password));
    Hex(digest(password))
  }

  /** The constructor; the clock is read twice, once for each timestamp. */
  function NewEntry(service: string, username: string, password: string, digest: string -> seq<JavaByte>, created: int, modified: int): (e: Entry)
    ensures e.service == service && e.username == username
    ensures e.passwordHash == HashPassword(password, digest)
    ensures e.createdAt == created && e.lastModified == modified
  {
    Entry(service, username, HashPassword(password, digest), created, modified)
  }

  /** The entry depends on the password only through its digest: the plain text is not kept. */
  lemma NoPlainText(service: string, username: string, p1: string, p2: string, digest: string -> seq<JavaByte>, created: int, modified: int)
    requires digest(p1) == digest(p2)
    ensures NewEntry(service, username, p1, digest, created, modified) == NewEntry(service, username, p2, digest, created, modified)
  {
  }

  /** `setPassword`: a new hash and modification time; nothing else moves. */
  function SetPassword(e: Entry, password: string, digest: string -> seq<JavaByte>, now: int): (r: Entry)
    ensures r.service == e.service && r.username == e.username && r.createdAt == e.createdAt
    ensures r.passwordHash == HashPassword(password, digest) && r.lastModified == now
  {
    e.(passwordHash := HashPassword(password, digest), lastModified := now)
  }

  /** `toString`, with the date pattern `dd/MM/yyyy HH:mm` as the parameter `formatDate`. */
  function Show(e: Entry, formatDate: int -> string): (r: string)
    ensures Text.Contains(r, e.service) && Text.Contains(r, e.username)
  {
    var shown := "\U{1F510} " + e.service + " | \U{1F464} " + e.username + " | " + formatDate(e.createdAt);
    assert Text.OccursAt(shown, e.service, 2);
    assert Text.OccursAt(shown, e.username, |e.service| + 7);
    shown
  }

  /** The text shown never depends on the hash or the modification time. */
  lemma ShowHidesHash(e: Entry, hash: string, modified: int, formatDate: int -> string)
    ensures Show(e.(passwordHash := hash, lastModified := modified), formatDate) == Show(e, formatDate)
  {
  }

  /** Changing the password leaves the text shown unchanged. */
  lemma ShowSurvivesSetPassword(e: Entry, password: string, digest: string -> seq<JavaByte>, now: int, formatDate: int -> string)
    ensures Show(SetPassword(e, password, digest, now), formatDate) == Show(e, formatDate)
  {
    ShowHidesHash(e, HashPassword(password, digest), now, formatDate);
  }
}

=== FILE: password_generator.dfy ===
/**
 * The strong-password generator: the character set the four check boxes select,
 * the count of selected groups, the generation step and the entropy label.
 * `Math.random()` values are a parameter, and the entropy (a floating-point
 * logarithm in the program) is taken as an input value.
 */
module PasswordGenerator {
  import opened Wrappers
  import opened Text
  import BruteForce
  import opened CharGroups
  import Seqs

  /** The four check boxes. */
  datatype Options = Options(uppercase: bool, lowercase: bool, numbers: bool, symbols: bool)

  /** A group's characters when its box is checked, nothing otherwise. */
  function Group(checked: bool, chars: string): string {
    if checked then chars else ""
  }

  /** The character `c` belongs to a checked group. */
  predicate Offered(o: Options, c: char) {
    || (o.uppercase && IsUpper(c))
    || (o.lowercase && IsLower(c))
    || (o.numbers && IsDigit(c))
    || (o.symbols && c in SymbolChars)
  }

  /** `getCharset`: upper case, lower case, digits and symbols, each when checked, in that order. */
  function GetCharset(o: Options): (r: string)
    ensures |r| == |Group(o.uppercase, UpperLetters)| + |Group(o.lowercase, LowerLetters)|
                   + |Group(o.numbers, Digits)| + |Group(o.symbols, SymbolChars)|
    ensures r == [] <==> !o.uppercase && !o.lowercase && !o.numbers && !o.symbols
    ensures forall c :: c in r <==> Offered(o, c)
    ensures var nu, nl, nd := |Group(o.uppercase, UpperLetters)|, |Group(o.lowercase, LowerLetters)|,
                              |Group(o.numbers, Digits)|;
            && r[..nu] == Group(o.uppercase, UpperLetters)
            && r[nu..nu + nl] == Group(o.lowercase, LowerLetters)
            && r[nu + nl..nu + nl + nd] == Group(o.numbers, Digits)
            && r[nu + nl + nd..] == Group(o.symbols, SymbolChars)
  {
    GroupsSpellTheirClasses();
    var u, l, d, s := Group(o.uppercase, UpperLetters), Group(o.lowercase, LowerLetters),
                      Group(o.numbers, Digits), Group(o.symbols, SymbolChars);
    Seqs.FourBlocks(u, l, d, s);
    u + l + d + s
  }

  /** The character set never repeats a character, so every character is equally likely. */
  lemma CharsetDistinct(o: Options)
    ensures Distinct(GetCharset(o))
  {
    var u, l, d, s := Group(o.uppercase, UpperLetters), Group(o.lowercase, LowerLetters),
                      Group(o.numbers, Digits), Group(o.symbols, SymbolChars);
    assert Distinct(u) && Distinct(l) && Distinct(d) && Distinct(s) by {
      GroupsDistinct();
    }
    assert forall c :: (c in u ==> IsUpper(c)) && (c in l ==> IsLower(c)) && (c in d ==> IsDigit(c)) by {
      GroupsSpellTheirClasses();
    }
    assert forall c :: c in s ==> !IsUpper(c) && !IsLower(c) && !IsDigit(c) by {
      SymbolsAreNotAlphanumeric();
    }
    DistinctConcat(u, l);
    DistinctConcat(u + l, d);
    DistinctConcat(u + l + d, s);
  }

  function Count(checked: bool): nat {
    if checked then 1 else 0
  }

  /** `countCharsetTypes`: how many boxes are checked. */
  function CountCharsetTypes(o: Options): (n: nat)
    ensures n <= 4
    ensures n == 0 <==> GetCharset(o) == []
    ensures n == 4 <==> o.uppercase && o.lowercase && o.numbers && o.symbols
  {
    Count(o.uppercase) + Count(o.lowercase) + Count(o.numbers) + Count(o.symbols)
  }

  /** The number of checked groups is the number of character classes the set draws from. */
  lemma CountIsGroupsOffered(o: Options)
    ensures CountCharsetTypes(o) ==
              Count(exists c :: c in GetCharset(o) && IsUpper(c))
              + Count(exists c :: c in GetCharset(o) && IsLower(c))
              + Count(exists c :: c in GetCharset(o) && IsDigit(c))
              + Count(exists c :: c in GetCharset(o) && c in SymbolChars)
  {
    ClassesOffered(o, GetCharset(o));
  }

  /** A set offering exactly the checked groups draws on a class exactly when its box is checked. */
  lemma ClassesOffered(o: Options, cs: string)
    requires forall c :: c in cs <==> Offered(o, c)
    ensures (exists c :: c in cs && IsUpper(c)) <==> o.uppercase
    ensures (exists c :: c in cs && IsLower(c)) <==> o.lowercase
    ensures (exists c :: c in cs && IsDigit(c)) <==> o.numbers
    ensures (exists c :: c in cs && c in SymbolChars) <==> o.symbols
  {
    SymbolsAreNotAlphanumeric();
    if o.uppercase { assert 'A' in cs && IsUpper('A'); }
    if o.lowercase { assert 'a' in cs && IsLower('a'); }
    if o.numbers { assert '0' in cs && IsDigit('0'); }
    if o.symbols { assert '!' in cs && '!' in SymbolChars; }
  }

  /**
   * `generate`: `None` (the alert) when no box is checked; otherwise `length`
   * characters drawn from the set, `randoms` standing for the successive values
   * of `Math.random()`.
   */
  function Generate(o: Options, length: nat, randoms: seq<real>): (r: Option<string>)
    requires |randoms| >= length
    requires forall i :: 0 <= i < |randoms| ==> 0.0 <= randoms[i] < 1.0
    ensures r.None? <==> CountCharsetTypes(o) == 0
    ensures r.Some? ==> |r.value| == length && forall i :: 0 <= i < length ==> Offered(o, r.value[i])
  {
    var charset := GetCharset(o);
    if |charset| == 0 then None
    else
      var pw := BruteForce.GenerateRandomPassword(charset, length, randoms);
      assert forall i :: 0 <= i < length ==> pw[i] in charset;
      Some(pw)
  }

  // ----- updateEntropyBar -----

  datatype Strength = Weak | Medium | Strong | VeryStrong {
    function Label(): string {
      match this
      case Weak => "⚠️ Fraca"
      case Medium => "🟡 Média"
      case Strong => "✅ Forte"
      case VeryStrong => "🔒 Muito Forte"
    }

    function Rank(): nat {
      match this
      case Weak => 0
      case Medium => 1
      case Strong => 2
      case VeryStrong => 3
    }
  }

  /** The label band: below 32 bits, below 64, below 96, and the rest. */
  function EntropyBand(entropy: real): (s: Strength)
    ensures s == Weak <==> entropy < 32.0
    ensures s == Medium <==> 32.0 <= entropy < 64.0
    ensures s == Strong <==> 64.0 <= entropy < 96.0
    ensures s == VeryStrong <==> 96.0 <= entropy
  {
    if entropy < 32.0 then Weak
    else if entropy < 64.0 then Medium
    else if entropy < 96.0 then Strong
    else VeryStrong
  }

  /** More entropy never earns a weaker label. */
  lemma BandMonotone(e1: real, e2: real)
    requires e1 <= e2
    ensures EntropyBand(e1).Rank() <= EntropyBand(e2).Rank()
  {
  }

  /** The bar's width in percent: the share of 128 bits, capped at 100. */
  function BarWidth(entropy: real): (w: real)
    ensures w <= 100.0
    ensures entropy >= 0.0 ==> w >= 0.0
    ensures w == 100.0 <==> entropy >= 128.0
    ensures w < 100.0 ==> w * 128.0 == entropy * 100.0
  {
    var share := entropy / 128.0 * 100.0;
    if share < 100.0 then share else 100.0
  }
}

=== FILE: password_manager.dfy ===
/**
 * The password manager's list of entries and the operations of its menu: add,
 * search by service, delete by position, and export to CSV. Prompts, console
 * output and the serialised file are not modelled: each operation takes the
 * text the user typed and returns the new list (or the text written).
 */
module PasswordManager {
  import opened Wrappers
  import opened Text
  import opened Seqs
  import opened HexDigest
  import opened PasswordEntry

  type Vault = seq<Entry>

  /**
   * `addPassword`: service and user name are trimmed, the password is hashed as
   * typed, and the new entry goes at the end.
   */
  function AddPassword(v: Vault, service: string, username: string, password: string,
                       digest: string -> seq<JavaByte>, created: int, modified: int): (r: Vault)
    ensures |r| == |v| + 1 && r[..|v|] == v
    ensures r[|v|].service == Trim(Java, service) && r[|v|].username == Trim(Java, username)
    ensures r[|v|].passwordHash == HashPassword(password, digest)
    ensures r[|v|].createdAt == created && r[|v|].lastModified == modified
  {
    var e := NewEntry(Trim(Java, service), Trim(Java, username), password, digest, created, modified);
    assert (v + [e])[|v|] == e && (v + [e])[..|v|] == v;
    v + [e]
  }

  /** An entry matches when its lower-cased service contains the normalised query. */
  predicate Matches(normalised: string, e: Entry) {
    Contains(Lower(e.service), normalised)
  }

  /** The query as the search uses it: trimmed, then lower-cased. */
  function Normalise(query: string): (q: string)
    ensures |q| <= |query|
    ensures forall i :: 0 <= i < |q| ==> !IsUpper(q[i])
  {
    Lower(Trim(Java, query))
  }

  /** `searchPassword`: the entries whose service matches, in list order. */
  function Search(v: Vault, query: string): (r: Vault)
    ensures |r| <= |v|
    ensures forall e :: e in r <==> e in v && Contains(Lower(e.service), Normalise(query))
  {
    var q := Normalise(query);
    FilterMembers(e => Matches(q, e), v);
    Filter(e => Matches(q, e), v)
  }

  /** Searching a longer list finds the old results first, then the new ones. */
  lemma SearchAppend(a: Vault, b: Vault, query: string)
    ensures Search(a + b, query) == Search(a, query) + Search(b, query)
  {
    var q := Normalise(query);
    FilterAppend(e => Matches(q, e), a, b);
  }

  /** A blank query lists every entry. */
  lemma BlankSearchListsAll(v: Vault, query: string)
    requires AllSpace(Java, query)
    ensures Search(v, query) == v
  {
    var q := Normalise(query);
    assert q == [];
    forall i | 0 <= i < |v| ensures Matches(q, v[i]) {
      ContainsEmpty(Lower(v[i].service));
    }
    FilterAll(e => Matches(q, e), v);
  }

  /** Case in the query does not matter. */
  lemma SearchIgnoresQueryCase(v: Vault, query: string)
    ensures Search(v, Lower(query)) == Search(v, query)
  {
    LowerTrimStart(query);
    LowerTrimEnd(TrimStart(Java, query));
    LowerTwice(Trim(Java, query));
  }

  lemma LowerTwice(s: string)
    ensures Lower(Lower(s)) == Lower(s)
  {
  }

  /** A character is blank exactly when its lower-case form is. */
  lemma {:induction false} LowerTrimStart(s: string)
    ensures TrimStart(Java, Lower(s)) == Lower(TrimStart(Java, s))
  {
    if s != [] {
      assert Lower(s)[1..] == Lower(s[1..]);
      LowerTrimStart(s[1..]);
    }
  }

  lemma {:induction false} LowerTrimEnd(s: string)
    ensures TrimEnd(Java, Lower(s)) == Lower(TrimEnd(Java, s))
  {
    if s != [] {
      var n := |s| - 1;
      LowerPrefix(s, n);
      BlankUnderLower(s[n]);
      LowerTrimEnd(s[..n]);
    }
  }

  lemma LowerPrefix(s: string, n: nat)
    requires n < |s|
    ensures Lower(s)[..n] == Lower(s[..n])
    ensures Lower(s)[n] == LowerChar(s[n])
  {
  }

  lemma BlankUnderLower(c: char)
    ensures IsJavaBlank(LowerChar(c)) == IsJavaBlank(c)
  {
  }

  /**
   * `deletePassword`: `choice` is the number typed (`None` when it is not a
   * number); entry `choice` counting from 1 is removed, and any other number
   * leaves the list as it was.
   */
  function Delete(v: Vault, choice: Option<int>): (r: Vault)
    ensures choice.Some? && 1 <= choice.value <= |v| ==>
              |r| == |v| - 1
              && (forall i :: 0 <= i < choice.value - 1 ==> r[i] == v[i])
              && (forall i :: choice.value - 1 <= i < |r| ==> r[i] == v[i + 1])
    ensures !(choice.Some? && 1 <= choice.value <= |v|) ==> r == v
  {
    if choice.Some? && 1 <= choice.value <= |v| then v[..choice.value - 1] + v[choice.value..] else v
  }

  /** Deleting removes exactly the chosen entry: nothing is lost or duplicated. */
  lemma DeleteRemovesOne(v: Vault, n: int)
    requires 1 <= n <= |v|
    ensures multiset(Delete(v, Some(n))) + multiset{v[n - 1]} == multiset(v)
  {
    assert v == v[..n - 1] + [v[n - 1]] + v[n..];
  }

  // ----- exportToCSV -----

  const CsvHeader: string := "Serviço,Usuário,Data Criação"

  /**
   * One data row: service, user name and the creation time, comma-separated and
   * never quoted. `dateText` is the creation time's `toString` form.
   */
  function CsvRow(e: Entry, dateText: int -> string): string {
    Join([e.service, e.username, dateText(e.createdAt)], ',')
  }

  /** The header, then one row per entry in list order. */
  function CsvRows(v: Vault, dateText: int -> string): (rows: seq<string>)
    ensures |rows| == |v| + 1 && rows[0] == CsvHeader
    ensures forall i :: 0 <= i < |v| ==> rows[i + 1] == CsvRow(v[i], dateText)
  {
    [CsvHeader] + seq(|v|, i requires 0 <= i < |v| => CsvRow(v[i], dateText))
  }

  /** Each row written with a line break after it. */
  function Terminated(rows: seq<string>): (s: string)
    ensures s == Join(rows + [""], '\n')
    ensures rows != [] ==> |s| > |rows[0]| && s[..|rows[0]| + 1] == rows[0] + "\n" && s[|s| - 1] == '\n'
  {
    if rows == [] then ""
    else
      assert (rows + [""])[1..] == rows[1..] + [""];
      rows[0] + "\n" + Terminated(rows[1..])
  }

  /** The text `exportToCSV` writes to the backup file. */
  function ExportCsv(v: Vault, dateText: int -> string): (csv: string)
    ensures |csv| > |CsvHeader| && csv[..|CsvHeader| + 1] == CsvHeader + "\n"
    ensures csv[|csv| - 1] == '\n'
  {
    Terminated(CsvRows(v, dateText))
  }

  /** A field with neither a comma nor a line break. */
  predicate PlainField(s: string) {
    ',' !in s && '\n' !in s
  }

  /**
   * With plain fields the file reads back: one line per row plus the empty
   * text after the last line break, and each data line splits at its commas
   * into the entry's service, user name and date.
   */
  lemma CsvReadsBack(v: Vault, dateText: int -> string)
    requires forall i :: 0 <= i < |v| ==>
               PlainField(v[i].service) && PlainField(v[i].username) && PlainField(dateText(v[i].createdAt))
    ensures var lines := Split(ExportCsv(v, dateText), '\n');
            |lines| == |v| + 2 && lines[0] == CsvHeader && lines[|v| + 1] == ""
            && forall i :: 0 <= i < |v| ==>
                 Split(lines[i + 1], ',') == [v[i].service, v[i].username, dateText(v[i].createdAt)]
  {
    var rows := CsvRows(v, dateText);
    var lines := rows + [""];
    forall i | 0 <= i < |lines| ensures '\n' !in lines[i] {
      if 1 <= i <= |v| {
        RowReadsBack(v[i - 1], dateText);
        assert lines[i] == rows[(i - 1) + 1];
      }
    }
    SplitJoin(lines, '\n');
    forall i | 0 <= i < |v|
      ensures Split(lines[i + 1], ',') == [v[i].service, v[i].username, dateText(v[i].createdAt)]
    {
      RowReadsBack(v[i], dateText);
    }
  }

  /** A row of plain fields has no line break and splits back into its three fields. */
  lemma RowReadsBack(e: Entry, dateText: int -> string)
    requires PlainField(e.service) && PlainField(e.username) && PlainField(dateText(e.createdAt))
    ensures '\n' !in CsvRow(e, dateText)
    ensures Split(CsvRow(e, dateText), ',') == [e.service, e.username, dateText(e.createdAt)]
  {
    var fields := [e.service, e.username, dateText(e.createdAt)];
    NoSeparatorInJoin(fields, ',', '\n');
    SplitJoin(fields, ',');
  }

  /** Joining with `sep` introduces no character other than `sep`. */
  lemma {:induction false} NoSeparatorInJoin(parts: seq<string>, sep: char, c: char)
    requires |parts| >= 1 && c != sep && forall i :: 0 <= i < |parts| ==> c !in parts[i]
    ensures c !in Join(parts, sep)
  {
    if |parts| > 1 {
      NoSeparatorInJoin(parts[1..], sep, c);
    }
  }

  /**
   * Fields are not quoted: a comma inside a service name shifts the columns,
   * so the line reads back with four fields instead of three.
   */
  lemma CommaInServiceShiftsColumns(e: Entry, dateText: int -> string)
    requires e.service == "a,b" && e.username == "u" && dateText(e.createdAt) == "d"
    ensures Split(CsvRow(e, dateText), ',') == ["a", "b", "u", "d"]
  {
    assert CsvRow(e, dateText) == Join(["a", "b", "u", "d"], ',');
    SplitJoin(["a", "b", "u", "d"], ',');
  }
}

=== FILE: password_validator.dfy ===
/**
 * The safe simulator's password strength classifier. A password earns one point
 * per length threshold (8, 12, 16) and one per character class present
 * (upper-case, lower-case, digit, symbol), loses two for an obvious pattern, and
 * the score is banded into three levels. `matches` in Java matches the WHOLE
 * string, so `.*X.*` also demands that no character is a line terminator.
 */
module PasswordValidator {
  import opened Wrappers
  import opened Text

  datatype Strength = Fraca | Media | Forte {
    /** The `level` each constant carries. */
    function Level(): (n: int)
      ensures 1 <= n <= 3
    {
      match this
      case Fraca => 1
      case Media => 2
      case Forte => 3
    }
  }

  /** The four character classes the classifier and the tips look for, in the order they are checked. */
  datatype CharClass = Upper | LowerCase | Digit | Symbol

  predicate InClass(k: CharClass, c: char) {
    match k
    case Upper => IsUpper(c)
    case LowerCase => IsLower(c)
    case Digit => IsDigit(c)
    case Symbol => c in Symbols
  }

  /** `s.matches(".*[k].*")`: some character is in class `k` and no character is a line terminator. */
  predicate Has(s: string, k: CharClass) {
    NoLineTerminator(s) && exists i :: 0 <= i < |s| && InClass(k, s[i])
  }

  const LengthThresholds: set<nat> := {8, 12, 16}

  /** One point for each of the length thresholds 8, 12 and 16 that `n` reaches. */
  function LengthPoints(n: nat): (p: nat)
    ensures p <= 3
    ensures p == 0 <==> n < 8
    ensures p == 3 <==> n >= 16
    ensures p == |set t | t in LengthThresholds && n >= t|
  {
    var reached := set t | t in LengthThresholds && n >= t;
    if n < 8 then
      assert reached == {};
      0
    else if n < 12 then
      assert reached == {8};
      1
    else if n < 16 then
      assert reached == {8, 12};
      2
    else
      assert reached == {8, 12, 16};
      3
  }

  function Point(b: bool): nat { if b then 1 else 0 }

  /** The score before the pattern penalty. */
  function RawScore(s: string): (score: nat)
    ensures score <= 7
    ensures |s| < 8 ==> score <= 4
  {
    LengthPoints(|s|) + Point(Has(s, Upper)) + Point(Has(s, LowerCase)) + Point(Has(s, Digit)) + Point(Has(s, Symbol))
  }

  /** `(.)\1{2,}` matched against the whole string: one character, not a line terminator, three or more times. */
  predicate AllRepeated(s: string) {
    |s| >= 3 && !IsLineTerminator(s[0]) && forall i :: 0 <= i < |s| ==> s[i] == s[0]
  }

  const CommonSequences: seq<string> := ["123", "abc", "qwerty", "password"]

  predicate HasCommonSequence(s: string) {
    exists t :: t in CommonSequences && Contains(s, t)
  }

  /** Two lower-case letters followed by two digits, starting at `i`. */
  predicate LettersDigitsAt(s: string, i: int) {
    0 <= i && i + 4 <= |s| && IsLower(s[i]) && IsLower(s[i + 1]) && IsDigit(s[i + 2]) && IsDigit(s[i + 3])
  }

  /**
   * `s.matches(".*[a-z]{2,}[0-9]{2,}.*")`: a run of two or more letters followed by
   * two or more digits always holds a window of exactly two and two, and conversely.
   */
  predicate LettersThenDigits(s: string) {
    NoLineTerminator(s) && exists i :: 0 <= i < |s| && LettersDigitsAt(s, i)
  }

  /** `(char)(c + d)` in Java: the code is taken modulo 2^16. */
  function CharPlus(c: char, d: int): int {
    (c as int + d) % 0x1_0000
  }

  /** Three consecutive characters with codes c, c+1, c+2, starting at `i`. */
  predicate SequentialAt(s: string, i: int) {
    0 <= i && i + 2 < |s| && s[i + 1] as int == CharPlus(s[i], 1) && s[i + 2] as int == CharPlus(s[i], 2)
  }

  predicate Sequential(s: string) {
    exists i :: 0 <= i < |s| && SequentialAt(s, i)
  }

  /** `isSequential`: scans every start index that leaves room for three characters. */
  method IsSequential(s: string) returns (b: bool)
    ensures b <==> Sequential(s)
  {
    var i := 0;
    while i < |s| - 2
      invariant 0 <= i
      invariant forall j :: 0 <= j < i ==> !SequentialAt(s, j)
    {
      if s[i + 1] as int == CharPlus(s[i], 1) && s[i + 2] as int == CharPlus(s[i], 2) {
        assert SequentialAt(s, i);
        return true;
      }
      i := i + 1;
    }
    return false;
  }

  /**
   * The class points are the class criteria the tips do not list: one point per
   * class present, as `calculateScore` and `getTips` test the same four classes.
   */
  lemma RawScoreCountsClasses(s: string)
    ensures RawScore(s) == LengthPoints(|s|) + 4 - |Unmet(s, Criteria[1..])|
  {
    var cs := Criteria[1..];
    assert cs == [Class(Upper), Class(LowerCase), Class(Digit), Class(Symbol)];
    UnmetLength(s, cs);
    assert cs[1..] == [Class(LowerCase), Class(Digit), Class(Symbol)];
    UnmetLength(s, cs[1..]);
    assert cs[1..][1..] == [Class(Digit), Class(Symbol)];
    UnmetLength(s, cs[1..][1..]);
    assert cs[1..][1..][1..] == [Class(Symbol)];
    UnmetLength(s, cs[1..][1..][1..]);
    assert cs[1..][1..][1..][1..] == [];
  }

  lemma UnmetLength(s: string, cs: seq<Criterion>)
    requires cs != []
    ensures |Unmet(s, cs)| == Point(!Meets(s, cs[0])) + |Unmet(s, cs[1..])|
  {
  }

  /** `hasObviousPatterns`: the three rules, tried in order; each needs three characters at least. */
  predicate HasObviousPatterns(s: string): (b: bool)
    ensures b ==> |s| >= 3
  {
    AllRepeated(s) || HasCommonSequence(s) || (LettersThenDigits(s) && Sequential(s))
  }

  /** The score of a non-empty password: raw points, minus two for an obvious pattern. */
  function Score(s: string): (score: int)
    ensures -2 <= score <= 7
    ensures |s| < 8 ==> score <= 4
    ensures HasObviousPatterns(s) ==> score <= 5
    ensures !HasObviousPatterns(s) ==> score >= 0
  {
    RawScore(s) - (if HasObviousPatterns(s) then 2 else 0)
  }

  /** The banding of a score. */
  function Band(score: int): (r: Strength)
    ensures r == Fraca <==> score <= 2
    ensures r == Media <==> 3 <= score <= 4
    ensures r == Forte <==> score >= 5
  {
    if score <= 2 then Fraca else if score <= 4 then Media else Forte
  }

  /** `validatePassword`: `null` and the empty string are weak without scoring. */
  function Validate(password: Option<string>): (r: Strength)
    ensures password == None || password == Some([]) ==> r == Fraca
    ensures password.Some? && password.value != [] ==> r == Band(Score(password.value))
  {
    match password
    case None => Fraca
    case Some(s) => if s == [] then Fraca else Band(Score(s))
  }

  /** Length alone gives at most three points, so a password shorter than eight is never strong. */
  lemma ShortNeverStrong(s: string)
    requires |s| < 8
    ensures Validate(Some(s)) != Forte
  {
  }

  /** Each listed sequence triggers the pattern rule and costs exactly two points. */
  lemma CommonSequencePenalty(s: string, t: string)
    requires t in CommonSequences && Contains(s, t)
    ensures HasObviousPatterns(s)
    ensures Score(s) == RawScore(s) - 2
  {
  }

  /** Each of the three pattern rules costs exactly two points; without a pattern nothing is taken off. */
  lemma EachPatternCostsTwo(s: string)
    ensures AllRepeated(s) ==> Score(s) == RawScore(s) - 2
    ensures HasCommonSequence(s) ==> Score(s) == RawScore(s) - 2
    ensures LettersThenDigits(s) && Sequential(s) ==> Score(s) == RawScore(s) - 2
    ensures !HasObviousPatterns(s) ==> Score(s) == RawScore(s)
  {
  }

  /** The repetition rule looks at the whole password: "aaa" is caught, "aaab" is not. */
  lemma RepetitionIsWholeString()
    ensures AllRepeated("aaa")
    ensures !AllRepeated("aaab")
  {
    assert "aaab"[3] != "aaab"[0];
  }

  /** The tip criteria, in the order the tips are appended. */
  datatype Criterion = MinLength | Class(k: CharClass)

  function Rank(c: Criterion): nat {
    match c
    case MinLength => 0
    case Class(Upper) => 1
    case Class(LowerCase) => 2
    case Class(Digit) => 3
    case Class(Symbol) => 4
  }

  const Criteria: seq<Criterion> := [MinLength, Class(Upper), Class(LowerCase), Class(Digit), Class(Symbol)]

  predicate Meets(s: string, c: Criterion) {
    match c
    case MinLength => |s| >= 8
    case Class(k) => Has(s, k)
  }

  predicate RankIncreasing(cs: seq<Criterion>) {
    forall i, j :: 0 <= i < j < |cs| ==> Rank(cs[i]) < Rank(cs[j])
  }

  /** The criteria of `cs` that `s` does not meet, in the order of `cs`. */
  function Unmet(s: string, cs: seq<Criterion>): (r: seq<Criterion>)
    ensures forall c :: c in r <==> c in cs && !Meets(s, c)
    ensures RankIncreasing(cs) ==> RankIncreasing(r)
  {
    if cs == [] then []
    else
      var rest := Unmet(s, cs[1..]);
      if Meets(s, cs[0]) then rest
      else
        FirstRankSmallest(cs, rest);
        [cs[0]] + rest
  }

  lemma FirstRankSmallest(cs: seq<Criterion>, rest: seq<Criterion>)
    requires cs != [] && forall c :: c in rest ==> c in cs[1..]
    ensures RankIncreasing(cs) && RankIncreasing(rest) ==> RankIncreasing([cs[0]] + rest)
  {
    if RankIncreasing(cs) && RankIncreasing(rest) {
      forall j | 0 <= j < |rest| ensures Rank(cs[0]) < Rank(rest[j]) {
        assert rest[j] in cs[1..];
        var q :| 0 <= q < |cs[1..]| && cs[1..][q] == rest[j];
        assert cs[q + 1] == rest[j];
      }
    }
  }

  function Tip(c: Criterion): string {
    match c
    case MinLength => "\U{2022} Aumente para pelo menos 8 caracteres\n"
    case Class(Upper) => "\U{2022} Adicione letras MAI\U{00DA}SCULAS\n"
    case Class(LowerCase) => "\U{2022} Adicione letras min\U{00FA}sculas\n"
    case Class(Digit) => "\U{2022} Adicione N\U{00DA}MEROS\n"
    case Class(Symbol) => "\U{2022} Adicione S\U{00CD}MBOLOS especiais (!@#$%)\n"
  }

  function Lines(cs: seq<Criterion>): (r: string)
    ensures cs != [] ==> |r| > 0 && r[0] == '\U{2022}'
  {
    if cs == [] then [] else Tip(cs[0]) + Lines(cs[1..])
  }

  const StrongMessage: string := "\U{2705} Senha forte!"

  /**
   * `getTips`: one line per unmet criterion in fixed order, or the strong-password
   * message when every criterion is met.
   */
  function GetTips(s: string): (r: string)
    ensures r == StrongMessage <==> |s| >= 8 && forall k :: Has(s, k)
    ensures r != StrongMessage ==> r == Lines(Unmet(s, Criteria))
  {
    var m := Unmet(s, Criteria);
    AllCriteriaMet(s, m);
    if m == [] then StrongMessage else Lines(m)
  }

  lemma AllCriteriaMet(s: string, m: seq<Criterion>)
    requires forall c :: c in m <==> c in Criteria && !Meets(s, c)
    ensures m == [] <==> |s| >= 8 && forall k :: Has(s, k)
  {
    if m == [] {
      forall i | 0 <= i < |Criteria| ensures Meets(s, Criteria[i]) {
        assert Criteria[i] in Criteria;
      }
      forall k: CharClass ensures Has(s, k) {
        match k
        case Upper => assert Meets(s, Criteria[1]);
        case LowerCase => assert Meets(s, Criteria[2]);
        case Digit => assert Meets(s, Criteria[3]);
        case Symbol => assert Meets(s, Criteria[4]);
      }
      assert Meets(s, Criteria[0]);
    } else {
      assert m[0] in m;
      match m[0]
      case MinLength =>
      case Class(k) => assert !Has(s, k);
    }
  }

  lemma CriteriaOrdered()
    ensures RankIncreasing(Criteria)
  {
  }

  /** The tip lines come out in the fixed order of the checks. */
  lemma TipsInOrder(s: string)
    ensures RankIncreasing(Unmet(s, Criteria))
  {
    CriteriaOrdered();
  }

  /** A password the tips call strong scores at least three, so it is never classified weak. */
  lemma StrongTipsNeverWeak(s: string)
    requires GetTips(s) == StrongMessage
    ensures Validate(Some(s)) != Fraca
  {
    assert Has(s, Upper) && Has(s, LowerCase) && Has(s, Digit) && Has(s, Symbol);
  }
}

=== FILE: seqs.dfy ===
/**
 * Order-preserving filtering, the shape shared by the programs' list views and
 * searches (`filter` in JavaScript, a loop that collects matches in Java).
 */
module Seqs {
  import opened Wrappers

  /** The position of the first element that satisfies `p`, if any does. */
  function FindFirst<T>(p: T -> bool, xs: seq<T>): (r: Option<nat>)
    ensures r.None? <==> forall k :: 0 <= k < |xs| ==> !p(xs[k])
    ensures r.Some? ==> r.value < |xs| && p(xs[r.value])
    ensures r.Some? ==> forall k :: 0 <= k < r.value ==> !p(xs[k])
  {
    if xs == [] then None
    else if p(xs[0]) then Some(0)
    else
      match FindFirst(p, xs[1..])
      case None => None
      case Some(k) => Some(k + 1)
  }

  /** The position of the first occurrence of `x`. */
  function IndexOf<T(==)>(s: seq<T>, x: T): (i: nat)
    requires x in s
    ensures i < |s| && s[i] == x && x !in s[..i]
  {
    if s[0] == x then 0 else 1 + IndexOf(s[1..], x)
  }

  /** Where each of four joined pieces sits in the whole. */
  lemma FourBlocks<T>(a: seq<T>, b: seq<T>, c: seq<T>, d: seq<T>)
    ensures var r := a + b + c + d;
            && r[..|a|] == a && r[|a|..|a| + |b|] == b
            && r[|a| + |b|..|a| + |b| + |c|] == c && r[|a| + |b| + |c|..] == d
  {
    var r := a + b + c + d;
    assert r[..|a|] == a;
    assert r[|a|..|a| + |b|] == b;
    assert r[|a| + |b|..|a| + |b| + |c|] == c;
    assert r[|a| + |b| + |c|..] == d;
  }

  /** Cutting `s` after `k` elements is the head, then the first `k - 1` of the tail. */
  lemma SplitAfterHead<T>(s: seq<T>, k: nat, x: seq<T>)
    requires 0 < k <= |s|
    ensures s[1..][k - 1..] == s[k..]
    ensures s[..k] + x == [s[0]] + (s[1..][..k - 1] + x)
  {
    assert s[..k] == [s[0]] + s[1..][..k - 1];
  }

  function Filter<T(==,!new)>(p: T -> bool, xs: seq<T>): (r: seq<T>)
    ensures |r| <= |xs|
  {
    if xs == [] then [] else (if p(xs[0]) then [xs[0]] else []) + Filter(p, xs[1..])
  }

  /** What the filter keeps: exactly the elements that pass. */
  lemma {:induction false} FilterMembers<T(!new)>(p: T -> bool, xs: seq<T>)
    ensures forall x :: x in Filter(p, xs) <==> x in xs && p(x)
  {
    if xs != [] {
      FilterMembers(p, xs[1..]);
      assert xs == [xs[0]] + xs[1..];
    }
  }

  /** Filtering a concatenation filters each part: the input order is kept. */
  lemma {:induction false} FilterAppend<T(!new)>(p: T -> bool, a: seq<T>, b: seq<T>)
    ensures Filter(p, a + b) == Filter(p, a) + Filter(p, b)
  {
    if a == [] {
      assert a + b == b;
    } else {
      var head := if p(a[0]) then [a[0]] else [];
      assert (a + b)[0] == a[0] && (a + b)[1..] == a[1..] + b;
      assert Filter(p, a + b) == head + Filter(p, a[1..] + b);
      FilterAppend(p, a[1..], b);
      assert Filter(p, a) == head + Filter(p, a[1..]);
    }
  }

  /** On one element the filter keeps it exactly when it passes. */
  lemma FilterOne<T(!new)>(p: T -> bool, x: T)
    ensures Filter(p, [x]) == if p(x) then [x] else []
  {
    assert [x][1..] == [];
  }

  /** Filtering twice keeps what passes both tests, in the same order. */
  lemma {:induction false} FilterFilter<T(!new)>(p: T -> bool, q: T -> bool, both: T -> bool, xs: seq<T>)
    requires forall x :: both(x) == (p(x) && q(x))
    ensures Filter(q, Filter(p, xs)) == Filter(both, xs)
  {
    if xs != [] {
      var x, rest := xs[0], xs[1..];
      var head := if p(x) then [x] else [];
      assert Filter(p, xs) == head + Filter(p, rest);
      FilterAppend(q, head, Filter(p, rest));
      FilterFilter(p, q, both, rest);
      if p(x) {
        FilterOne(q, x);
      }
    }
  }

  /** A filter every element passes changes nothing. */
  lemma {:induction false} FilterAll<T(!new)>(p: T -> bool, xs: seq<T>)
    requires forall i :: 0 <= i < |xs| ==> p(xs[i])
    ensures Filter(p, xs) == xs
  {
    if xs != [] {
      FilterAll(p, xs[1..]);
    }
  }

  /** A filter no element passes leaves nothing. */
  lemma FilterNone<T(!new)>(p: T -> bool, xs: seq<T>)
    requires forall i :: 0 <= i < |xs| ==> !p(xs[i])
    ensures Filter(p, xs) == []
  {
    FilterMembers(p, xs);
  }

  /** A filter and its complement `q` split the list: together they hold every element once. */
  lemma {:induction false} FilterPartition<T(!new)>(p: T -> bool, q: T -> bool, xs: seq<T>)
    requires forall x :: q(x) <==> !p(x)
    ensures multiset(Filter(p, xs)) + multiset(Filter(q, xs)) == multiset(xs)
    ensures |Filter(p, xs)| + |Filter(q, xs)| == |xs|
  {
    if xs != [] {
      FilterPartition(p, q, xs[1..]);
      assert xs == [xs[0]] + xs[1..];
    }
  }

  /** A stricter filter keeps no more elements. */
  lemma {:induction false} FilterStricter<T(!new)>(p: T -> bool, q: T -> bool, xs: seq<T>)
    requires forall x :: p(x) ==> q(x)
    ensures |Filter(p, xs)| <= |Filter(q, xs)|
  {
    if xs != [] {
      FilterStricter(p, q, xs[1..]);
    }
  }

  /** Between elements that all pass, the one element that fails is dropped. */
  lemma FilterDropsOne<T(!new)>(p: T -> bool, a: seq<T>, x: T, b: seq<T>)
    requires forall i :: 0 <= i < |a| ==> p(a[i])
    requires forall i :: 0 <= i < |b| ==> p(b[i])
    requires !p(x)
    ensures Filter(p, a + [x] + b) == a + b
  {
    FilterAppend(p, a + [x], b);
    FilterAppend(p, a, [x]);
    FilterAll(p, a);
    FilterAll(p, b);
    assert [x][1..] == [];
    assert Filter(p, [x]) == [];
    assert Filter(p, a + [x]) == a;
  }

  predicate IncreasingBy<T>(key: T -> int, xs: seq<T>) {
    forall i, j :: 0 <= i < j < |xs| ==> key(xs[i]) < key(xs[j])
  }

  /** What is kept stays in the same relative order. */
  lemma {:induction false} FilterIncreasing<T(!new)>(p: T -> bool, key: T -> int, xs: seq<T>)
    requires IncreasingBy(key, xs)
    ensures IncreasingBy(key, Filter(p, xs))
  {
    if xs != [] {
      FilterIncreasing(p, key, xs[1..]);
      var rest := Filter(p, xs[1..]);
      FilterMembers(p, xs[1..]);
      forall j | 0 <= j < |rest| ensures key(xs[0]) < key(rest[j]) {
        assert rest[j] in xs[1..];
        var q :| 0 <= q < |xs| - 1 && xs[1..][q] == rest[j];
        assert xs[q + 1] == rest[j];
      }
    }
  }
}

=== FILE: sorting.dfy ===
/**
 * A stable sort by an integer key, the shape of JavaScript's `Array.prototype.sort`
 * with a numeric comparator (stable since ES2019) and of the log analyzer's
 * descending sort by count. Elements with equal keys keep their input order.
 */
module Sorting {
  import opened Seqs

  predicate SortedBy<T>(key: T -> int, xs: seq<T>) {
    forall i, j :: 0 <= i < j < |xs| ==> key(xs[i]) <= key(xs[j])
  }

  /** No two elements agree on `g`. */
  predicate DistinctBy<T, K(==)>(g: T -> K, xs: seq<T>) {
    forall i, j :: 0 <= i < j < |xs| ==> g(xs[i]) != g(xs[j])
  }

  /** Where `x` goes in a sorted list: before the first element whose key is not smaller. */
  function InsertionPoint<T>(key: T -> int, x: T, t: seq<T>): (p: nat)
    ensures p <= |t|
    ensures forall i :: 0 <= i < p ==> key(t[i]) < key(x)
    ensures p < |t| ==> key(x) <= key(t[p])
  {
    if t == [] || key(x) <= key(t[0]) then 0 else 1 + InsertionPoint(key, x, t[1..])
  }

  /** `r` is `t` with `x` placed at position `p`. */
  ghost predicate Spliced<T>(x: T, t: seq<T>, p: nat, r: seq<T>) {
    p <= |t| && |r| == |t| + 1 && r[p] == x
    && (forall i :: 0 <= i < p ==> r[i] == t[i])
    && (forall i :: p < i <= |t| ==> r[i] == t[i - 1])
  }

  lemma SpliceElements<T>(x: T, t: seq<T>, p: nat)
    requires p <= |t|
    ensures Spliced(x, t, p, t[..p] + [x] + t[p..])
  {
    var r := t[..p] + [x] + t[p..];
    forall i | 0 <= i < p ensures r[i] == t[i] {
    }
    forall i | p < i <= |t| ensures r[i] == t[i - 1] {
    }
  }

  lemma SpliceOrder<T>(key: T -> int, x: T, t: seq<T>, p: nat, r: seq<T>)
    requires SortedBy(key, t) && p <= |t|
    requires forall i :: 0 <= i < p ==> key(t[i]) < key(x)
    requires p < |t| ==> key(x) <= key(t[p])
    requires Spliced(x, t, p, r)
    ensures SortedBy(key, r)
  {
    forall i, j | 0 <= i < j < |r|
      ensures key(r[i]) <= key(r[j])
    {
      if j < p {
        assert r[i] == t[i] && r[j] == t[j];
      } else if j == p {
        assert r[i] == t[i] && r[j] == x;
      } else if i < p {
        assert r[i] == t[i] && r[j] == t[j - 1];
      } else if i == p {
        assert r[i] == x && r[j] == t[j - 1];
        assert key(t[p]) <= key(t[j - 1]) || j - 1 == p;
      } else {
        assert r[i] == t[i - 1] && r[j] == t[j - 1];
      }
    }
  }

  lemma SpliceDistinct<T, K>(g: T -> K, x: T, t: seq<T>, p: nat, r: seq<T>)
    requires DistinctBy(g, t) && (forall i :: 0 <= i < |t| ==> g(t[i]) != g(x))
    requires Spliced(x, t, p, r)
    ensures DistinctBy(g, r)
  {
    forall i, j | 0 <= i < j < |r|
      ensures g(r[i]) != g(r[j])
    {
      if i == p {
        assert r[j] == t[j - 1];
      } else if j == p {
        assert r[i] == t[i];
      } else if j < p {
        assert r[i] == t[i] && r[j] == t[j];
      } else if i < p {
        assert r[i] == t[i] && r[j] == t[j - 1];
      } else {
        assert r[i] == t[i - 1] && r[j] == t[j - 1];
      }
    }
  }

  /** `x` inserted into a sorted list, ahead of the elements with the same key. */
  function Insert<T>(key: T -> int, x: T, t: seq<T>): (r: seq<T>)
    requires SortedBy(key, t)
    ensures SortedBy(key, r)
    ensures multiset(r) == multiset(t) + multiset{x}
    ensures Spliced(x, t, InsertionPoint(key, x, t), r)
  {
    var p := InsertionPoint(key, x, t);
    SpliceElements(x, t, p);
    SpliceOrder(key, x, t, p, t[..p] + [x] + t[p..]);
    assert t == t[..p] + t[p..];
    t[..p] + [x] + t[p..]
  }

  /** Insertion sort, taking the input from the back: ascending by `key`, ties in input order. */
  function SortBy<T>(key: T -> int, xs: seq<T>): (r: seq<T>)
    ensures SortedBy(key, r)
    ensures multiset(r) == multiset(xs)
    ensures |r| == |xs|
  {
    if xs == [] then []
    else
      assert xs == [xs[0]] + xs[1..];
      Insert(key, xs[0], SortBy(key, xs[1..]))
  }

  /** Sorting keeps elements distinct on any field on which they were distinct. */
  lemma {:induction false} SortByDistinct<T, K>(key: T -> int, g: T -> K, xs: seq<T>)
    requires DistinctBy(g, xs)
    ensures DistinctBy(g, SortBy(key, xs))
  {
    if xs != [] {
      var rest := SortBy(key, xs[1..]);
      SortByDistinct(key, g, xs[1..]);
      forall i | 0 <= i < |rest| ensures g(rest[i]) != g(xs[0]) {
        assert rest[i] in multiset(xs[1..]);
        var k :| 0 <= k < |xs[1..]| && xs[1..][k] == rest[i];
        assert xs[k + 1] == rest[i];
      }
      SpliceDistinct(g, xs[0], rest, InsertionPoint(key, xs[0], rest), SortBy(key, xs));
    }
  }

  /** The test "has key `k`". */
  function KeyIs<T>(key: T -> int, k: int): T -> bool {
    y => key(y) == k
  }

  /** Inserting `x` puts it ahead of every element with its key, and nothing else moves. */
  lemma InsertStable<T(!new)>(key: T -> int, x: T, t: seq<T>, k: int)
    requires SortedBy(key, t)
    ensures Filter(KeyIs(key, k), Insert(key, x, t)) == Filter(KeyIs(key, k), [x] + t)
  {
    var at := InsertionPoint(key, x, t);
    InsertSplits(key, x, t);
    SmallerKeysFirst(key, x, t, k);
    MoveToFront(KeyIs(key, k), t[..at], x, t[at..]);
  }

  lemma InsertSplits<T>(key: T -> int, x: T, t: seq<T>)
    requires SortedBy(key, t)
    ensures Insert(key, x, t) == t[..InsertionPoint(key, x, t)] + [x] + t[InsertionPoint(key, x, t)..]
    ensures t[..InsertionPoint(key, x, t)] + t[InsertionPoint(key, x, t)..] == t
  {
    var at := InsertionPoint(key, x, t);
    SplitRejoins(t, at);
  }

  lemma SplitRejoins<T>(t: seq<T>, at: nat)
    requires at <= |t|
    ensures t[..at] + t[at..] == t
  {
  }

  /** Everything ahead of the insertion point has a smaller key than `x`, so none shares its key. */
  lemma SmallerKeysFirst<T(!new)>(key: T -> int, x: T, t: seq<T>, k: int)
    ensures key(x) == k ==> Filter(KeyIs(key, k), t[..InsertionPoint(key, x, t)]) == []
  {
    var a := t[..InsertionPoint(key, x, t)];
    if key(x) == k {
      assert forall i :: 0 <= i < |a| ==> !KeyIs(key, k)(a[i]);
      FilterNone(KeyIs(key, k), a);
    }
  }

  /** Moving `x` to the front changes no filter result when nothing before it passes the filter together with `x`. */
  lemma MoveToFront<T(!new)>(p: T -> bool, a: seq<T>, x: T, b: seq<T>)
    requires p(x) ==> Filter(p, a) == []
    ensures Filter(p, a + [x] + b) == Filter(p, [x] + (a + b))
  {
    var fa, fx, fb := Filter(p, a), Filter(p, [x]), Filter(p, b);
    FilterAppend(p, a + [x], b);
    FilterAppend(p, a, [x]);
    FilterAppend(p, [x], a + b);
    FilterAppend(p, a, b);
    assert Filter(p, a + [x] + b) == (fa + fx) + fb;
    assert Filter(p, [x] + (a + b)) == fx + (fa + fb);
    if p(x) {
      assert fa + fx == fx;
      assert fa + fb == fb;
    } else {
      FilterOne(p, x);
      assert fa + fx == fa;
      assert fx + (fa + fb) == fa + fb;
    }
  }

  /** Stability: the elements with any one key appear in the same order as in the input. */
  lemma {:induction false} SortByStable<T(!new)>(key: T -> int, xs: seq<T>, k: int)
    ensures Filter(KeyIs(key, k), SortBy(key, xs)) == Filter(KeyIs(key, k), xs)
  {
    var p := KeyIs(key, k);
    if xs != [] {
      var rest := SortBy(key, xs[1..]);
      SortByStable(key, xs[1..], k);
      InsertStable(key, xs[0], rest, k);
      FilterAppend(p, [xs[0]], rest);
      FilterAppend(p, [xs[0]], xs[1..]);
      assert xs == [xs[0]] + xs[1..];
    }
  }
}

=== FILE: task_manager.dfy ===
/**
 * The task manager with role-based access: a fixed user table, the task list, the
 * user who is logged in, and the counter that gives new tasks their ids. Every
 * operation takes what the user typed (`None` where an id was not a number) and
 * returns the new state with the outcome the console would report.
 */
module TaskManager {
  import opened Wrappers
  import opened Text
  import opened Seqs
  import opened TaskUser
  import opened TaskRecord

  /** The users the manager is created with. */
  const SeedUsers: seq<User> := [
    User(1, "Admin Silva", Some("ADMIN")),
    User(2, "User Junior", Some("USER")),
    User(3, "User Ana", Some("USER"))
  ]

  datatype State = State(users: seq<User>, tasks: seq<Task>, current: User, counter: int)

  /** What the console reports after an operation. */
  datatype Outcome = Done | Denied | NotFound | NoSuchUser | InvalidInput

  datatype Step = Step(state: State, outcome: Outcome)

  /** `userExists`: some user has this id. */
  function UserExists(users: seq<User>, id: int): (b: bool)
    ensures b <==> exists u :: u in users && u.id == id
  {
    if users == [] then false
    else
      assert users == [users[0]] + users[1..];
      users[0].id == id || UserExists(users[1..], id)
  }

  /** `findTask`: the position of the first task with this id. */
  function FindTask(tasks: seq<Task>, id: int): (r: Option<nat>)
    ensures r.None? <==> forall k :: 0 <= k < |tasks| ==> tasks[k].id != id
    ensures r.Some? ==> r.value < |tasks| && tasks[r.value].id == id
    ensures r.Some? ==> forall k :: 0 <= k < r.value ==> tasks[k].id != id
  {
    FindFirst((t: Task) => t.id == id, tasks)
  }

  /**
   * The state invariant: the counter is positive, the logged-in user is in the
   * table, ids are positive, below the counter and strictly increasing in list
   * order (hence unique), and every task is assigned to an existing user.
   */
  ghost predicate Valid(st: State) {
    && st.counter >= 1
    && st.current in st.users
    && (forall i :: 0 <= i < |st.tasks| ==> 1 <= st.tasks[i].id < st.counter)
    && (forall i, j :: 0 <= i < j < |st.tasks| ==> st.tasks[i].id < st.tasks[j].id)
    && (forall i :: 0 <= i < |st.tasks| ==> UserExists(st.users, st.tasks[i].assignedTo))
  }

  /** `selectUser`: the user numbered `choice` from 1; `None` means the prompt is shown again. */
  function SelectUser(users: seq<User>, choice: Option<int>): (r: Option<User>)
    ensures r.Some? <==> choice.Some? && 1 <= choice.value <= |users|
    ensures r.Some? ==> r.value == users[choice.value - 1]
  {
    if choice.Some? && 1 <= choice.value <= |users| then Some(users[choice.value - 1]) else None
  }

  /** The constructor followed by `selectUser`: no tasks, counter 1, the seeded users. */
  function Start(choice: Option<int>): (r: Option<State>)
    ensures r.Some? <==> choice.Some? && 1 <= choice.value <= 3
    ensures r.Some? ==> Valid(r.value) && r.value.tasks == [] && r.value.counter == 1
    ensures r.Some? ==> r.value.users == SeedUsers && r.value.current == SeedUsers[choice.value - 1]
  {
    match SelectUser(SeedUsers, choice)
    case None => None
    case Some(u) => Some(State(SeedUsers, [], u, 1))
  }

  /** The frame every operation keeps: the user table and the logged-in user. */
  predicate SameSession(st: State, st': State) {
    st'.users == st.users && st'.current == st.current
  }

  /**
   * `createTask`: admins only; the assignee id must be a number naming an existing
   * user. The task takes the counter as its id and the counter moves on by one.
   */
  function CreateTask(st: State, title: string, description: string, userId: Option<int>): (r: Step)
    ensures !IsAdmin(st.current) ==> r == Step(st, Denied)
    ensures IsAdmin(st.current) && userId.None? ==> r == Step(st, InvalidInput)
    ensures IsAdmin(st.current) && userId.Some? && !UserExists(st.users, userId.value) ==> r == Step(st, NoSuchUser)
    ensures r.outcome == Done <==> IsAdmin(st.current) && userId.Some? && UserExists(st.users, userId.value)
    ensures r.outcome == Done ==>
              && r.state.tasks == st.tasks + [NewTask(st.counter, title, description, userId.value)]
              && r.state.counter == st.counter + 1
    ensures SameSession(st, r.state)
    ensures Valid(st) ==> Valid(r.state)
  {
    if !IsAdmin(st.current) then Step(st, Denied)
    else if userId.None? then Step(st, InvalidInput)
    else if !UserExists(st.users, userId.value) then Step(st, NoSuchUser)
    else
      var t := NewTask(st.counter, title, description, userId.value);
      Step(st.(tasks := st.tasks + [t], counter := st.counter + 1), Done)
  }

  /** `viewAllTasks`: every task, in list order, for admins only. */
  function ViewAllTasks(st: State): (r: Option<seq<Task>>)
    ensures r.Some? <==> IsAdmin(st.current)
    ensures r.Some? ==> r.value == st.tasks
  {
    if IsAdmin(st.current) then Some(st.tasks) else None
  }

  /** `viewMyTasks`: the tasks assigned to the logged-in user, for any role. */
  function ViewMyTasks(st: State): (r: seq<Task>)
    ensures |r| <= |st.tasks|
    ensures forall t :: t in r <==> t in st.tasks && t.assignedTo == st.current.id
  {
    var mine := (t: Task) => t.assignedTo == st.current.id;
    FilterMembers(mine, st.tasks);
    Filter(mine, st.tasks)
  }

  /** The "my tasks" view keeps the list order: its ids are increasing too. */
  lemma MyTasksInIdOrder(st: State)
    requires Valid(st)
    ensures IncreasingBy((t: Task) => t.id, ViewMyTasks(st))
  {
    var mine := (t: Task) => t.assignedTo == st.current.id;
    FilterIncreasing(mine, (t: Task) => t.id, st.tasks);
  }

  /** Only task `i` may differ, and only in the fields that have setters. */
  ghost predicate ChangedOnly(tasks: seq<Task>, tasks': seq<Task>, i: nat) {
    && i < |tasks| && |tasks'| == |tasks|
    && Fixed(tasks'[i]) == Fixed(tasks[i])
    && (forall j :: 0 <= j < |tasks| && j != i ==> tasks'[j] == tasks[j])
  }

  /** `editTask`: admins only; sets status and then priority of the task with this id. */
  function EditTask(st: State, taskId: Option<int>, status: string, priority: string): (r: Step)
    ensures !IsAdmin(st.current) ==> r == Step(st, Denied)
    ensures IsAdmin(st.current) && taskId.None? ==> r == Step(st, InvalidInput)
    ensures r.outcome == NotFound <==>
              IsAdmin(st.current) && taskId.Some? && FindTask(st.tasks, taskId.value).None?
    ensures r.outcome == NotFound ==> r.state == st
    ensures r.outcome == Done <==>
              IsAdmin(st.current) && taskId.Some? && FindTask(st.tasks, taskId.value).Some?
    ensures r.outcome == Done ==>
              && r.state.counter == st.counter
              && ChangedOnly(st.tasks, r.state.tasks, FindTask(st.tasks, taskId.value).value)
              && r.state.tasks[FindTask(st.tasks, taskId.value).value].status == status
              && r.state.tasks[FindTask(st.tasks, taskId.value).value].priority == priority
    ensures SameSession(st, r.state)
    ensures Valid(st) ==> Valid(r.state)
  {
    if !IsAdmin(st.current) then Step(st, Denied)
    else if taskId.None? then Step(st, InvalidInput)
    else
      match FindTask(st.tasks, taskId.value)
      case None => Step(st, NotFound)
      case Some(i) =>
        var t := Apply(Apply(st.tasks[i], SetStatus(status)), SetPriority(priority));
        Step(st.(tasks := st.tasks[i := t]), Done)
  }

  /**
   * `updateTaskStatus`: open to every role, but only for a task assigned to the
   * logged-in user; an unknown id is refused the same way as someone else's task.
   */
  function UpdateTaskStatus(st: State, taskId: Option<int>, status: string): (r: Step)
    ensures taskId.None? ==> r == Step(st, InvalidInput)
    ensures r.outcome == Done <==>
              && taskId.Some?
              && FindTask(st.tasks, taskId.value).Some?
              && st.tasks[FindTask(st.tasks, taskId.value).value].assignedTo == st.current.id
    ensures r.outcome != Done ==> r.state == st
    ensures r.outcome == Done ==>
              && r.state.counter == st.counter
              && ChangedOnly(st.tasks, r.state.tasks, FindTask(st.tasks, taskId.value).value)
              && r.state.tasks[FindTask(st.tasks, taskId.value).value].status == status
              && r.state.tasks[FindTask(st.tasks, taskId.value).value].priority
                 == st.tasks[FindTask(st.tasks, taskId.value).value].priority
    ensures SameSession(st, r.state)
    ensures Valid(st) ==> Valid(r.state)
  {
    if taskId.None? then Step(st, InvalidInput)
    else
      match FindTask(st.tasks, taskId.value)
      case None => Step(st, Denied)
      case Some(i) =>
        if st.tasks[i].assignedTo != st.current.id then Step(st, Denied)
        else
          var t := Apply(st.tasks[i], SetStatus(status));
          Step(st.(tasks := st.tasks[i := t]), Done)
  }

  /** `deleteTask`: admins only; removes the task found for this id. */
  function DeleteTask(st: State, taskId: Option<int>): (r: Step)
    ensures !IsAdmin(st.current) ==> r == Step(st, Denied)
    ensures IsAdmin(st.current) && taskId.None? ==> r == Step(st, InvalidInput)
    ensures r.outcome == NotFound <==>
              IsAdmin(st.current) && taskId.Some? && FindTask(st.tasks, taskId.value).None?
    ensures r.outcome != Done ==> r.state == st
    ensures r.outcome == Done ==> taskId.Some? && FindTask(st.tasks, taskId.value).Some?
    ensures r.outcome == Done ==>
              var i := FindTask(st.tasks, taskId.value).value;
              r.state.tasks == st.tasks[..i] + st.tasks[i + 1..] && r.state.counter == st.counter
    ensures SameSession(st, r.state)
    ensures Valid(st) ==> Valid(r.state)
  {
    if !IsAdmin(st.current) then Step(st, Denied)
    else if taskId.None? then Step(st, InvalidInput)
    else
      match FindTask(st.tasks, taskId.value)
      case None => Step(st, NotFound)
      case Some(i) =>
        var rest := st.tasks[..i] + st.tasks[i + 1..];
        assert forall k :: 0 <= k < |rest| ==> rest[k] == st.tasks[if k < i then k else k + 1];
        Step(st.(tasks := rest), Done)
  }

  /** Ids being unique, deleting removes exactly the tasks with that id and keeps the rest in order. */
  lemma DeleteRemovesExactlyThatId(st: State, id: int)
    requires Valid(st) && IsAdmin(st.current)
    ensures DeleteTask(st, Some(id)).state.tasks == Filter((t: Task) => t.id != id, st.tasks)
  {
    var keep := (t: Task) => t.id != id;
    match FindTask(st.tasks, id)
    case None =>
      FilterAll(keep, st.tasks);
    case Some(i) =>
      var a, b := st.tasks[..i], st.tasks[i + 1..];
      assert st.tasks == a + [st.tasks[i]] + b;
      assert forall k :: 0 <= k < |b| ==> b[k] == st.tasks[i + 1 + k];
      FilterDropsOne(keep, a, st.tasks[i], b);
  }

  /**
   * `assignTask`: admins only; it looks up the task and the new assignee and
   * reports success, but never changes any task.
   */
  function AssignTask(st: State, taskId: Option<int>, userId: Option<int>): (r: Step)
    ensures r.state == st
    ensures !IsAdmin(st.current) ==> r.outcome == Denied
    ensures r.outcome == Done <==>
              && IsAdmin(st.current) && taskId.Some? && FindTask(st.tasks, taskId.value).Some?
              && userId.Some? && UserExists(st.users, userId.value)
  {
    if !IsAdmin(st.current) then Step(st, Denied)
    else if taskId.None? then Step(st, InvalidInput)
    else if FindTask(st.tasks, taskId.value).None? then Step(st, NotFound)
    else if userId.None? then Step(st, InvalidInput)
    else if !UserExists(st.users, userId.value) then Step(st, NoSuchUser)
    else Step(st, Done)
  }

  // ----- the menu -----

  datatype MenuItem = Create | ViewAll | Edit | Delete | Assign | ViewMine | UpdateStatus

  predicate AdminItem(m: MenuItem) {
    m.Create? || m.ViewAll? || m.Edit? || m.Delete? || m.Assign?
  }

  datatype Choice = Pick(item: MenuItem) | Quit | Invalid

  /** The menu text that ends the session for each role. */
  function ExitChoice(admin: bool): string {
    if admin then "6" else "3"
  }

  /** `handleMenuChoice` for the (trimmed) input: the admin and the user menus differ. */
  function HandleMenuChoice(admin: bool, choice: string): (c: Choice)
    ensures c == Quit <==> choice == ExitChoice(admin)
    ensures c.Pick? ==> AdminItem(c.item) == admin
  {
    if admin then
      match choice
      case "1" => Pick(Create)
      case "2" => Pick(ViewAll)
      case "3" => Pick(Edit)
      case "4" => Pick(Delete)
      case "5" => Pick(Assign)
      case "6" => Quit
      case _ => Invalid
    else
      match choice
      case "1" => Pick(ViewMine)
      case "2" => Pick(UpdateStatus)
      case "3" => Quit
      case _ => Invalid
  }

  /** The main loop keeps going for every line except the role's exit number, blanks aside. */
  lemma MenuStopsOnlyOnExit(admin: bool, line: string)
    ensures HandleMenuChoice(admin, Trim(Java, line)) != Quit <==> Trim(Java, line) != ExitChoice(admin)
  {
  }

  /** A menu action together with what the user types for it. */
  datatype Command =
    | CreateCmd(title: string, description: string, assignee: Option<int>)
    | ViewAllCmd
    | EditCmd(editId: Option<int>, newStatus: string, newPriority: string)
    | DeleteCmd(deleteId: Option<int>)
    | AssignCmd(assignId: Option<int>, newAssignee: Option<int>)
    | ViewMineCmd
    | UpdateStatusCmd(updateId: Option<int>, status: string)

  function Perform(st: State, c: Command): (r: Step)
    ensures SameSession(st, r.state)
    ensures Valid(st) ==> Valid(r.state)
    ensures c == ViewAllCmd ==> r.state == st && (r.outcome == Done <==> IsAdmin(st.current))
  {
    match c
    case CreateCmd(title, description, u) => CreateTask(st, title, description, u)
    case ViewAllCmd => Step(st, if ViewAllTasks(st).Some? then Done else Denied)
    case EditCmd(id, s, p) => EditTask(st, id, s, p)
    case DeleteCmd(id) => DeleteTask(st, id)
    case AssignCmd(id, u) => AssignTask(st, id, u)
    case ViewMineCmd => Step(st, Done)
    case UpdateStatusCmd(id, s) => UpdateTaskStatus(st, id, s)
  }

  /** The state after a session's commands, in order. */
  function Run(st: State, cs: seq<Command>): State
    decreases |cs|
  {
    if cs == [] then st else Run(Perform(st, cs[0]).state, cs[1..])
  }

  /** Every session keeps the invariant, so task ids stay unique and increasing. */
  lemma {:induction false} RunKeepsValid(st: State, cs: seq<Command>)
    requires Valid(st)
    ensures Valid(Run(st, cs))
    ensures SameSession(st, Run(st, cs))
    decreases |cs|
  {
    if cs != [] {
      RunKeepsValid(Perform(st, cs[0]).state, cs[1..]);
    }
  }

  /**
   * What a non-admin can do to the task list: nothing is added or removed, the
   * counter stays, priorities and fixed fields stay, and a status changes only on
   * a task assigned to that user.
   */
  ghost predicate UserBounded(st: State, st': State) {
    && st'.counter == st.counter
    && |st'.tasks| == |st.tasks|
    && forall i :: 0 <= i < |st.tasks| ==>
         && Fixed(st'.tasks[i]) == Fixed(st.tasks[i])
         && st'.tasks[i].priority == st.tasks[i].priority
         && (st'.tasks[i].status != st.tasks[i].status ==> st.tasks[i].assignedTo == st.current.id)
  }

  lemma UserCommandBounded(st: State, c: Command)
    requires !IsAdmin(st.current)
    ensures UserBounded(st, Perform(st, c).state)
  {
    if c.EditCmd? {
      assert Perform(st, c).state == st;
    }
  }

  /** A non-admin's whole session changes at most the status of that user's own tasks. */
  lemma {:induction false} UserSessionBounded(st: State, cs: seq<Command>)
    requires !IsAdmin(st.current)
    ensures UserBounded(st, Run(st, cs))
    decreases |cs|
  {
    if cs != [] {
      var next := Perform(st, cs[0]).state;
      UserCommandBounded(st, cs[0]);
      UserSessionBounded(next, cs[1..]);
    }
  }
}

=== FILE: task_record.dfy ===
/**
 * A task of the task manager. Id, title, description and assignee are fixed when
 * the task is built; status and priority have setters that accept any text.
 */
module TaskRecord {

  const InitialStatus: string := "TODO"
  const InitialPriority: string := "MEDIUM"

  datatype Task = Task(id: int, title: string, description: string, status: string,
                       assignedTo: int, priority: string)

  /** The constructor: a new task is `TODO` with priority `MEDIUM`. */
  function NewTask(id: int, title: string, description: string, assignedTo: int): (t: Task)
    ensures t.id == id && t.title == title && t.description == description && t.assignedTo == assignedTo
    ensures t.status == "TODO" && t.priority == "MEDIUM"
  {
    Task(id, title, description, InitialStatus, assignedTo, InitialPriority)
  }

  /** The two setters; the text is stored without any check against the known values. */
  datatype Change = SetStatus(status: string) | SetPriority(priority: string)

  function Apply(t: Task, c: Change): (r: Task)
    ensures c.SetStatus? ==> r.status == c.status && r.priority == t.priority
    ensures c.SetPriority? ==> r.priority == c.priority && r.status == t.status
    ensures Fixed(t) == Fixed(r)
  {
    match c
    case SetStatus(s) => t.(status := s)
    case SetPriority(p) => t.(priority := p)
  }

  /** The fields without a setter. */
  function Fixed(t: Task): (int, string, string, int) {
    (t.id, t.title, t.description, t.assignedTo)
  }

  function ApplyAll(t: Task, cs: seq<Change>): Task
    decreases |cs|
  {
    if cs == [] then t else ApplyAll(Apply(t, cs[0]), cs[1..])
  }

  /** No sequence of setter calls changes id, title, description or assignee. */
  lemma {:induction false} FixedFieldsNeverChange(t: Task, cs: seq<Change>)
    ensures Fixed(ApplyAll(t, cs)) == Fixed(t)
    decreases |cs|
  {
    if cs != [] {
      FixedFieldsNeverChange(Apply(t, cs[0]), cs[1..]);
    }
  }

  /** Whatever setter calls came before, the status is the one set last. */
  lemma {:induction false} LastStatusWins(t: Task, cs: seq<Change>, s: string)
    ensures ApplyAll(t, cs + [SetStatus(s)]).status == s
    decreases |cs|
  {
    if cs == [] {
    } else {
      assert (cs + [SetStatus(s)])[1..] == cs[1..] + [SetStatus(s)];
      LastStatusWins(Apply(t, cs[0]), cs[1..], s);
    }
  }

  /** Setting status and setting priority do not interfere. */
  lemma SettersCommute(t: Task, s: string, p: string)
    ensures Apply(Apply(t, SetStatus(s)), SetPriority(p)) == Apply(Apply(t, SetPriority(p)), SetStatus(s))
  {
  }
}

=== FILE: task_user.dfy ===
/**
 * A user of the task manager: id, name and role, fixed at construction. The role
 * is Java text that may be `null` (`None`); only the exact text `ADMIN` grants
 * the administrator's permissions.
 */
module TaskUser {
  import opened Wrappers

  const AdminRole: string := "ADMIN"

  datatype User = User(id: int, name: string, role: Option<string>)

  /** `isAdmin`: `"ADMIN".equals(role)`, which is false for a `null` role. */
  predicate IsAdmin(u: User) {
    u.role == Some(AdminRole)
  }

  /** The comparison is exact: another case, another role or no role is not admin. */
  lemma AdminIsExact(id: int, name: string, role: Option<string>)
    ensures IsAdmin(User(id, name, role)) <==> role.Some? && role.value == "ADMIN"
    ensures !IsAdmin(User(id, name, Some("admin")))
    ensures !IsAdmin(User(id, name, Some("USER")))
    ensures !IsAdmin(User(id, name, None))
  {
    assert "admin" != AdminRole by { assert "admin"[0] != AdminRole[0]; }
    assert "USER" != AdminRole by { assert "USER"[0] != AdminRole[0]; }
  }
}

=== FILE: text.dfy ===
/**
 * Character classes and string helpers shared by the Java and JavaScript programs.
 * A string is a sequence of characters; its length is the number of characters.
 */
module Text {
  import opened Seqs

  /** The two trimming conventions used by the programs. */
  datatype Flavour = Java | Js

  /** A character `String.trim` removes in Java: any code point up to U+0020. */
  predicate IsJavaBlank(c: char) {
    c <= ' '
  }

  /** A character matched by `\s` in a JavaScript regular expression (also what `trim` strips). */
  predicate IsJsSpace(c: char) {
    || c == '\t' || c == '\n' || c == '\U{000B}' || c == '\U{000C}' || c == '\r' || c == ' '
    || c == '\U{00A0}' || c == '\U{1680}' || ('\U{2000}' <= c <= '\U{200A}')
    || c == '\U{2028}' || c == '\U{2029}' || c == '\U{202F}' || c == '\U{205F}'
    || c == '\U{3000}' || c == '\U{FEFF}'
  }

  /** The characters a Java regular expression's `.` does not match. */
  predicate IsLineTerminator(c: char) {
    c == '\n' || c == '\r' || c == '\U{0085}' || c == '\U{2028}' || c == '\U{2029}'
  }

  predicate NoLineTerminator(s: string) {
    forall i :: 0 <= i < |s| ==> !IsLineTerminator(s[i])
  }

  predicate IsSpace(f: Flavour, c: char) {
    match f
    case Java => IsJavaBlank(c)
    case Js => IsJsSpace(c)
  }

  predicate AllSpace(f: Flavour, s: string) {
    forall i :: 0 <= i < |s| ==> IsSpace(f, s[i])
  }

  function TrimStart(f: Flavour, s: string): (r: string)
    ensures |r| <= |s| && r == s[|s| - |r|..]
    ensures AllSpace(f, s[..|s| - |r|])
    ensures |r| > 0 ==> !IsSpace(f, r[0])
  {
    if |s| > 0 && IsSpace(f, s[0]) then TrimStart(f, s[1..]) else s
  }

  function TrimEnd(f: Flavour, s: string): (r: string)
    ensures |r| <= |s| && r == s[..|r|]
    ensures AllSpace(f, s[|r|..])
    ensures |r| > 0 ==> !IsSpace(f, r[|r| - 1])
  {
    if |s| > 0 && IsSpace(f, s[|s| - 1]) then TrimEnd(f, s[..|s| - 1]) else s
  }

  /**
   * `trim` in the given flavour: the longest infix of `s` that neither starts
   * nor ends with a space; everything removed is space.
   */
  function Trim(f: Flavour, s: string): (r: string)
    ensures exists i :: SpaceAround(f, s, r, i)
    ensures |r| > 0 ==> !IsSpace(f, r[0]) && !IsSpace(f, r[|r| - 1])
    ensures r == [] <==> AllSpace(f, s)
  {
    var a := TrimStart(f, s);
    var r := TrimEnd(f, a);
    TrimParts(f, s, a, r);
    r
  }

  /** `r` occurs in `s` at `i` with nothing but space before and after it. */
  predicate SpaceAround(f: Flavour, s: string, r: string, i: int) {
    OccursAt(s, r, i) && AllSpace(f, s[..i]) && AllSpace(f, s[i + |r|..])
  }

  lemma TrimParts(f: Flavour, s: string, a: string, r: string)
    requires |a| <= |s| && a == s[|s| - |a|..] && AllSpace(f, s[..|s| - |a|])
    requires |r| <= |a| && r == a[..|r|] && AllSpace(f, a[|r|..])
    requires |a| > 0 ==> !IsSpace(f, a[0])
    ensures SpaceAround(f, s, r, |s| - |a|)
    ensures r == [] <==> AllSpace(f, s)
    ensures |r| > 0 ==> !IsSpace(f, r[0])
  {
    var i := |s| - |a|;
    assert r == s[i..i + |r|];
    assert s[i + |r|..] == a[|r|..];
    if r == [] && a == [] {
      assert s == s[..|s| - |a|];
    }
    if r != [] {
      assert !AllSpace(f, s) by {
        assert s[|s| - |a|] == a[0];
      }
    }
  }

  predicate IsUpper(c: char) { 'A' <= c <= 'Z' }
  predicate IsLower(c: char) { 'a' <= c <= 'z' }
  predicate IsDigit(c: char) { '0' <= c <= '9' }

  /**
   * The symbol class `[!@#$%^&*()_+\-=\[\]{};:'",.<>?/\\]` that both password
   * strength checks use.
   */
  const Symbols: string := "!@#$%^&*()_+-=[]{};:'\",.<>?/\\"

  /** The character groups the two password generators draw from. */
  const UpperLetters: string := "ABCDEFGHIJKLMNOPQRSTUVWXYZ"
  const LowerLetters: string := "abcdefghijklmnopqrstuvwxyz"
  const Digits: string := "0123456789"
  /** The JavaScript literal `'!@#$%^&*()_+-=[]{};\\\':",./<>?'`, unescaped. */
  const SymbolChars: string := "!@#$%^&*()_+-=[]{};\\':\",./<>?"

  /** ASCII lower-casing; other characters are kept as they are. */
  function LowerChar(c: char): (r: char)
    ensures !IsUpper(r)
    ensures !IsUpper(c) ==> r == c
  {
    if IsUpper(c) then (c as int + 32) as char else c
  }

  function Lower(s: string): (r: string)
    ensures |r| == |s|
    ensures forall i :: 0 <= i < |s| ==> r[i] == LowerChar(s[i])
  {
    if s == [] then [] else [LowerChar(s[0])] + Lower(s[1..])
  }

  /** `t` occurs in `s` starting at index `i`. */
  predicate OccursAt(s: string, t: string, i: int) {
    0 <= i && i + |t| <= |s| && s[i..i + |t|] == t
  }

  /** Java's `String.contains` and JavaScript's `String.prototype.includes`. */
  predicate Contains(s: string, t: string) {
    exists i :: 0 <= i <= |s| - |t| && OccursAt(s, t, i)
  }

  lemma ContainsEmpty(s: string)
    ensures Contains(s, "")
  {
    assert OccursAt(s, "", 0);
  }

  /** Every character of `s` occurs in `alphabet`. */
  predicate Over(s: string, alphabet: string) {
    forall i :: 0 <= i < |s| ==> s[i] in alphabet
  }

  /** No character occurs twice in `s`. */
  predicate Distinct(s: string) {
    forall i, j :: 0 <= i < j < |s| ==> s[i] != s[j]
  }

  /** The pieces of `s` between occurrences of `sep`, in order. */
  function Split(s: string, sep: char): (parts: seq<string>)
    ensures |parts| >= 1
    ensures forall i :: 0 <= i < |parts| ==> sep !in parts[i]
    decreases |s|
  {
    if sep !in s then [s]
    else
      var i := IndexOf(s, sep);
      [s[..i]] + Split(s[i + 1..], sep)
  }

  /** The pieces with `sep` between each two of them. */
  function Join(parts: seq<string>, sep: char): (s: string)
    requires |parts| >= 1
  {
    if |parts| == 1 then parts[0] else parts[0] + [sep] + Join(parts[1..], sep)
  }

  /** Pieces that do not contain the separator are recovered by splitting. */
  lemma {:induction false} SplitJoin(parts: seq<string>, sep: char)
    requires |parts| >= 1 && forall i :: 0 <= i < |parts| ==> sep !in parts[i]
    ensures Split(Join(parts, sep), sep) == parts
  {
    if |parts| > 1 {
      var s := Join(parts, sep);
      var p := parts[0];
      var rest := Join(parts[1..], sep);
      assert s[..|p|] == p && s[|p|] == sep && s[|p| + 1..] == rest;
      var i := IndexOf(s, sep);
      assert i == |p| by {
        assert s[i] !in s[..|p|] || i >= |p|;
        assert s[|p|] !in s[..i] || i <= |p|;
      }
      SplitJoin(parts[1..], sep);
    }
  }
}

=== FILE: todo_app.dfy ===
/**
 * The TODO list manager: adding, toggling, editing and deleting tasks, the list
 * filters and sort orders, the statistics panel, and the two clearing actions.
 * Clock readings, the `confirm`/`prompt` answers and the browser's HTML escaping
 * are parameters; timestamps are milliseconds, which is what the source compares
 * after parsing its ISO date strings.
 */
module TodoApp {
  import opened Wrappers
  import opened Text
  import opened Seqs
  import opened Sorting

  const MaxTextLength: nat := 200

  datatype Todo = Todo(id: int, text: string, completed: bool, priority: string, createdAt: int, updatedAt: int)

  predicate IsCompleted(t: Todo) {
    t.completed
  }

  predicate IsActive(t: Todo) {
    !t.completed
  }

  // ----- addTask -----

  datatype AddError = EmptyText | TooLong {
    function Message(): string {
      match this
      case EmptyText => "Por favor, digite uma tarefa."
      case TooLong => "Tarefa muito longa (máximo 200 caracteres)."
    }
  }

  datatype AddOutcome = AddOutcome(tasks: seq<Todo>, error: Option<AddError>)

  /**
   * `addTask`: the input is trimmed; empty text and text over 200 characters are
   * refused. Otherwise the escaped text is appended as an open task. `id`,
   * `created` and `updated` are the three clock readings the source makes.
   */
  function AddTask(tasks: seq<Todo>, input: string, priority: string, escape: string -> string,
                   id: int, created: int, updated: int): (r: AddOutcome)
    ensures r.error == Some(EmptyText) <==> AllSpace(Js, input)
    ensures r.error == Some(TooLong) <==> !AllSpace(Js, input) && |Trim(Js, input)| > MaxTextLength
    ensures r.error.Some? ==> r.tasks == tasks
    ensures r.error.None? ==>
              && |r.tasks| == |tasks| + 1 && r.tasks[..|tasks|] == tasks
              && r.tasks[|tasks|] == Todo(id, escape(Trim(Js, input)), false, priority, created, updated)
  {
    var text := Trim(Js, input);
    if text == [] then AddOutcome(tasks, Some(EmptyText))
    else if |text| > MaxTextLength then AddOutcome(tasks, Some(TooLong))
    else
      var t := Todo(id, escape(text), false, priority, created, updated);
      assert (tasks + [t])[..|tasks|] == tasks;
      AddOutcome(tasks + [t], None)
  }

  /** The position of the first task with this id (`Array.prototype.find`). */
  function Find(tasks: seq<Todo>, id: int): (r: Option<nat>)
    ensures r.None? <==> forall k :: 0 <= k < |tasks| ==> tasks[k].id != id
    ensures r.Some? ==> r.value < |tasks| && tasks[r.value].id == id
    ensures r.Some? ==> forall k :: 0 <= k < r.value ==> tasks[k].id != id
  {
    FindFirst((t: Todo) => t.id == id, tasks)
  }

  // ----- toggleTask -----

  /** `toggleTask`: the first task with this id flips `completed` and is stamped `now`. */
  function ToggleTask(tasks: seq<Todo>, id: int, now: int): (r: seq<Todo>)
    ensures |r| == |tasks|
    ensures Find(tasks, id).None? ==> r == tasks
    ensures Find(tasks, id).Some? ==>
              var i := Find(tasks, id).value;
              && r[i] == tasks[i].(completed := !tasks[i].completed, updatedAt := now)
              && forall j :: 0 <= j < |tasks| && j != i ==> r[j] == tasks[j]
  {
    match Find(tasks, id)
    case None => tasks
    case Some(i) => tasks[i := tasks[i].(completed := !tasks[i].completed, updatedAt := now)]
  }

  /** The task without its modification stamp. */
  function Content(t: Todo): Todo {
    t.(updatedAt := 0)
  }

  /** Toggling twice gives every task back, up to the modification stamp. */
  lemma ToggleTwice(tasks: seq<Todo>, id: int, now1: int, now2: int)
    ensures var r := ToggleTask(ToggleTask(tasks, id, now1), id, now2);
            |r| == |tasks| && forall j :: 0 <= j < |tasks| ==> Content(r[j]) == Content(tasks[j])
  {
    var once := ToggleTask(tasks, id, now1);
    if Find(tasks, id).Some? {
      var i := Find(tasks, id).value;
      assert forall k :: 0 <= k < i ==> once[k].id != id;
      assert Find(once, id) == Some(i);
    }
  }

  // ----- deleteTask, editTask -----

  /** `deleteTask`: when confirmed, every task with this id goes; the rest keep their order. */
  function DeleteTask(tasks: seq<Todo>, id: int, confirmed: bool): (r: seq<Todo>)
    ensures !confirmed ==> r == tasks
    ensures confirmed ==> forall t :: t in r <==> t in tasks && t.id != id
    ensures |r| <= |tasks|
  {
    if confirmed then
      FilterMembers((t: Todo) => t.id != id, tasks);
      Filter((t: Todo) => t.id != id, tasks)
    else tasks
  }

  /** Deleting an id no task has changes nothing. */
  lemma DeleteUnknownId(tasks: seq<Todo>, id: int)
    requires forall k :: 0 <= k < |tasks| ==> tasks[k].id != id
    ensures DeleteTask(tasks, id, true) == tasks
  {
    FilterAll((t: Todo) => t.id != id, tasks);
  }

  /** Deleting from a longer list deletes from each part: the survivors keep their order. */
  lemma DeleteAppend(a: seq<Todo>, b: seq<Todo>, id: int)
    ensures DeleteTask(a + b, id, true) == DeleteTask(a, id, true) + DeleteTask(b, id, true)
  {
    FilterAppend((t: Todo) => t.id != id, a, b);
  }

  /**
   * `editTask`: `answer` is what `prompt` returned (`None` when cancelled). A
   * non-blank answer replaces the text of the first task with this id, trimmed
   * and escaped; anything else changes nothing.
   */
  function EditTask(tasks: seq<Todo>, id: int, answer: Option<string>, escape: string -> string, now: int): (r: seq<Todo>)
    ensures |r| == |tasks|
    ensures Find(tasks, id).None? || answer.None? || AllSpace(Js, answer.value) ==> r == tasks
    ensures Find(tasks, id).Some? && answer.Some? && !AllSpace(Js, answer.value) ==>
              var i := Find(tasks, id).value;
              && r[i] == tasks[i].(text := escape(Trim(Js, answer.value)), updatedAt := now)
              && forall j :: 0 <= j < |tasks| && j != i ==> r[j] == tasks[j]
  {
    match Find(tasks, id)
    case None => tasks
    case Some(i) =>
      if answer.Some? && Trim(Js, answer.value) != [] then
        tasks[i := tasks[i].(text := escape(Trim(Js, answer.value)), updatedAt := now)]
      else tasks
  }

  /**
   * Editing has no length limit: a text `addTask` refuses as too long is still
   * accepted as the new text of an existing task.
   */
  lemma EditAcceptsTooLong(tasks: seq<Todo>, id: int, text: string, priority: string,
                           escape: string -> string, now: int, id2: int, created: int, updated: int)
    requires Find(tasks, id).Some?
    requires AddTask(tasks, text, priority, escape, id2, created, updated).error == Some(TooLong)
    ensures EditTask(tasks, id, Some(text), escape, now)[Find(tasks, id).value].text == escape(Trim(Js, text))
  {
  }

  // ----- filterTasks -----

  /** The filter names the list offers; any other name shows every task. */
  const Views: set<string> := {"ativas", "completas", "alta", "media", "baixa"}

  function HasPriority(priority: string): Todo -> bool {
    (t: Todo) => t.priority == priority
  }

  /** The test each filter name applies. */
  function ShownBy(filter: string): Todo -> bool {
    match filter
    case "ativas" => IsActive
    case "completas" => IsCompleted
    case _ => HasPriority(filter)
  }

  /** `filterTasks`: the tasks the chosen filter shows, in list order. */
  function FilterTasks(tasks: seq<Todo>, filter: string): (r: seq<Todo>)
    ensures |r| <= |tasks|
    ensures filter == "ativas" ==> forall t :: t in r <==> t in tasks && !t.completed
    ensures filter == "completas" ==> forall t :: t in r <==> t in tasks && t.completed
    ensures filter in {"alta", "media", "baixa"} ==> forall t :: t in r <==> t in tasks && t.priority == filter
    ensures filter !in Views ==> r == tasks
  {
    if filter in Views then
      FilterMembers(ShownBy(filter), tasks);
      Filter(ShownBy(filter), tasks)
    else tasks
  }

  /** Each view filters a longer list part by part, so the shown tasks keep their list order. */
  lemma FilterTasksAppend(a: seq<Todo>, b: seq<Todo>, filter: string)
    ensures FilterTasks(a + b, filter) == FilterTasks(a, filter) + FilterTasks(b, filter)
  {
    if filter in Views {
      FilterAppend(ShownBy(filter), a, b);
    }
  }

  /** What each view makes of a single task. */
  lemma FilterTasksOne(t: Todo, filter: string)
    ensures filter == "ativas" ==> FilterTasks([t], filter) == if t.completed then [] else [t]
    ensures filter == "completas" ==> FilterTasks([t], filter) == if t.completed then [t] else []
    ensures filter in {"alta", "media", "baixa"} ==>
              FilterTasks([t], filter) == if t.priority == filter then [t] else []
    ensures filter !in Views ==> FilterTasks([t], filter) == [t]
  {
    if filter in Views {
      FilterOne(ShownBy(filter), t);
    }
  }

  /** The "ativas" and "completas" views split the list between them. */
  lemma ActiveCompletedPartition(tasks: seq<Todo>)
    ensures multiset(FilterTasks(tasks, "ativas")) + multiset(FilterTasks(tasks, "completas")) == multiset(tasks)
    ensures |FilterTasks(tasks, "ativas")| + |FilterTasks(tasks, "completas")| == |tasks|
  {
    FilterPartition(IsActive, IsCompleted, tasks);
  }

  // ----- sortTasks -----

  /** The priority order `{ alta: 1, media: 2, baixa: 3 }`; any other text ranks last. */
  function PriorityRank(t: Todo): int {
    match t.priority
    case "alta" => 1
    case "media" => 2
    case "baixa" => 3
    case _ => 4
  }

  function NewestFirst(t: Todo): int {
    -t.createdAt
  }

  function OldestFirst(t: Todo): int {
    t.createdAt
  }

  /**
   * The sort key of each sort option; `collate` ranks texts the way
   * `localeCompare(_, 'pt-BR')` orders them. No key: the copy is left as it is.
   */
  function SortKey(sort: string, collate: string -> int): Option<Todo -> int> {
    match sort
    case "data-desc" => Some(NewestFirst)
    case "data-asc" => Some(OldestFirst)
    case "prioridade" => Some(PriorityRank)
    case "alfabetica" => Some((t: Todo) => collate(t.text))
    case _ => None
  }

  /** `sortTasks`: a sorted copy; ties keep their order, as `Array.prototype.sort` is stable. */
  function SortTasks(tasks: seq<Todo>, sort: string, collate: string -> int): (r: seq<Todo>)
    ensures multiset(r) == multiset(tasks) && |r| == |tasks|
    ensures sort == "data-desc" ==> forall i, j :: 0 <= i < j < |r| ==> r[i].createdAt >= r[j].createdAt
    ensures sort == "data-asc" ==> forall i, j :: 0 <= i < j < |r| ==> r[i].createdAt <= r[j].createdAt
    ensures sort == "prioridade" ==> forall i, j :: 0 <= i < j < |r| ==> PriorityRank(r[i]) <= PriorityRank(r[j])
    ensures sort == "alfabetica" ==> forall i, j :: 0 <= i < j < |r| ==> collate(r[i].text) <= collate(r[j].text)
    ensures SortKey(sort, collate).None? ==> r == tasks
  {
    match SortKey(sort, collate)
    case None => tasks
    case Some(key) =>
      var r := SortBy(key, tasks);
      assert forall i, j :: 0 <= i < j < |r| ==> key(r[i]) <= key(r[j]);
      r
  }

  /** With "prioridade", tasks of the same priority appear in their original order. */
  lemma SortByPriorityStable(tasks: seq<Todo>, collate: string -> int, rank: int)
    ensures Filter(KeyIs(PriorityRank, rank), SortTasks(tasks, "prioridade", collate))
            == Filter(KeyIs(PriorityRank, rank), tasks)
  {
    SortByStable(PriorityRank, tasks, rank);
  }

  /** With "data-desc", tasks created at the same time appear in their original order. */
  lemma SortByNewestStable(tasks: seq<Todo>, collate: string -> int, key: int)
    ensures Filter(KeyIs(NewestFirst, key), SortTasks(tasks, "data-desc", collate))
            == Filter(KeyIs(NewestFirst, key), tasks)
  {
    SortByStable(NewestFirst, tasks, key);
  }

  // ----- updateStats -----

  function IsOpenHighPriority(t: Todo): bool {
    t.priority == "alta" && !t.completed
  }

  datatype Stats = Stats(total: nat, completed: nat, active: int, highPriority: nat, percent: int)

  /**
   * `updateStats`: the counts, and the completed share as a percentage rounded to
   * the nearest integer, halves upwards (`Math.round`), or 0 for an empty list.
   */
  function UpdateStats(tasks: seq<Todo>): (s: Stats)
    ensures s.total == |tasks|
    ensures s.completed == |FilterTasks(tasks, "completas")|
    ensures s.active == s.total - s.completed == |FilterTasks(tasks, "ativas")|
    ensures 0 <= s.highPriority <= s.active
    ensures s.total == 0 ==> s.percent == 0
    ensures s.total > 0 ==> 0 <= s.percent <= 100
    ensures s.total > 0 ==> NearestPercent(s.percent, s.completed, s.total)
  {
    var total := |tasks|;
    var completed := |Filter(IsCompleted, tasks)|;
    ActiveCompletedPartition(tasks);
    OpenHighPriorityCount(tasks);
    Stats(total, completed, total - completed, |Filter(IsOpenHighPriority, tasks)|, Percent(completed, total))
  }

  /** `p` is 100 c / t rounded to the nearest integer, halves upwards. */
  predicate NearestPercent(p: int, c: int, t: int) {
    2 * t * p <= 200 * c + t < 2 * t * (p + 1)
  }

  /** `Math.round(completed / total * 100)`, or 0 for an empty list. */
  function Percent(completed: nat, total: nat): (p: int)
    requires completed <= total
    ensures total == 0 ==> p == 0
    ensures total > 0 ==> 0 <= p <= 100
    ensures total > 0 ==> NearestPercent(p, completed, total)
  {
    if total == 0 then 0
    else
      var p := (200 * completed + total) / (2 * total);
      RoundedShare(completed, total, p);
      p
  }

  /** The open high-priority tasks are among the active ones. */
  lemma OpenHighPriorityCount(tasks: seq<Todo>)
    ensures |Filter(IsOpenHighPriority, tasks)| <= |FilterTasks(tasks, "ativas")|
  {
    FilterStricter(IsOpenHighPriority, IsActive, tasks);
  }

  /** The high-priority count is exactly the number of open tasks the "alta" view shows. */
  lemma HighPriorityIsOpenAltaView(tasks: seq<Todo>)
    ensures UpdateStats(tasks).highPriority == |FilterTasks(FilterTasks(tasks, "alta"), "ativas")|
  {
    FilterFilter(ShownBy("alta"), IsActive, IsOpenHighPriority, tasks);
  }

  /** `percent` is `(200 c + t) / 2t` rounded down, so it is the nearest integer to 100 c / t, within 0..100. */
  lemma RoundedShare(c: nat, t: nat, percent: int)
    requires 0 < t && c <= t && percent == (200 * c + t) / (2 * t)
    ensures 0 <= percent <= 100
    ensures 2 * t * percent <= 200 * c + t < 2 * t * (percent + 1)
  {
    var n, d := 200 * c + t, 2 * t;
    DivBounds(n, d);
    assert n < d * 101;
    if percent > 100 {
      MulMonotone(d, 101, percent);
    }
  }

  lemma DivBounds(n: nat, d: nat)
    requires 0 < d
    ensures 0 <= n / d && d * (n / d) <= n < d * (n / d + 1)
  {
  }

  lemma MulMonotone(d: nat, a: int, b: int)
    requires a <= b
    ensures d * a <= d * b
  {
  }

  // ----- clearCompleted, clearAll -----

  /** `clearCompleted`: when confirmed, exactly the open tasks remain, in order. */
  function ClearCompleted(tasks: seq<Todo>, confirmed: bool): (r: seq<Todo>)
    ensures !confirmed ==> r == tasks
    ensures confirmed ==> forall t :: t in r <==> t in tasks && !t.completed
  {
    if confirmed then
      FilterMembers(IsActive, tasks);
      Filter(IsActive, tasks)
    else tasks
  }

  /** Clearing a longer list clears each part: the open tasks keep their order. */
  lemma ClearCompletedAppend(a: seq<Todo>, b: seq<Todo>)
    ensures ClearCompleted(a + b, true) == ClearCompleted(a, true) + ClearCompleted(b, true)
  {
    FilterAppend(IsActive, a, b);
  }

  /** A single task stays exactly when it is open. */
  lemma ClearCompletedOne(t: Todo)
    ensures ClearCompleted([t], true) == if t.completed then [] else [t]
  {
    FilterOne(IsActive, t);
  }

  /** Clearing the completed tasks leaves what the "ativas" filter shows. */
  lemma ClearCompletedIsActiveView(tasks: seq<Todo>)
    ensures ClearCompleted(tasks, true) == FilterTasks(tasks, "ativas")
    ensures UpdateStats(ClearCompleted(tasks, true)).completed == 0
  {
    var r := ClearCompleted(tasks, true);
    FilterMembers(IsActive, tasks);
    FilterMembers(IsCompleted, r);
    FilterNone(IsCompleted, r);
  }

  /** `clearAll`: both confirmations are needed to empty the list. */
  function ClearAll(tasks: seq<Todo>, first: bool, second: bool): (r: seq<Todo>)
    ensures r == [] <==> (first && second) || tasks == []
    ensures !(first && second) ==> r == tasks
  {
    if first && second then [] else tasks
  }
}

=== FILE: wrappers.dfy ===
/** Optional values: `None` stands for Java's `null` or a JavaScript value that is absent. */
module Wrappers {

  datatype Option<+T> = None | Some(value: T) {

    /** Returns the wrapped value, or `default` when there is none. */
    function GetOr(default: T): T {
      match this
      case Some(v) => v
      case None => default
    }
  }
}
